=== FILE: README.md ===
# DikiTivi API: a Dafny model of its controller rules

DikiTivi is a Laravel JSON API for a streaming and e-book catalogue. Almost
every controller action is a rule set on top of an ORM table. This project
models those rules as pure functions. Each table is a finite map from id to
row, together with an auto-increment counter (`Tables.Table`). Each
controller action takes the tables and the request and returns the new
tables with either an error or its result. When an action is not
transactional, its writes stay in place after a late refusal, so it returns
the tables together with its outcome.

Modules, in the order the system layers them:

- `Base`, `Text`, `Tables`, `Unique`, `Schema`: the shared vocabulary.
  - `Base` holds PHP's loose comparisons on nullable strings.
  - `Text` holds `explode`/`implode`, `is_numeric` and string order.
  - `Tables` holds the ORM's `first`, `get`, `create`, `update` and `delete` on id-keyed maps.
  - `Unique` is the one shape every "unique column" rule shares.
  - `Schema` holds the shared rows.
- `Reference` and `Payments` (PaymentController):
  - reading the user, cart and donation ids from the third to fifth `-`-separated segments of the payment reference;
  - the callback upsert keyed by order number, which rotates the paid cart's code;
  - the lookups and the status switch.
- `Carts` (CartController) and `UserResource` (the user resource's `toArray`):
  - payment-code uniqueness;
  - the watchlist get-or-create;
  - adding and removing media;
  - the membership test.
- `Users` (UserController `store`, `update`, `destroy`) and `UserAccess` (`login`, `findByParentalCode`, `switchStatus`, `updatePassword`).
- `PasswordResets` (PasswordResetController `store`, `searchByEmailOrPhone`, `checkToken`).
- `Countries`, `Pricings`, `Parts`, `Books`, `Medias`: the catalogue controllers, each with a column that is required and unique within a scope.
- `Orders`, `Donations`, `Sessions`: the plain create, update and delete actions.

Conventions:

- A request string is a `Field` (`Option<string>`).
  - PHP's `$x == null` is `IsNull`: absent, or the empty string.
  - `empty($x)` is `PhpEmpty`, which also counts `"0"`.
  - `trim($x) == null` is `Blank`.
  - Loose `==` between nullable strings is `Same`.
  - SQL `where(col, v)` is exact equality, and `None` stands for `IS NULL`.
- Hashing, random draws, clocks and the SMS gateway are parameters.
  - Their outputs are only constrained by length or alphabet, through subset types such as `Code7` and `Token7`.

## Model

| member | source | states |
|---|---|---|
| Text.NatToStrRoundTrip | app/Http/Controllers/API/PasswordResetController.php:40 | reading the decimal rendering of a number back as digits gives the number |
| Text.JoinSplit | app/Http/Controllers/API/PaymentController.php:35-37 | joining the `-`-separated pieces of a string gives back the string |
| Text.SplitJoin | app/Http/Controllers/API/PaymentController.php:35-37 | splitting pieces that hold no separator, after joining them, gives back the pieces |
| Text.DigitsAreNumeric | app/Http/Controllers/API/PasswordResetController.php:175 | every non-empty digit string passes `is_numeric` |
| Text.LexTotal | app/Http/Controllers/API/CountryController.php:22 | any two names are comparable in the listing order |
| Text.LexTransitive | app/Http/Controllers/API/CountryController.php:22 | the listing order is transitive |
| Reference.Decode | app/Http/Controllers/API/PaymentController.php:35-37 | fails exactly when the reference, read as "" when null, has fewer than five segments. Otherwise the user, cart and donation ids are read from segments 3, 4 and 5: a segment that is not a digit string gives no id, and a digit string gives its value, capped at PHP_INT_MAX as `(int)` does |
| Reference.DecodeIdRoundTrip | app/Http/Controllers/API/PaymentController.php:35-37 | an encoded id, or the placeholder for none, decodes to itself |
| Reference.ThreeSegmentsFail | app/Http/Controllers/API/PaymentController.php:35-37 | a reference with only three segments makes the callback fail |
| Reference.NullReferenceFails | app/Http/Controllers/API/PaymentController.php:35-37 | a callback with no reference fails |
| Reference.RoundTrip | app/Http/Controllers/API/PaymentController.php:35-37 | for a sample writing of references (`<tag>-<nonce>-<user>-<cart>-<donation>`, `ANONYMOUS` for a missing id), decoding recovers exactly the ids written, when each is at most PHP_INT_MAX |
| Payments.RotateCode | app/Http/Controllers/API/PaymentController.php:43-54 | only the referenced, existing cart gets the new payment code; with no such cart, no cart changes |
| Payments.Store | app/Http/Controllers/API/PaymentController.php:33-108 | fails with nothing written exactly when the reference cannot be read. Otherwise, when a payment holds the order number, that row is rewritten in place with every callback column and the reference's ids, keeping its creation time. Else exactly one row is added, with the callback's creation time. No other payment changes, and the carts change only by the code rotation |
| Payments.StorePreservesUniqueness | app/Http/Controllers/API/PaymentController.php:39-105 | the upsert keeps order numbers unique |
| Payments.StoreLeavesOneRow | app/Http/Controllers/API/PaymentController.php:39-105 | afterwards exactly one payment carries the callback's order number |
| Payments.LastWriterWins | app/Http/Controllers/API/PaymentController.php:56-71 | a second callback with the same order number rewrites the same row with its own values, keeping the first creation time |
| Payments.StoreIdempotent | app/Http/Controllers/API/PaymentController.php:42-73 | replaying a callback leaves the payments as the first delivery left them |
| Payments.Update | app/Http/Controllers/API/PaymentController.php:135-160 | all thirteen listed columns take the request values, nulls included, and the row keeps its creation time; other payments are untouched; a missing payment is an error |
| Payments.UpdateForgetsPrevious | app/Http/Controllers/API/PaymentController.php:156 | the blanket update's outcome does not depend on an earlier update |
| Payments.FindByOrderNumber | app/Http/Controllers/API/PaymentController.php:197-207 | the result holds the order number; there is none exactly when no payment has it |
| Payments.FindByOrderNumberUser | app/Http/Controllers/API/PaymentController.php:215-225 | a payment is returned only when both the order number and the user match; otherwise none |
| Payments.FindByOrderNumberUserAgrees | app/Http/Controllers/API/PaymentController.php:197-225 | with unique order numbers, the user-scoped lookup is the plain lookup filtered by owner |
| Payments.SwitchStatus | app/Http/Controllers/API/PaymentController.php:233-250 | an unknown status is refused, and a missing payment fails on the null row. Otherwise the payment takes the status, every other column and payment is kept |
| Payments.SwitchStatusIdempotent | app/Http/Controllers/API/PaymentController.php:233-250 | switching a payment to the status it was just given changes nothing more |
| Payments.SwitchStatusBack | app/Http/Controllers/API/PaymentController.php:233-250 | switching back to the former status restores the payments |
| Carts.Store | app/Http/Controllers/API/CartController.php:37-64 | refused exactly when the user is missing or some cart's code loosely equals the new code; otherwise one cart is added with the request's columns |
| Carts.StorePreservesUniqueCodes | app/Http/Controllers/API/CartController.php:55-59 | creating a cart keeps payment codes unique |
| Carts.Update | app/Http/Controllers/API/CartController.php:90-140 | refused exactly when the cart is missing, or when a new non-null code comes with a body id that names no cart (reading that cart's code fails, a server error), or with a code that differs from the body's cart's code and is held by a cart. Otherwise only the route's cart changes, each column replaced only by a non-null request value |
| Carts.EmptyUpdateIsIdentity | app/Http/Controllers/API/CartController.php:119-138 | an update whose fields are all null changes nothing |
| Carts.UpdatePreservesUniqueCodes | app/Http/Controllers/API/CartController.php:104-117 | when the body's id is the route's cart, the update keeps codes unique |
| Carts.UpdateDuplicatesCode | app/Http/Controllers/API/CartController.php:104-117 | as written, a body id naming another cart lets the route's cart take that cart's code |
| Carts.UpdateIntended | app/Http/Controllers/API/CartController.php:104-138 | the corrected update compares the new code with the route cart's own code |
| Carts.UpdateIntendedPreservesUniqueCodes | app/Http/Controllers/API/CartController.php:104-117 | the corrected update always keeps codes unique |
| Carts.GetOrCreate | app/Http/Controllers/API/CartController.php:180-190 | gives the user's first cart of the type unchanged when there is one; otherwise it adds exactly one empty cart of that user and type |
| Carts.GetOrCreateIdempotent | app/Http/Controllers/API/CartController.php:180-190 | asking again returns the same cart and creates nothing |
| Carts.FindByType | app/Http/Controllers/API/CartController.php:166-196 | for the watchlist type it gives the user's first cart of that type unchanged, or adds exactly one empty one when there is none; for any other type it lists exactly the user's carts of the type and creates none |
| Carts.FindByTypeIdempotent | app/Http/Controllers/API/CartController.php:166-196 | asking again gives the same answer and creates nothing more |
| Carts.IsInside | app/Http/Controllers/API/CartController.php:207-235 | answers 1 exactly when the user's first cart of the type has an order line for the media, else 0; when the media, user and type exist but the user has no cart of that type, reading its order lines is a server error |
| Carts.AddToCart | app/Http/Controllers/API/CartController.php:246-288 | the type is the first whose name in the request's locale is the given name. The user's cart of that type is found or created, and exactly one order line (media, cart) is added, with no deduplication; on an error nothing changes |
| Carts.AddThenInside | app/Http/Controllers/API/CartController.php:207-288 | after a successful add, the membership test answers 1 |
| Carts.RemoveFromCart | app/Http/Controllers/API/CartController.php:296-315 | exactly one order line of that media in that cart is deleted; with none the call fails |
| Carts.AddThenRemove | app/Http/Controllers/API/CartController.php:246-315 | adding a media and removing it again leaves as many lines of it in the cart as before |
| Carts.RemoveAddedLine | app/Http/Controllers/API/CartController.php:296-315 | after one line of a media is added to a cart, removing that media succeeds and takes the cart back to its earlier count of lines of it |
| UserResource.ToArray | app/Http/Resources/User.php:21-72 | the age is reported exactly when the birth date is not empty. Each identity-card URL is null exactly when its stored path is null, and is otherwise the storage URL followed by the path. The avatar falls back to the default picture. The watchlist id names the user's one type-14 cart, created only when absent |
| UserResource.ToArrayStable | app/Http/Resources/User.php:24-31 | rendering a user twice shows the same watchlist and creates nothing more |
| UserResource.AvatarUrlDecodes | app/Http/Resources/User.php:56 | the avatar URL lies under the storage URL exactly when an avatar is stored, and then the stored path follows that prefix |
| Users.EmailRule | app/Http/Controllers/API/UserController.php:87-89 | an e-mail is accepted exactly when it is present, lower-case, well formed, at most 255 characters, and held by no account |
| Users.ChildEmail | app/Http/Controllers/API/UserController.php:91-94 | with no e-mail and no phone, the address is `child-` + 10 characters + `@no_mail.com`; otherwise it is the given e-mail |
| Users.ChildEmailUnreachable | app/Http/Controllers/API/UserController.php:87-94 | once the e-mail rule has passed, the generated child address is never used |
| Users.AssignParentalCode | app/Http/Controllers/API/UserController.php:141-157 | a parent without a code receives one, and a parent with a code is left as it was |
| Users.ParentalCodeStable | app/Http/Controllers/API/UserController.php:151-156 | a second assignment never replaces the first code |
| Users.Hashed | app/Http/Controllers/API/UserController.php:74 | a password is hashed exactly when it is not empty, and then the hash is of that password |
| Users.Enrol | app/Http/Controllers/API/UserController.php:159-293 | fails exactly when the SMS to a given phone is not sent, or when a child is created whose parent has no reset row (the new row counted). The reset row with the one-time code is written in every case; an unsent SMS writes no account, while a parent without a reset row leaves the child written with the parent's password. On success the account is new, holds the request's identity, is unverified, is intermediate and takes the new API token. Its password is the request's hash, a generated one's hash, or the parent's for a child, and a child's reset row holds the former password of one of its parent's reset rows |
| Users.Register | app/Http/Controllers/API/UserController.php:266-292 | the account is added under a fresh id and no other account changes; it fails exactly for a child whose parent holds no reset row, with the reset rows untouched |
| Users.Inherit | app/Http/Controllers/API/UserController.php:275-292 | the child takes its parent's password; it fails exactly when no reset row is its parent's, and otherwise only the child's reset row changes, taking the former password of a reset row of the parent |
| Users.Store | app/Http/Controllers/API/UserController.php:56-320 | the e-mail rule refuses first, with no write. An existing phone is refused, also with no write. Whatever the outcome, every account is kept except that a parent without a code receives one. A success implies the phone and username were free, the parent existed and has a reset row, the confirmation matched, and the SMS was sent |
| Users.Admit | app/Http/Controllers/API/UserController.php:132-292 | after the username, parent and confirmation checks: a success implies each of them passed; it adds one account holding the request's identity and one reset row holding the address and the code, keeps every other reset row, and changes no other account beyond the parent's code |
| Users.Enter | app/Http/Controllers/API/UserController.php:141-292 | once every check has passed: the parent gets a code if it had none, and on success one account and one reset row are added as above, the SMS was sent when a phone was given, and a child's parent has a reset row |
| Users.StoreKeepsIdentitiesUnique | app/Http/Controllers/API/UserController.php:87-139 | a successful store keeps e-mails, phones and usernames unique |
| Users.StoreThenCheckToken | app/Http/Controllers/API/UserController.php:159-213 | checking the new address with the code `store` issued verifies the new account |
| Users.NewEmail | app/Http/Controllers/API/UserController.php:469-482 | a new e-mail replaces the old one, and its verification time is cleared exactly when it differs from the current address |
| Users.NewPhone | app/Http/Controllers/API/UserController.php:543-556 | a new phone replaces the old one, and its verification time is cleared exactly when it differs from the current number |
| Users.Settings | app/Http/Controllers/API/UserController.php:646-665 | the parental code and verification times are replaced only by non-null request values; identity and password are kept |
| Users.Preferences | app/Http/Controllers/API/UserController.php:742-762 | theme, country and status are replaced only by non-null request values; everything else is kept |
| Users.NewPassword | app/Http/Controllers/API/UserController.php:705-738 | the account takes the new password, and so do its children when it holds a parental code; no other account changes |
| Users.SetPassword | app/Http/Controllers/API/UserController.php:705-738 | fails exactly when the account holds a parental code and one of its children with an e-mail or phone has no reset row for it. Then the account and the children up to that one already hold the new password, and no one else changed; otherwise it is the plain password change |
| Users.Identify | app/Http/Controllers/API/UserController.php:394-622 | the profile columns are replaced only by non-null request values. The e-mail, phone and username steps succeed exactly when no clash is found against the accounts as first read; a refusal keeps the steps already taken |
| Users.Adopt | app/Http/Controllers/API/UserController.php:624-645 | the account gets the new parent, and the parent's existing code is kept. In the account's own row only the parent column changes, plus the code when the account names itself as a parent without a code |
| Users.Complete | app/Http/Controllers/API/UserController.php:624-762 | the later steps fail only for a missing parent, a mismatching confirmation, or a child's missing reset row on a password change, and never change an identity. On success the account's row differs only in the parent, the code, the verification times, the hashed password and the non-null theme, country and status |
| Users.UpdateFrom | app/Http/Controllers/API/UserController.php:364-764 | other accounts keep their identity. It succeeds exactly when there is no identity clash, the parent exists, the confirmation matches and no child's reset row is missing. Then the account's row is fully determined: the non-null profile, e-mail, phone, username, parent, code, theme, country and status values of the request, the hashed password, and each verification time cleared exactly when its address changed unless the request sets it. The API token and documents are unchanged |
| Users.Update | app/Http/Controllers/API/UserController.php:364-764 | as written, a missing account is not found. When the body's id names no account and the request sets an e-mail or a phone, the profile columns are written and reading the missing row's e-mail or phone is a server error. Otherwise the clash checks compare with the row the body's id names and skip a new value whose current one is unset. Success holds exactly when none of them fires and the later steps pass. The account's row then holds every non-null request value, including profile, code, theme, country and status, and nothing else in it changes |
| Users.UpdateDuplicatesEmail | app/Http/Controllers/API/UserController.php:457-467 | as written, an account without an e-mail can take another account's address |
| Users.UpdateIntended | app/Http/Controllers/API/UserController.php:364-764 | the corrected update reads the route's own row and checks every new value; it succeeds exactly when no value clashes and the later steps pass. The account's row then holds every non-null request value, including profile, code, theme, country and status, and nothing else in it changes |
| Users.UpdateIntendedAgrees | app/Http/Controllers/API/UserController.php:457-622 | when the body's id is the route's account and that account has an e-mail, a phone and a username, the two updates agree |
| Users.UpdateIntendedKeepsIdentitiesUnique | app/Http/Controllers/API/UserController.php:457-622 | the corrected update keeps e-mails, phones and usernames unique |
| Users.EmptyUpdateIsIdentity | app/Http/Controllers/API/UserController.php:364-764 | an update whose fields are all null changes nothing |
| Users.Destroy | app/Http/Controllers/API/UserController.php:772-824 | the account goes. Its children are orphaned. Its e-mail reset row goes, or else its phone reset row. Every other account keeps its columns |
| Users.DestroyKeepsIdentitiesUnique | app/Http/Controllers/API/UserController.php:772-824 | deleting an account keeps identities unique |
| UserAccess.Login | app/Http/Controllers/API/UserController.php:908-987 | a numeric username is looked up as a phone, anything else as an e-mail or username. A wrong password and an unverified phone are refused. An unverified e-mail is refused only when the username is that e-mail. Conversely, every request the rules admit signs in (`UserAccess.SignsIn`). Success changes only the API token |
| UserAccess.UsernameLoginIgnoresEmail | app/Http/Controllers/API/UserController.php:955-986 | a login by username into an account whose e-mail is unverified succeeds, since only a login that used the e-mail must be verified |
| UserAccess.WrongPasswordRefused | app/Http/Controllers/API/UserController.php:931-962 | a password that matches no account's hash never signs in |
| UserAccess.FindByParentalCode | app/Http/Controllers/API/UserController.php:997-1022 | only the first parent holding the code may list, and the list is exactly that parent's children |
| UserAccess.ParentFindsChildren | app/Http/Controllers/API/UserController.php:1005-1021 | a parent holding a code no one else holds finds exactly its children |
| UserAccess.ChildIsRefused | app/Http/Controllers/API/UserController.php:1005-1012 | a child account is refused whatever code it gives |
| UserAccess.StatusAfter | app/Http/Controllers/API/UserController.php:1048-1098 | blocking yields blocked. Activated or intermediate yields intermediate when both card images are null, and activated otherwise. Any other id leaves the status |
| UserAccess.SwitchStatus | app/Http/Controllers/API/UserController.php:1031-1101 | only the account's status changes; a missing account is an error |
| UserAccess.SwitchStatusIdempotent | app/Http/Controllers/API/UserController.php:1048-1098 | switching to the same status twice equals switching once |
| UserAccess.Refresh | app/Http/Controllers/API/UserController.php:1161-1231 | the first reset row for the account gets the new code and former password, or a row is created; no other row changes |
| UserAccess.Reissue | app/Http/Controllers/API/UserController.php:1161-1231 | the reset row is chosen by e-mail and phone, by e-mail, or by phone, whichever the account has; an account with neither leaves the rows alone |
| UserAccess.PasswordRefusal | app/Http/Controllers/API/UserController.php:1136-1154 | a change is refused exactly when a field is missing, the account is missing (reading its hash fails, a server error), the former password does not verify, or the confirmation differs |
| UserAccess.UpdatePassword | app/Http/Controllers/API/UserController.php:1126-1270 | after the checks, the account and, for a parent with a code, its children take the new hash. No other column of the account changes, and no other account changes |
| UserAccess.UpdatePasswordAsWritten | app/Http/Controllers/API/UserController.php:1239-1266 | as written, a parent with a child holding an e-mail or phone ends in an error |
| UserAccess.PasswordChangedThoughRefused | app/Http/Controllers/API/UserController.php:1233-1266 | as written, that error comes after the parent's password was already changed |
| UserAccess.UpdatePasswordThenLogin | app/Http/Controllers/API/UserController.php:1233-1237 | after a change, the owner of a verified, unshared phone signs in with the new password |
| PasswordResets.TokenString | app/Http/Controllers/API/PasswordResetController.php:40 | a token is a 7-digit decimal string whose value is the drawn number |
| PasswordResets.TokenStringInjective | app/Http/Controllers/API/PasswordResetController.php:40 | different draws give different tokens |
| PasswordResets.Store | app/Http/Controllers/API/PasswordResetController.php:38-89 | refused exactly when each identifier is null, empty or a single space. Otherwise the first row for the e-mail is replaced by a new row with a fresh token, or, without an e-mail, the first row for the phone |
| PasswordResets.StoreKeepsUniqueEmails | app/Http/Controllers/API/PasswordResetController.php:66-76 | storing keeps at most one reset row per e-mail |
| PasswordResets.StoreThenFind | app/Http/Controllers/API/PasswordResetController.php:66-76 | the row stored for an address is the first row found for it |
| PasswordResets.ChannelOf | app/Http/Controllers/API/PasswordResetController.php:175 | a datum is searched as a phone exactly when it is numeric |
| PasswordResets.SearchByEmailOrPhone | app/Http/Controllers/API/PasswordResetController.php:171-220 | the token is regenerated only when both an account and a reset row hold the datum; otherwise nothing changes |
| PasswordResets.CheckToken | app/Http/Controllers/API/PasswordResetController.php:312-426 | as written: with one identifier it is the intended check. With both, it runs the two-step check on the strings "email" and "phone", so when no account holds those strings the request fails with a server error and changes nothing |
| PasswordResets.CheckBoth | app/Http/Controllers/API/PasswordResetController.php:329-369 | with no account for either value, a server error and no change. Success holds exactly when some account is found and each step whose account is found finds its first reset row holding the token. The answer is the account found by phone, else by e-mail. Each found account gets the verification time of a step that passed, an e-mail step's write staying after a failing phone step, and nothing else changes |
| PasswordResets.CheckTokenIntended | app/Http/Controllers/API/PasswordResetController.php:312-426 | blank identifiers and a blank token are refused. With one identifier, success holds exactly when an account holds it and the identifier's first reset row holds the token; a refusal changes nothing, a wrong token is a bad token, and success sets that account's verification time. With both, it is the two-step check on the request's values |
| PasswordResets.CheckBothSole | app/Http/Controllers/API/PasswordResetController.php:329-369 | with one account and one reset row holding an e-mail and a phone, the intended check with both and the right code verifies both on that account and nothing else |
| PasswordResets.CheckBothLiteralLookups | app/Http/Controllers/API/PasswordResetController.php:329-333 | for that same request the check as written fails with a server error and changes nothing, while the intended check succeeds |
| PasswordResets.SearchThenCheckEmail | app/Http/Controllers/API/PasswordResetController.php:198-219 | the code a search by e-mail issues verifies the account the search found |
| PasswordResets.SearchThenCheckPhone | app/Http/Controllers/API/PasswordResetController.php:175-196 | the code a search by phone issues verifies the account the search found |
| PasswordResets.CheckSoleEmail | app/Http/Controllers/API/PasswordResetController.php:372-397 | with one account and one reset row for an address, the right code verifies that account and nothing else |
| Countries.Store | app/Http/Controllers/API/CountryController.php:33-59 | refused exactly when the name is null, empty or a single space, or loosely equals a country's name; otherwise one country is added |
| Countries.StoreKeepsUniqueNames | app/Http/Controllers/API/CountryController.php:50-56 | creating a country keeps names unique |
| Countries.Search | app/Http/Controllers/API/CountryController.php:138-143 | finds exactly the countries whose name is the datum |
| Countries.StoreThenSearch | app/Http/Controllers/API/CountryController.php:33-143 | a stored country is the only one its name finds |
| Countries.Update | app/Http/Controllers/API/CountryController.php:85-114 | the name is required. A body id that names no country is a server error, since the loop reads that country's name. A name that differs from the body's country's name must be free. Then every column takes the request value, nulls included |
| Countries.UpdateKeepsUniqueNames | app/Http/Controllers/API/CountryController.php:103-111 | when the body's id is the route's country, the update keeps names unique |
| Countries.Destroy | app/Http/Controllers/API/CountryController.php:122-129 | exactly that country goes |
| Countries.DestroyFreesName | app/Http/Controllers/API/CountryController.php:33-129 | after a deletion, storing the same name again succeeds |
| Countries.NameLeTotal | app/Http/Controllers/API/CountryController.php:22 | any two names, null included, are ordered one way or the other |
| Countries.NameLeTransitive | app/Http/Controllers/API/CountryController.php:22 | the name order is transitive |
| Countries.Index | app/Http/Controllers/API/CountryController.php:22 | lists every country exactly once, with names never decreasing |
| Pricings.Store | app/Http/Controllers/API/PricingController.php:33-58 | refused exactly when the deadline is blank or already in use; otherwise one pricing is added |
| Pricings.StoreKeepsUniqueDeadlines | app/Http/Controllers/API/PricingController.php:49-55 | creating a pricing keeps deadlines unique |
| Pricings.Update | app/Http/Controllers/API/PricingController.php:84-119 | with a new non-null deadline, a body id that names no pricing is a server error, since the loop reads its deadline; a deadline that differs from that pricing's must be free. Each non-null value replaces its column; no other pricing changes |
| Pricings.UpdateKeepsUniqueDeadlines | app/Http/Controllers/API/PricingController.php:94-109 | when the body's id is the route's pricing, the update keeps deadlines unique |
| Pricings.EmptyUpdateIsIdentity | app/Http/Controllers/API/PricingController.php:96-116 | an update whose fields are null changes nothing |
| Pricings.Destroy | app/Http/Controllers/API/PricingController.php:127-134 | exactly that pricing goes |
| Pricings.DestroyKeepsUniqueDeadlines | app/Http/Controllers/API/PricingController.php:127-134 | deleting a pricing keeps deadlines unique |
| Pricings.DestroyFreesDeadline | app/Http/Controllers/API/PricingController.php:33-134 | after a deletion, storing the same deadline again succeeds |
| Parts.Store | app/Http/Controllers/API/PartController.php:33-63 | the title and then the URL are required, and the title must be free within the request's media; otherwise one part is added |
| Parts.StoreKeepsUniqueTitles | app/Http/Controllers/API/PartController.php:54-60 | creating a part keeps titles unique within each media |
| Parts.Update | app/Http/Controllers/API/PartController.php:89-132 | as written, a new title is checked against the parts of the request's media; when that media has parts and the body id names no part, reading that part's title is a server error. Each non-null value replaces its column |
| Parts.UpdateDuplicatesTitle | app/Http/Controllers/API/PartController.php:99-115 | as written, renaming a part without repeating its media gives two parts of one media the same title |
| Parts.UpdateIntended | app/Http/Controllers/API/PartController.php:99-129 | the corrected update checks the part as it will be against the other parts of its media |
| Parts.UpdateIntendedKeepsUniqueTitles | app/Http/Controllers/API/PartController.php:99-129 | the corrected update keeps titles unique within each media |
| Parts.UpdateIntendedAgrees | app/Http/Controllers/API/PartController.php:99-115 | when the request repeats the part's own id and media, the two updates agree |
| Parts.Destroy | app/Http/Controllers/API/PartController.php:140-147 | exactly that part goes |
| Parts.DestroyKeepsUniqueTitles | app/Http/Controllers/API/PartController.php:140-147 | deleting a part keeps titles unique |
| Books.Store | app/Http/Controllers/API/BookController.php:33-66 | the title and then the URL are required, and the title must be free among the author's books; otherwise one book is added |
| Books.StoreKeepsUniqueTitles | app/Http/Controllers/API/BookController.php:57-63 | creating a book keeps titles unique per author |
| Books.Update | app/Http/Controllers/API/BookController.php:92-159 | as written, a new title is checked against the books of the request's author; when that author has books and the body id names no book, reading that book's title is a server error. Each non-null value replaces its column |
| Books.EmptyUpdateIsIdentity | app/Http/Controllers/API/BookController.php:123-156 | an update whose fields are all null changes nothing |
| Books.UpdateDuplicatesTitle | app/Http/Controllers/API/BookController.php:105-121 | as written, renaming a book without repeating its author gives two books of one author the same title |
| Books.UpdateIntended | app/Http/Controllers/API/BookController.php:105-156 | the corrected update checks the book as it will be against the author's other books |
| Books.UpdateIntendedKeepsUniqueTitles | app/Http/Controllers/API/BookController.php:105-156 | the corrected update keeps titles unique per author |
| Books.UpdateIntendedAgrees | app/Http/Controllers/API/BookController.php:105-121 | when the request repeats the book's own id and author, the two updates agree |
| Books.Destroy | app/Http/Controllers/API/BookController.php:167-174 | exactly that book goes |
| Books.DestroyKeepsUniqueTitles | app/Http/Controllers/API/BookController.php:167-174 | deleting a book keeps titles unique |
| Books.FindAllByAge | app/Http/Controllers/API/BookController.php:183-188 | finds exactly the books with that age rating |
| Books.FindAllByAgeType | app/Http/Controllers/API/BookController.php:198-203 | finds exactly the books with that age rating and type |
| Medias.Store | app/Http/Controllers/API/MediaController.php:65-128 | a blank title, a non-image cover and a title the user already has are refused with no write. Otherwise the row is written. Without a cover the call then fails, and with a video it fails too |
| Medias.StoreKeepsUniqueTitles | app/Http/Controllers/API/MediaController.php:83-108 | creating a media keeps titles unique per user |
| Medias.StoreTurnsAdultIntoYouth | app/Http/Controllers/API/MediaController.php:77 | as written, a media sent as not for youth (`"0"`) is listed among the youth media and not among the others |
| Medias.StoreIntended | app/Http/Controllers/API/MediaController.php:65-128 | the corrected store defaults only a missing age to youth and accepts a media without a cover |
| Medias.StoreIntendedThenFind | app/Http/Controllers/API/MediaController.php:77 | a stored media is found under the age rating it was sent with |
| Medias.StoreIntendedKeepsUniqueTitles | app/Http/Controllers/API/MediaController.php:83-108 | the corrected store keeps titles unique per user |
| Medias.Update | app/Http/Controllers/API/MediaController.php:179-295 | as written, a new title is checked against the media of the request's user; when that user has media and the body id names no media, reading that media's title is a server error. Each non-null value replaces its column |
| Medias.UpdateDuplicatesTitle | app/Http/Controllers/API/MediaController.php:198-215 | as written, renaming a media without repeating its owner gives two media of one user the same title |
| Medias.UpdateIntended | app/Http/Controllers/API/MediaController.php:198-292 | the corrected update checks the media as it will be against the owner's other media |
| Medias.UpdateIntendedKeepsUniqueTitles | app/Http/Controllers/API/MediaController.php:198-292 | the corrected update keeps titles unique per user |
| Medias.UpdateIntendedAgrees | app/Http/Controllers/API/MediaController.php:198-215 | when the request repeats the media's own id and owner, the two updates agree |
| Medias.Destroy | app/Http/Controllers/API/MediaController.php:303-318 | as written, deletion fails exactly when the media is missing or its URL is a prefix of the YouTube home address, a null or empty URL included; otherwise exactly that media goes |
| Medias.DestroyKeepsMediaWithoutUrl | app/Http/Controllers/API/MediaController.php:305-309 | as written, a media with no URL cannot be deleted, while a media with a video address can |
| Medias.DestroyKeepsUniqueTitles | app/Http/Controllers/API/MediaController.php:303-318 | deleting a media keeps titles unique per user |
| Medias.DestroyIntended | app/Http/Controllers/API/MediaController.php:303-318 | the corrected deletion fails exactly when the media is missing; otherwise exactly that media goes |
| Medias.DestroyIntendedAgrees | app/Http/Controllers/API/MediaController.php:303-318 | wherever the written deletion succeeds, the corrected one does the same |
| Medias.DestroyIntendedKeepsUniqueTitles | app/Http/Controllers/API/MediaController.php:303-318 | the corrected deletion keeps titles unique per user |
| Medias.FindAllByAgeType | app/Http/Controllers/API/MediaController.php:384 | without session headers, finds exactly the media with that age rating and type |
| Orders.Store | app/Http/Controllers/API/OrderController.php:33-51 | refused exactly when the cart is missing; otherwise exactly one order with the request's ids is added |
| Orders.Update | app/Http/Controllers/API/OrderController.php:77-116 | each non-null value replaces its column; no other order changes |
| Orders.UpdateIdempotent | app/Http/Controllers/API/OrderController.php:87-113 | applying the same update twice equals applying it once |
| Orders.StoreThenUpdate | app/Http/Controllers/API/OrderController.php:48-113 | updating a new order with its own request changes nothing |
| Orders.Destroy | app/Http/Controllers/API/OrderController.php:124-131 | exactly that order goes |
| Orders.StoreThenDestroy | app/Http/Controllers/API/OrderController.php:48-126 | deleting a new order restores the orders as they were |
| Donations.Store | app/Http/Controllers/API/DonationController.php:33-50 | refused exactly when the amount is blank; otherwise exactly one donation with the request's values is added |
| Donations.Update | app/Http/Controllers/API/DonationController.php:76-107 | each non-null value replaces its column; no other donation changes |
| Donations.UpdateIdempotent | app/Http/Controllers/API/DonationController.php:85-104 | applying the same update twice equals applying it once |
| Donations.Destroy | app/Http/Controllers/API/DonationController.php:115-122 | exactly that donation goes |
| Donations.StoreThenDestroy | app/Http/Controllers/API/DonationController.php:47-117 | deleting a new donation restores the donations as they were |
| Sessions.NewId | app/Http/Controllers/API/SessionController.php:39 | an empty id is replaced by a generated 255-character id; otherwise the given id is used |
| Sessions.Store | app/Http/Controllers/API/SessionController.php:35-58 | refused exactly when the IP address is blank or the id is taken; otherwise one session is added |
| Sessions.StoreKeepsUniqueIds | app/Http/Controllers/API/SessionController.php:35-58 | creating a session keeps session ids unique |
| Sessions.Update | app/Http/Controllers/API/SessionController.php:84-128 | after the update, the five columns equal the request values, nulls included; no other session changes |
| Sessions.LastUpdateWins | app/Http/Controllers/API/SessionController.php:125 | of two updates, only the last one matters |
| Sessions.Destroy | app/Http/Controllers/API/SessionController.php:136-149 | refused exactly when no session has the IP address; otherwise exactly one session with it goes |
| Sessions.StoreThenDestroy | app/Http/Controllers/API/SessionController.php:35-149 | deleting by the IP of a new session that no other session shares removes exactly that session |

## Left out

- **Effects outside the database.**
  - E-mail and SMS sending are not modelled. The SMS gateway is reduced to a success flag in `Users.Draws`.
  - Hashing, random draws, token issuing and the clock are parameters. A hash is assumed never to be the empty string where a lemma needs it.
- **File and video handling.**
  - Images, uploads, storage, and the YouTube calls are left out. A cover's mime check is the `isImage` flag of `Medias.Cover`.
  - Medias.Destroy: `YouTubeController` has no `destroy`, so the video branch is modelled as a server error before the delete. With the guard's arguments swapped, no video address reaches that call.
  - `YouTubeController` defines `upload` but not the `store` that `MediaController::store` calls. A video upload is therefore modelled as a server error after the row is written.
- **Actions outside the modelled core.**
  - Media view tracking, search, approval and image adding are left out.
  - So are `updateRole`, `updateAvatarPicture`, `addImage`, the `index`, `show` and `profile` listings, and the role lookups.
  - `GroupController` is left out: its checks cannot fire and its update ends in a blanket overwrite.
  - Roles, notifications and personal-access tokens are left out. They are written beside the modelled rows and never read by the modelled rules.
- **Input and comparison rules.**
  - Reference.Decode: `is_numeric` on a reference segment is read as "a non-empty string of decimal digits". Signs, decimals, exponents and surrounding spaces are not accepted there, so such a segment gives no id. The saturation of `(int)` at PHP_INT_MAX is modelled.
  - Carts.AddToCart: the type's JSON name is looked up under the route's locale in `Schema.Kind.names`, and a type with no name in that locale never matches. MySQL's JSON-path escaping of the locale and its collation are not modelled.
  - `Base.Same` does not model PHP's numeric-string loose equality (`"1" == "01"`).
  - The global trimming and empty-to-null middleware are not applied. Values are taken as sent.
  - Database collation, case folding and numeric coercion are not modelled.
    - The age rating is compared as text.
    - `orderBy` puts null first and compares names character by character.
  - The e-mail format rule is the `isEmail` parameter. The lower-case rule looks at ASCII capitals only.
  - An id sent as `0` in a body counts as present. The one exception is the cart id in a payment reference, where PHP's `0 != null` is false.
- **Reads on missing rows.**
  - Reading a column of a missing row (`null->column`) is a PHP warning, which the framework turns into an exception, so it is modelled as a server error. `Tables.Finds` states that a `find()` returned a row. `empty()` on a column of a missing row raises no warning, and is modelled as reading null (`Users.CurrentOf`).
  - Route-model binding of a missing row is modelled as a `NotFound` error. A `find()` whose null result is then used, as in `Payments.SwitchStatus`, is a server error.
  - A missing status row in `UserAccess.StatusAfter` is not modelled: the three status ids are parameters.
- **Races.** Check-then-write races are out of scope, since every action is sequential. This covers uniqueness checks, the payment upsert and the watchlist get-or-create.
- **Response details.** The response envelope and the resources other than the user resource are left out. So are the session id returned after a create and the `inArrayR` helper.
  - Users.Store, Users.Update, Users.Destroy, UserAccess.Login, UserAccess.FindByParentalCode, UserAccess.SwitchStatus, UserAccess.UpdatePassword, PasswordResets.SearchByEmailOrPhone, PasswordResets.CheckToken: each renders the user resource, whose `toArray` creates the account's watchlist cart (type 14) when it has none. These actions do not carry the cart table, so that cart write is not part of their results. The write is modelled on its own by `UserResource.ToArray`, and applying it after any of these actions gives the full effect.
- **Simplified update bookkeeping.**
  - Users.Update: the account's own reset-row bookkeeping for an e-mail, phone or password change is not modelled, nor are the children's reset-row writes. The failure on a child with no reset row is modelled (`Users.SetPassword`), with children processed in ascending id order.
  - UserAccess.UpdatePassword: the children's reset rows are not modelled, only their passwords.
  - UserAccess.UpdatePasswordAsWritten: children are processed in ascending id order.
  - A user made their own parent is not modelled. The source would update the in-memory row without seeing the change.
- **Overwrites and uniqueness assumptions.**
  - Countries.Update: the blanket update in the source also passes the body's `id` column; the model keeps the row's key, since the Country model class is not part of this model.
  - Countries.UpdateKeepsUniqueNames requires the body's id to be the route's country, because the source reads the current name from the body's id. The same holds for Pricings.UpdateKeepsUniqueDeadlines and Carts.UpdatePreservesUniqueCodes.
  - Payments.Update: the source's blanket update also passes the body's `id` column, which is not modelled. The row keeps its key and creation time.
  - Sessions.Destroy: `first()` without an order returns whichever matching session the database yields first. The model takes the least key (the order the sessions were stored in) as that choice. The order-free promise is that exactly one session with the IP address goes.
  - Sessions.Store: the database rejects a duplicate text primary key, and the model reports it as a server error. The source leaves that check to the database.

## Findings

| source | as written | input that shows it | evidently intended | confidence | as-written member | corrected member |
|---|---|---|---|---|---|---|
| app/Http/Controllers/API/CartController.php:104-117 | the current code is read from the cart the request body's id names | carts 1 "a" and 2 "b"; update cart 2 with body id 1 and code "a" | compare with the route cart's own code, so codes stay unique | not executed | Carts.UpdateDuplicatesCode | Carts.UpdateIntendedPreservesUniqueCodes |
| app/Http/Controllers/API/UserController.php:457-467 | a new e-mail is checked only when the current account has one | account 2 holds only a phone; update it with account 1's e-mail | check every new e-mail against the other accounts | not executed | Users.UpdateDuplicatesEmail | Users.UpdateIntendedKeepsIdentitiesUnique |
| app/Http/Controllers/API/UserController.php:1248-1264 | a child's reset row is written with an undefined request entry after the parent's and child's passwords were changed | a parent with a code and a child holding an e-mail changes its password | change the passwords and report success | not executed | UserAccess.PasswordChangedThoughRefused | UserAccess.UpdatePassword |
| app/Http/Controllers/API/PartController.php:99-115 | a new title is checked against the parts of the request's media, which is none when the request omits it | parts 1 "A" and 2 "B" of media 5; rename part 2 to "A" without a media | check against the parts of the media the part will belong to | not executed | Parts.UpdateDuplicatesTitle | Parts.UpdateIntendedKeepsUniqueTitles |
| app/Http/Controllers/API/BookController.php:105-121 | a new title is checked against the books of the request's author, which is none when the request omits it | two books of author "Ann"; rename one to the other's title without an author | check against the books of the author the book will have | not executed | Books.UpdateDuplicatesTitle | Books.UpdateIntendedKeepsUniqueTitles |
| app/Http/Controllers/API/MediaController.php:198-215 | a new title is checked against the media of the request's user, which is none when the request omits it | two media of user 7; rename one to the other's title without a user | check against the media of the owner the media will have | not executed | Medias.UpdateDuplicatesTitle | Medias.UpdateIntendedKeepsUniqueTitles |
| app/Http/Controllers/API/MediaController.php:77 | `!empty` turns the rating `"0"` into 1 | store a media with `for_youth` "0" | default only a missing rating to 1 | not executed | Medias.StoreTurnsAdultIntoYouth | Medias.StoreIntendedThenFind |
| app/Http/Controllers/API/MediaController.php:108-112 | the row is created, then the cover's extension is read from a missing file | store a media without a cover | accept a media without a cover | not executed | Medias.Store | Medias.StoreIntended |
| app/Http/Controllers/API/PasswordResetController.php:329-333 | with both an e-mail and a phone, the accounts and reset rows are looked up by the strings "email" and "phone", not by the request's values | an account with e-mail "a@b.cd" and phone "0810000000", its reset row holding the code, checked with both and that code | look up the request's e-mail and phone, as the branches for one identifier do | not executed | PasswordResets.CheckBothLiteralLookups | PasswordResets.CheckBothSole |
| app/Http/Controllers/API/MediaController.php:305 | `str_starts_with` is given the YouTube home address as the haystack and the media's URL as the needle | delete a media whose URL is null; delete a media whose URL is a video address | run the video branch only for a URL that starts with the YouTube address, and delete every other media | not executed | Medias.DestroyKeepsMediaWithoutUrl | Medias.DestroyIntendedKeepsUniqueTitles |

=== FILE: base.dfy ===
/**
 * Values as the controllers see them: nullable request strings, PHP's
 * loose notions of "null", "empty" and "blank", the error replies of the
 * API, and the outputs of the random generators the controllers call.
 */
module Base {

  datatype Option<+T> = None | Some(value: T) {
    function GetOr(default: T): T {
      match this
      case Some(v) => v
      case None => default
    }
  }

  /** The reasons a controller answers with an error instead of a payload. */
  datatype Error =
    | Required(field: string)        // validation.required and its relatives
    | Invalid(field: string)         // a validator rule other than "required" failed
    | Exists(field: string)          // validation.custom.<field>.exists
    | NotFound(entity: string)       // notifications.find_<entity>_404
    | ConfirmMismatch                // a confirmation field differs from the password
    | BadToken                       // notifications.bad_token
    | BadCredentials(field: string)  // auth.username / auth.password
    | Unverified(channel: string)    // notifications.unverified_token_<channel>
    | ChildrenNotAllowed             // notifications.children_not_allowed
    | ServerError(cause: string)     // an unhandled PHP error; rows written before it stay

  datatype Result<+T> = Ok(value: T) | Err(error: Error)

  /** A request parameter or a nullable text column. */
  type Field = Option<string>

  /** PHP `$x == null`: the value is null or the empty string. */
  predicate IsNull(f: Field) {
    f.None? || f.value == ""
  }

  /** PHP `empty($x)`: null, the empty string or the string "0". */
  predicate PhpEmpty(f: Field) {
    f.None? || f.value == "" || f.value == "0"
  }

  /** The characters PHP's `trim` removes. */
  predicate IsTrimmed(c: char) {
    c == ' ' || c == '\t' || c == '\n' || c == '\r' || c == '\0' || c as int == 11
  }

  /** PHP `trim($x) == null`: the value is null or consists only of whitespace. */
  predicate Blank(f: Field) {
    f.None? || forall i :: 0 <= i < |f.value| ==> IsTrimmed(f.value[i])
  }

  /**
   * PHP's loose `==` between two nullable strings: null and "" are equal
   * to each other, anything else compares as text.
   */
  predicate Same(a: Field, b: Field) {
    (IsNull(a) && IsNull(b)) || (a.Some? && b.Some? && a.value == b.value)
  }

  /** The "update only when the request value is non-null" rule for text columns. */
  function Pick(request: Field, current: Field): Field {
    if IsNull(request) then current else request
  }

  /** The same rule for id columns, whose absent value is None. */
  function PickId(request: Option<nat>, current: Option<nat>): Option<nat> {
    if request.None? then current else request
  }

  predicate IsLowerAlnum(c: char) {
    ('0' <= c <= '9') || ('a' <= c <= 'z')
  }

  predicate IsAlnum(c: char) {
    ('0' <= c <= '9') || ('a' <= c <= 'z') || ('A' <= c <= 'Z')
  }

  predicate IsAlpha(c: char) {
    ('a' <= c <= 'z') || ('A' <= c <= 'Z')
  }

  function Repeat(c: char, n: nat): (s: string)
    ensures |s| == n
    ensures forall i :: 0 <= i < n ==> s[i] == c
  {
    if n == 0 then "" else [c] + Repeat(c, n - 1)
  }

  /** `Random::generate(7)`: seven characters from 0-9a-z. */
  type Code7 = s: string | |s| == 7 && forall i :: 0 <= i < |s| ==> IsLowerAlnum(s[i])
    witness "0000000"

  /** `Random::generate(7, '0-9a-zA-Z')`. */
  type Alnum7 = s: string | |s| == 7 && forall i :: 0 <= i < |s| ==> IsAlnum(s[i])
    witness "0000000"

  /** `Random::generate(10, '0-9a-zA-Z')`. */
  type Alnum10 = s: string | |s| == 10 && forall i :: 0 <= i < |s| ==> IsAlnum(s[i])
    witness "0000000000"

  /** `Random::generate(10, 'a-zA-Z')`. */
  type Alpha10 = s: string | |s| == 10 && forall i :: 0 <= i < |s| ==> IsAlpha(s[i])
    witness "aaaaaaaaaa"

  /** `Str::random(255)`. */
  type Random255 = s: string | |s| == 255 && forall i :: 0 <= i < |s| ==> IsAlnum(s[i])
    witness Repeat('a', 255)

  /** `random_int(1000000, 9999999)`. */
  type Token7 = n: int | 1000000 <= n <= 9999999 witness 1000000
}

=== FILE: books.dfy ===
/**
 * Books (BookController): a title and a URL are required, a title is
 * unique among the books of one author, and books are listed by age
 * group and type.
 */
module Books {
  import opened Base
  import opened Tables
  import Unique

  datatype Book = Book(title: Field, url: Field, authorNames: Field, price: Field, forYouth: Field, typeId: Option<nat>)

  /** The request body; `id` is the body's id, which `update` reads the current title from. */
  datatype BookRequest = BookRequest(id: Option<nat>, title: Field, url: Field, authorNames: Field,
                                     price: Field, forYouth: Field, typeId: Option<nat>)

  function Title(b: Book): Field { b.title }

  function AuthorOf(b: Book): Field { b.authorNames }

  /** Among the books of one author, no two share a non-null title. */
  predicate UniqueTitles(t: Table<Book>) {
    Unique.Distinct(t, Title, AuthorOf)
  }

  /** `where('author_names', author)` holds a book whose title loosely equals `title`. */
  predicate TitleTaken(t: Table<Book>, author: Field, title: Field) {
    exists k :: k in t.rows && t.rows[k].authorNames == author && Same(t.rows[k].title, title)
  }

  lemma TakenIsTitleTaken(t: Table<Book>, author: Field, title: Field)
    ensures Unique.Taken(t, Title, AuthorOf, author, title) <==> TitleTaken(t, author, title)
  {
    if TitleTaken(t, author, title) {
      var k :| k in t.rows && t.rows[k].authorNames == author && Same(t.rows[k].title, title);
      assert AuthorOf(t.rows[k]) == author && Same(Title(t.rows[k]), title);
    }
    if Unique.Taken(t, Title, AuthorOf, author, title) {
      var k :| k in t.rows && AuthorOf(t.rows[k]) == author && Same(Title(t.rows[k]), title);
      assert Title(t.rows[k]) == t.rows[k].title && AuthorOf(t.rows[k]) == t.rows[k].authorNames;
    }
  }

  function FromRequest(req: BookRequest): Book {
    Book(req.title, req.url, req.authorNames, req.price, req.forYouth, req.typeId)
  }

  /** `store`: title, then URL, are required; the title must be free among the request author's books. */
  function Store(t: Table<Book>, req: BookRequest): (r: Result<(Table<Book>, nat)>)
    ensures Blank(req.title) ==> r == Err(Required("book_title"))
    ensures !Blank(req.title) && Blank(req.url) ==> r == Err(Required("book_url"))
    ensures r.Err? <==> Blank(req.title) || Blank(req.url) || TitleTaken(t, req.authorNames, req.title)
    ensures r.Ok? ==> r.value.1 !in t.rows && r.value.0.rows == t.rows[r.value.1 := FromRequest(req)]
  {
    TakenIsTitleTaken(t, req.authorNames, req.title);
    if Blank(req.title) then Err(Required("book_title"))
    else if Blank(req.url) then Err(Required("book_url"))
    else if Unique.Taken(t, Title, AuthorOf, req.authorNames, req.title) then Err(Exists("title"))
    else Ok(Insert(t, FromRequest(req)))
  }

  lemma StoreKeepsUniqueTitles(t: Table<Book>, req: BookRequest)
    requires UniqueTitles(t)
    requires Store(t, req).Ok?
    ensures UniqueTitles(Store(t, req).value.0)
  {
    Unique.InsertKeepsDistinct(t, Title, AuthorOf, FromRequest(req));
  }

  /** The partial update: each non-null request value replaces its column. */
  function Patch(b: Book, req: BookRequest): Book {
    Book(Pick(req.title, b.title), Pick(req.url, b.url), Pick(req.authorNames, b.authorNames),
         Pick(req.price, b.price), Pick(req.forYouth, b.forYouth), PickId(req.typeId, b.typeId))
  }

  /** `where('author_names', author)->get()` returns at least one book. */
  predicate HasBooks(t: Table<Book>, author: Field) {
    exists k :: k in t.rows && t.rows[k].authorNames == author
  }

  /**
   * `update` of the route's book `self` as written. A non-null title is
   * checked in a loop over the books of the request's author, which is
   * "no author" when the request names none. Every turn first reads the
   * title of the book the body's id names, so with no such book the
   * first turn fails. A title that differs from that one must be free
   * among those books; each non-null value then replaces its column.
   */
  function Update(t: Table<Book>, self: nat, req: BookRequest): (r: Result<Table<Book>>)
    ensures self !in t.rows ==> r == Err(NotFound("book"))
    ensures r == Err(ServerError("book")) <==>
              self in t.rows && !IsNull(req.title) && !Finds(t, req.id) && HasBooks(t, req.authorNames)
    ensures r.Err? <==> self !in t.rows
                        || (!IsNull(req.title) && !Finds(t, req.id) && HasBooks(t, req.authorNames))
                        || (!IsNull(req.title) && Finds(t, req.id) && !Same(t.rows[req.id.value].title, req.title)
                            && TitleTaken(t, req.authorNames, req.title))
    ensures r.Ok? ==> r.value.rows.Keys == t.rows.Keys
    ensures r.Ok? ==> forall k :: k in t.rows && k != self ==> r.value.rows[k] == t.rows[k]
    ensures r.Ok? ==> var b, b' := t.rows[self], r.value.rows[self];
                      && b'.title == Pick(req.title, b.title) && b'.url == Pick(req.url, b.url)
                      && b'.authorNames == Pick(req.authorNames, b.authorNames)
                      && b'.price == Pick(req.price, b.price) && b'.forYouth == Pick(req.forYouth, b.forYouth)
                      && b'.typeId == PickId(req.typeId, b.typeId)
  {
    TakenIsTitleTaken(t, req.authorNames, req.title);
    if self !in t.rows then Err(NotFound("book"))
    else if !IsNull(req.title) && !Finds(t, req.id) && HasBooks(t, req.authorNames) then Err(ServerError("book"))
    else if !IsNull(req.title) && Finds(t, req.id) && !Same(t.rows[req.id.value].title, req.title)
            && Unique.Taken(t, Title, AuthorOf, req.authorNames, req.title)
    then Err(Exists("title"))
    else Ok(Put(t, self, Patch(t.rows[self], req)))
  }

  /** An update whose every field is null changes nothing. */
  lemma EmptyUpdateIsIdentity(t: Table<Book>, self: nat, id: Option<nat>)
    requires self in t.rows
    ensures Update(t, self, BookRequest(id, None, None, None, None, None, None)) == Ok(t)
  {
    var r := Update(t, self, BookRequest(id, None, None, None, None, None, None));
    assert r.value.rows == t.rows;
  }

  /**
   * As written, renaming a book without repeating its author checks the
   * books that have no author: book 2 of "Ann" takes the title "A" of
   * book 1 of "Ann".
   */
  lemma UpdateDuplicatesTitle()
    ensures var t: Table<Book> := Tables.Store(map[1 := Book(Some("A"), Some("u"), Some("Ann"), None, None, None),
                                                   2 := Book(Some("B"), Some("v"), Some("Ann"), None, None, None)], 3);
            var req := BookRequest(Some(2), Some("A"), None, None, None, None, None);
            && UniqueTitles(t)
            && Update(t, 2, req).Ok?
            && !UniqueTitles(Update(t, 2, req).value)
  {
    var t: Table<Book> := Tables.Store(map[1 := Book(Some("A"), Some("u"), Some("Ann"), None, None, None),
                                           2 := Book(Some("B"), Some("v"), Some("Ann"), None, None, None)], 3);
    var req := BookRequest(Some(2), Some("A"), None, None, None, None, None);
    assert !TitleTaken(t, None, Some("A"));
    var t' := Update(t, 2, req).value;
    assert t'.rows[2].title == t'.rows[1].title && t'.rows[2].authorNames == t'.rows[1].authorNames;
  }

  /** Another book of the author `b` will have already holds the title of `b`. */
  predicate ClashesWithOther(t: Table<Book>, self: nat, b: Book) {
    exists j :: j in t.rows && j != self && t.rows[j].authorNames == b.authorNames && Same(t.rows[j].title, b.title)
  }

  /**
   * The update as evidently intended: the book as it will be is checked
   * against the other books of the author it will have.
   */
  function UpdateIntended(t: Table<Book>, self: nat, req: BookRequest): (r: Result<Table<Book>>)
    ensures self !in t.rows ==> r == Err(NotFound("book"))
    ensures r.Err? <==> self !in t.rows
                        || (!IsNull(Patch(t.rows[self], req).title) && ClashesWithOther(t, self, Patch(t.rows[self], req)))
    ensures r.Ok? ==> r.value.rows == t.rows[self := Patch(t.rows[self], req)]
  {
    if self !in t.rows then Err(NotFound("book"))
    else
      var b := Patch(t.rows[self], req);
      if !IsNull(b.title) && ClashesWithOther(t, self, b) then Err(Exists("title"))
      else Ok(Put(t, self, b))
  }

  lemma UpdateIntendedKeepsUniqueTitles(t: Table<Book>, self: nat, req: BookRequest)
    requires UniqueTitles(t)
    requires UpdateIntended(t, self, req).Ok?
    ensures UniqueTitles(UpdateIntended(t, self, req).value)
  {
    var b := Patch(t.rows[self], req);
    forall j | j in t.rows && j != self && AuthorOf(t.rows[j]) == AuthorOf(b) && !IsNull(Title(b))
      ensures !Same(Title(t.rows[j]), Title(b))
    {
      assert !(t.rows[j].authorNames == b.authorNames && Same(t.rows[j].title, b.title));
    }
    Unique.PutKeepsDistinct(t, Title, AuthorOf, self, b);
  }

  /**
   * The two updates agree whenever the request repeats the book's own
   * id and author: the written check then reads what it means to.
   */
  lemma UpdateIntendedAgrees(t: Table<Book>, self: nat, req: BookRequest)
    requires UniqueTitles(t)
    requires self in t.rows && req.id == Some(self) && req.authorNames == t.rows[self].authorNames
    ensures UpdateIntended(t, self, req) == Update(t, self, req)
  {
    var b := Patch(t.rows[self], req);
    if IsNull(req.title) || Same(t.rows[self].title, req.title) {
      forall j | j in t.rows && j != self && t.rows[j].authorNames == b.authorNames && !IsNull(b.title)
        ensures !Same(t.rows[j].title, b.title)
      {
        assert b.title == t.rows[self].title;
      }
    } else {
      if TitleTaken(t, req.authorNames, req.title) {
        var k :| k in t.rows && t.rows[k].authorNames == req.authorNames && Same(t.rows[k].title, req.title);
        assert k != self;
      }
    }
  }

  /** `destroy` of the route's book. */
  function Destroy(t: Table<Book>, self: nat): (r: Result<Table<Book>>)
    ensures self !in t.rows <==> r.Err?
    ensures r.Ok? ==> r.value.rows.Keys == t.rows.Keys - {self}
    ensures r.Ok? ==> forall k :: k in r.value.rows ==> r.value.rows[k] == t.rows[k]
  {
    if self !in t.rows then Err(NotFound("book")) else Ok(Remove(t, self))
  }

  lemma DestroyKeepsUniqueTitles(t: Table<Book>, self: nat)
    requires UniqueTitles(t)
    requires Destroy(t, self).Ok?
    ensures UniqueTitles(Destroy(t, self).value)
  {
    Unique.RemoveKeepsDistinct(t, Title, AuthorOf, self);
  }

  // -------------------------------------------------------------- listings

  /** `findAllByAge`: the books whose age group is exactly `forYouth`. */
  function FindAllByAge(t: Table<Book>, forYouth: string): (ids: set<nat>)
    ensures forall k :: k in ids <==> k in t.rows && t.rows[k].forYouth == Some(forYouth)
  {
    Select(t, (b: Book) => b.forYouth == Some(forYouth))
  }

  /** `findAllByAgeType`: the books of age group `forYouth` and type `typeId`. */
  function FindAllByAgeType(t: Table<Book>, forYouth: string, typeId: nat): (ids: set<nat>)
    ensures forall k :: k in ids <==> k in t.rows && t.rows[k].forYouth == Some(forYouth) && t.rows[k].typeId == Some(typeId)
  {
    Select(t, (b: Book) => b.forYouth == Some(forYouth) && b.typeId == Some(typeId))
  }

  /** Listing by age and type narrows the listing by age to one type. */
  lemma ByAgeTypeNarrowsByAge(t: Table<Book>, forYouth: string, typeId: nat)
    ensures FindAllByAgeType(t, forYouth, typeId)
            == FindAllByAge(t, forYouth) * Select(t, (b: Book) => b.typeId == Some(typeId))
  {
  }

  /** A stored book is listed under its age group and type. */
  lemma StoreThenFind(t: Table<Book>, req: BookRequest, typeId: nat)
    requires Store(t, req).Ok? && req.forYouth.Some? && req.typeId == Some(typeId)
    ensures Store(t, req).value.1 in FindAllByAgeType(Store(t, req).value.0, req.forYouth.value, typeId)
  {
  }
}

=== FILE: carts.dfy ===
/**
 * Carts and watchlists (CartController): creation with a unique payment
 * code, the partial update, the per-user lookup by type that creates a
 * missing watchlist, and adding/removing a media as an order line.
 */
module Carts {
  import opened Base
  import opened Tables
  import opened Schema

  /** The cart fields a request carries; `id` is the request body's id, not the route's. */
  datatype CartRequest = CartRequest(id: Option<nat>, paymentCode: Field, typeId: Option<nat>,
                                     statusId: Option<nat>, userId: Option<nat>)

  /** No two carts share a non-null payment code. */
  predicate UniqueCodes(carts: Table<Cart>) {
    forall i, j :: i in carts.rows && j in carts.rows && i != j && !IsNull(carts.rows[i].paymentCode) ==>
      carts.rows[i].paymentCode != carts.rows[j].paymentCode
  }

  predicate CodeClashes(c: Cart, code: Field) {
    Same(c.paymentCode, code)
  }

  /**
   * `store`: a user is required; the code must not loosely equal any
   * cart's code, so a null code is refused once some cart has a null code.
   */
  function Store(carts: Table<Cart>, req: CartRequest): (r: Result<(Table<Cart>, nat)>)
    ensures r.Err? <==> req.userId.None? || Any(carts, (c: Cart) => CodeClashes(c, req.paymentCode))
    ensures req.userId.None? ==> r == Err(Required("user_id"))
    ensures r.Ok? ==> var (carts', id) := r.value;
                      && id !in carts.rows
                      && carts'.rows == carts.rows[id := Cart(req.paymentCode, req.typeId, req.statusId, req.userId)]
  {
    if req.userId.None? then Err(Required("user_id"))
    else if Any(carts, (c: Cart) => CodeClashes(c, req.paymentCode)) then Err(Exists("code"))
    else Ok(Insert(carts, Cart(req.paymentCode, req.typeId, req.statusId, req.userId)))
  }

  lemma StorePreservesUniqueCodes(carts: Table<Cart>, req: CartRequest)
    requires UniqueCodes(carts)
    requires Store(carts, req).Ok?
    ensures UniqueCodes(Store(carts, req).value.0)
  {
    var (carts', id) := Store(carts, req).value;
    forall i, j | i in carts'.rows && j in carts'.rows && i != j && !IsNull(carts'.rows[i].paymentCode)
      ensures carts'.rows[i].paymentCode != carts'.rows[j].paymentCode
    {
      if i == id {
        assert !CodeClashes(carts.rows[j], req.paymentCode);
      } else if j == id {
        assert !CodeClashes(carts.rows[i], req.paymentCode);
      }
    }
  }


  /** The row after the partial update: each non-null request value replaces the column. */
  function Patch(c: Cart, req: CartRequest): (c': Cart)
    ensures c'.paymentCode == Pick(req.paymentCode, c.paymentCode)
    ensures c'.typeId == PickId(req.typeId, c.typeId) && c'.statusId == PickId(req.statusId, c.statusId)
    ensures c'.userId == PickId(req.userId, c.userId)
  {
    Cart(Pick(req.paymentCode, c.paymentCode), PickId(req.typeId, c.typeId),
         PickId(req.statusId, c.statusId), PickId(req.userId, c.userId))
  }

  /**
   * `update` of the route's cart `self`. A new non-null code is checked
   * in a loop over all carts whose every turn first reads the current
   * code from the cart the request body's id names, so with no such cart
   * the first turn fails. A code that differs from that one must be held
   * by no cart.
   */
  function Update(carts: Table<Cart>, self: nat, req: CartRequest): (r: Result<Table<Cart>>)
    ensures self !in carts.rows ==> r == Err(NotFound("cart"))
    ensures r == Err(ServerError("cart")) <==> self in carts.rows && !IsNull(req.paymentCode) && !Finds(carts, req.id)
    ensures r.Err? <==> self !in carts.rows ||
                        (!IsNull(req.paymentCode)
                         && (!Finds(carts, req.id)
                             || (!Same(carts.rows[req.id.value].paymentCode, req.paymentCode)
                                 && Any(carts, (c: Cart) => CodeClashes(c, req.paymentCode)))))
    ensures r.Ok? ==> r.value.rows == carts.rows[self := Patch(carts.rows[self], req)]
  {
    if self !in carts.rows then Err(NotFound("cart"))
    else if !IsNull(req.paymentCode) && !Finds(carts, req.id) then Err(ServerError("cart"))
    else if !IsNull(req.paymentCode) && !Same(carts.rows[req.id.value].paymentCode, req.paymentCode)
            && Any(carts, (c: Cart) => CodeClashes(c, req.paymentCode)) then Err(Exists("code"))
    else Ok(Put(carts, self, Patch(carts.rows[self], req)))
  }

  /** An update whose every field is null changes nothing. */
  lemma EmptyUpdateIsIdentity(carts: Table<Cart>, self: nat, id: Option<nat>)
    requires self in carts.rows
    ensures Update(carts, self, CartRequest(id, None, None, None, None)) == Ok(carts)
  {
    var r := Update(carts, self, CartRequest(id, None, None, None, None));
    assert r.value.rows == carts.rows;
  }

  /** When the body's id is the route's cart, the update keeps codes unique. */
  lemma UpdatePreservesUniqueCodes(carts: Table<Cart>, self: nat, req: CartRequest)
    requires UniqueCodes(carts)
    requires req.id == Some(self)
    requires Update(carts, self, req).Ok?
    ensures UniqueCodes(Update(carts, self, req).value)
  {
    var carts' := Update(carts, self, req).value;
    forall i, j | i in carts'.rows && j in carts'.rows && i != j && !IsNull(carts'.rows[i].paymentCode)
      ensures carts'.rows[i].paymentCode != carts'.rows[j].paymentCode
    {
      if !IsNull(req.paymentCode) && (i == self || j == self) {
        var other := if i == self then j else i;
        if Same(carts.rows[self].paymentCode, req.paymentCode) {
          assert carts'.rows[self].paymentCode == carts.rows[self].paymentCode;
        } else {
          assert !CodeClashes(carts.rows[other], req.paymentCode);
        }
      }
    }
  }

  /**
   * The update as evidently intended: the code is compared with the
   * route cart's own code.
   */
  function UpdateIntended(carts: Table<Cart>, self: nat, req: CartRequest): (r: Result<Table<Cart>>)
    ensures r.Ok? ==> self in carts.rows && r.value.rows == carts.rows[self := Patch(carts.rows[self], req)]
    ensures r.Err? <==> self !in carts.rows ||
                        (!IsNull(req.paymentCode) && !Same(carts.rows[self].paymentCode, req.paymentCode)
                         && Any(carts, (c: Cart) => CodeClashes(c, req.paymentCode)))
  {
    if self !in carts.rows then Err(NotFound("cart"))
    else Update(carts, self, req.(id := Some(self)))
  }

  lemma UpdateIntendedPreservesUniqueCodes(carts: Table<Cart>, self: nat, req: CartRequest)
    requires UniqueCodes(carts)
    requires UpdateIntended(carts, self, req).Ok?
    ensures UniqueCodes(UpdateIntended(carts, self, req).value)
  {
    UpdatePreservesUniqueCodes(carts, self, req.(id := Some(self)));
  }

  /**
   * As written, a body id naming another cart lets a cart take that
   * cart's code: cart 2 is given cart 1's code "a" with body id 1.
   */
  lemma UpdateDuplicatesCode()
    ensures var carts: Table<Cart> := Tables.Store(map[1 := Cart(Some("a"), None, None, Some(7)),
                                                  2 := Cart(Some("b"), None, None, Some(7))], 3);
            && UniqueCodes(carts)
            && Update(carts, 2, CartRequest(Some(1), Some("a"), None, None, None)).Ok?
            && !UniqueCodes(Update(carts, 2, CartRequest(Some(1), Some("a"), None, None, None)).value)
  {
    var carts: Table<Cart> := Tables.Store(map[1 := Cart(Some("a"), None, None, Some(7)),
                                        2 := Cart(Some("b"), None, None, Some(7))], 3);
    var carts' := Update(carts, 2, CartRequest(Some(1), Some("a"), None, None, None)).value;
    assert carts'.rows[1].paymentCode == carts'.rows[2].paymentCode;
  }

  // ------------------------------------------------------------ by user and type

  predicate OfUserType(c: Cart, user: nat, kind: nat) {
    c.userId == Some(user) && c.typeId == Some(kind)
  }

  /** The user's first cart of a type, created empty when there is none. */
  function GetOrCreate(carts: Table<Cart>, user: nat, kind: nat): (r: (Table<Cart>, nat))
    ensures r.1 in r.0.rows && OfUserType(r.0.rows[r.1], user, kind)
    ensures Any(carts, (c: Cart) => OfUserType(c, user, kind)) ==>
              r.0 == carts && r.1 == First(carts, (c: Cart) => OfUserType(c, user, kind)).value
    ensures !Any(carts, (c: Cart) => OfUserType(c, user, kind)) ==>
              r.1 !in carts.rows && r.0.rows == carts.rows[r.1 := Cart(None, Some(kind), None, Some(user))]
  {
    match First(carts, (c: Cart) => OfUserType(c, user, kind))
    case Some(id) => (carts, id)
    case None => Insert(carts, Cart(None, Some(kind), None, Some(user)))
  }

  /** Asking again finds the same cart and creates nothing. */
  lemma GetOrCreateIdempotent(carts: Table<Cart>, user: nat, kind: nat)
    ensures var (carts', id) := GetOrCreate(carts, user, kind);
            GetOrCreate(carts', user, kind) == (carts', id)
  {
    var (carts', id) := GetOrCreate(carts, user, kind);
    if !Any(carts, (c: Cart) => OfUserType(c, user, kind)) {
      FirstOfSole(carts', (c: Cart) => OfUserType(c, user, kind), id);
    }
  }

  /** If a user has at most one cart of a type, GetOrCreate keeps it that way. */
  lemma GetOrCreateKeepsSole(carts: Table<Cart>, user: nat, kind: nat)
    requires forall i, j ::
               (i in carts.rows && j in carts.rows && OfUserType(carts.rows[i], user, kind) && OfUserType(carts.rows[j], user, kind))
               ==> i == j
    ensures var (carts', id) := GetOrCreate(carts, user, kind);
            Select(carts', (c: Cart) => OfUserType(c, user, kind)) == {id}
  {
  }

  datatype Found = One(id: nat) | Many(ids: set<nat>)

  /** The name the watchlist type carries. */
  const Watchlist := "Watchlist"

  /**
   * `findByType`: the watchlist is a single cart, created when missing;
   * any other type lists every cart of the user with that type.
   */
  function FindByType(users: Table<User>, kinds: Table<Kind>, carts: Table<Cart>, user: nat, kind: nat)
    : (r: (Table<Cart>, Result<Found>))
    ensures user !in users.rows ==> r == (carts, Err(NotFound("user")))
    ensures user in users.rows && kind !in kinds.rows ==> r == (carts, Err(NotFound("type")))
    ensures r.1.Ok? <==> user in users.rows && kind in kinds.rows
    ensures r.1.Ok? && r.1.value.One? ==>
              && kinds.rows[kind].name == Watchlist && r.1.value.id in r.0.rows
              && OfUserType(r.0.rows[r.1.value.id], user, kind)
    ensures r.1.Ok? && r.1.value.One? && Any(carts, (c: Cart) => OfUserType(c, user, kind)) ==>
              r.0 == carts && r.1.value.id == First(carts, (c: Cart) => OfUserType(c, user, kind)).value
    ensures r.1.Ok? && r.1.value.One? && !Any(carts, (c: Cart) => OfUserType(c, user, kind)) ==>
              && r.1.value.id !in carts.rows
              && r.0.rows == carts.rows[r.1.value.id := Cart(None, Some(kind), None, Some(user))]
    ensures r.1.Ok? && r.1.value.Many? ==>
              && kinds.rows[kind].name != Watchlist && r.0 == carts
              && forall k :: k in r.1.value.ids <==> k in carts.rows && OfUserType(carts.rows[k], user, kind)
  {
    if user !in users.rows then (carts, Err(NotFound("user")))
    else if kind !in kinds.rows then (carts, Err(NotFound("type")))
    else if kinds.rows[kind].name == Watchlist then
      var (carts', id) := GetOrCreate(carts, user, kind);
      (carts', Ok(One(id)))
    else (carts, Ok(Many(Select(carts, (c: Cart) => OfUserType(c, user, kind)))))
  }

  /** Asking again returns the same answer, the same watchlist included, and creates nothing more. */
  lemma FindByTypeIdempotent(users: Table<User>, kinds: Table<Kind>, carts: Table<Cart>, user: nat, kind: nat)
    ensures var (carts', r) := FindByType(users, kinds, carts, user, kind);
            FindByType(users, kinds, carts', user, kind) == (carts', r)
  {
    if user in users.rows && kind in kinds.rows && kinds.rows[kind].name == Watchlist {
      GetOrCreateIdempotent(carts, user, kind);
    }
  }

  /** The ids of the media a cart holds an order for. */
  predicate HasMedia(orders: Table<Order>, cart: nat, media: nat) {
    Any(orders, (o: Order) => o.cartId == Some(cart) && o.mediaId == Some(media))
  }

  /**
   * `isInside`: 1 when the user's first cart of the type has an order for
   * the media, 0 otherwise. When the user has no such cart, reading its
   * orders reads a column of null, which fails.
   */
  function IsInside(medias: Table<Media>, users: Table<User>, kinds: Table<Kind>, carts: Table<Cart>,
                    orders: Table<Order>, media: nat, user: nat, kind: nat): (r: Result<nat>)
    ensures media !in medias.rows ==> r == Err(NotFound("media"))
    ensures media in medias.rows && user !in users.rows ==> r == Err(NotFound("user"))
    ensures media in medias.rows && user in users.rows && kind !in kinds.rows ==> r == Err(NotFound("type"))
    ensures r == Err(ServerError("cart")) <==>
              && media in medias.rows && user in users.rows && kind in kinds.rows
              && !exists k :: k in carts.rows && OfUserType(carts.rows[k], user, kind)
    ensures r.Ok? ==> r.value <= 1
    ensures r == Ok(1) <==>
              && media in medias.rows && user in users.rows && kind in kinds.rows
              && exists k :: && First(carts, (c: Cart) => OfUserType(c, user, kind)) == Some(k)
                             && HasMedia(orders, k, media)
  {
    if media !in medias.rows then Err(NotFound("media"))
    else if user !in users.rows then Err(NotFound("user"))
    else if kind !in kinds.rows then Err(NotFound("type"))
    else match First(carts, (c: Cart) => OfUserType(c, user, kind))
      case None => Err(ServerError("cart"))
      case Some(k) => if HasMedia(orders, k, media) then Ok(1) else Ok(0)
  }

  datatype Basket = Basket(carts: Table<Cart>, orders: Table<Order>)

  /** The type's name in `locale` is `typeName`: `where('type_name->'.$locale, $typeName)`. */
  predicate NamedIn(k: Kind, locale: string, typeName: string) {
    locale in k.names && k.names[locale] == typeName
  }

  /**
   * `addToCart`: the type is looked up by its name in the route's locale;
   * the media goes as a new order line into the user's first cart of
   * that type, created if needed.
   */
  function AddToCart(medias: Table<Media>, users: Table<User>, kinds: Table<Kind>, b: Basket,
                     locale: string, typeName: string, media: nat, user: nat): (r: (Basket, Result<nat>))
    ensures media !in medias.rows ==> r == (b, Err(NotFound("media")))
    ensures media in medias.rows && user !in users.rows ==> r == (b, Err(NotFound("user")))
    ensures r.1.Err? ==> r.0 == b
    ensures r.1.Ok? <==> media in medias.rows && user in users.rows && Any(kinds, (k: Kind) => NamedIn(k, locale, typeName))
    ensures r.1.Ok? ==> var kind := First(kinds, (k: Kind) => NamedIn(k, locale, typeName)).value;
                        && (r.0.carts, r.1.value) == GetOrCreate(b.carts, user, kind)
                        && exists id: nat :: id !in b.orders.rows
                             && r.0.orders.rows == b.orders.rows[id := Order(None, Some(media), None, Some(r.1.value))]
  {
    if media !in medias.rows then (b, Err(NotFound("media")))
    else if user !in users.rows then (b, Err(NotFound("user")))
    else match First(kinds, (k: Kind) => NamedIn(k, locale, typeName))
      case None => (b, Err(NotFound("type")))
      case Some(kind) =>
        var (carts', cart) := GetOrCreate(b.carts, user, kind);
        var (orders', _) := Insert(b.orders, Order(None, Some(media), None, Some(cart)));
        (Basket(carts', orders'), Ok(cart))
  }

  /** After a successful `addToCart`, `isInside` for that media, user and type answers 1. */
  lemma AddThenInside(medias: Table<Media>, users: Table<User>, kinds: Table<Kind>, b: Basket,
                      locale: string, typeName: string, media: nat, user: nat)
    requires AddToCart(medias, users, kinds, b, locale, typeName, media, user).1.Ok?
    ensures var kind := First(kinds, (k: Kind) => NamedIn(k, locale, typeName)).value;
            var b' := AddToCart(medias, users, kinds, b, locale, typeName, media, user).0;
            IsInside(medias, users, kinds, b'.carts, b'.orders, media, user, kind) == Ok(1)
  {
    var kind := First(kinds, (k: Kind) => NamedIn(k, locale, typeName)).value;
    var r := AddToCart(medias, users, kinds, b, locale, typeName, media, user);
    var cart := r.1.value;
    GetOrCreateIdempotent(b.carts, user, kind);
    assert First(r.0.carts, (c: Cart) => OfUserType(c, user, kind)) == Some(cart);
    var id :| id !in b.orders.rows && r.0.orders.rows == b.orders.rows[id := Order(None, Some(media), None, Some(cart))];
    assert r.0.orders.rows[id].cartId == Some(cart);
  }

  /** The order lines of a cart for a media. */
  function Lines(orders: Table<Order>, cart: nat, media: nat): (ids: set<nat>)
    ensures forall k :: k in ids <==> k in orders.rows && orders.rows[k].cartId == Some(cart) && orders.rows[k].mediaId == Some(media)
  {
    Select(orders, (o: Order) => o.cartId == Some(cart) && o.mediaId == Some(media))
  }

  /**
   * `removeFromCart`: deletes the first order line of the media in the
   * cart. With no such line, the delete is called on null and fails.
   */
  function RemoveFromCart(carts: Table<Cart>, medias: Table<Media>, orders: Table<Order>, cart: nat, media: nat)
    : (r: Result<Table<Order>>)
    ensures cart !in carts.rows ==> r == Err(NotFound("cart"))
    ensures cart in carts.rows && media !in medias.rows ==> r == Err(NotFound("media"))
    ensures r.Ok? <==> cart in carts.rows && media in medias.rows && Lines(orders, cart, media) != {}
    ensures r.Ok? ==> exists k :: k in Lines(orders, cart, media) && r.value.rows == orders.rows - {k}
  {
    if cart !in carts.rows then Err(NotFound("cart"))
    else if media !in medias.rows then Err(NotFound("media"))
    else match First(orders, (o: Order) => o.cartId == Some(cart) && o.mediaId == Some(media))
      case None => Err(ServerError("order"))
      case Some(k) => Ok(Remove(orders, k))
  }

  /** Adding a media and removing it again leaves as many lines of it in that cart as before. */
  lemma AddThenRemove(medias: Table<Media>, users: Table<User>, kinds: Table<Kind>, b: Basket,
                      locale: string, typeName: string, media: nat, user: nat)
    requires AddToCart(medias, users, kinds, b, locale, typeName, media, user).1.Ok?
    ensures var (b', cart) := (AddToCart(medias, users, kinds, b, locale, typeName, media, user).0,
                               AddToCart(medias, users, kinds, b, locale, typeName, media, user).1.value);
            var r := RemoveFromCart(b'.carts, medias, b'.orders, cart, media);
            r.Ok? && |Lines(r.value, cart, media)| == |Lines(b.orders, cart, media)|
  {
    var r0 := AddToCart(medias, users, kinds, b, locale, typeName, media, user);
    var (b', cart) := (r0.0, r0.1.value);
    var id :| id !in b.orders.rows && b'.orders.rows == b.orders.rows[id := Order(None, Some(media), None, Some(cart))];
    RemoveAddedLine(b'.carts, medias, b.orders, b'.orders, cart, media, id);
  }

  /** Removing a media from a cart right after a line of it was added takes the count of its lines back. */
  lemma RemoveAddedLine(carts: Table<Cart>, medias: Table<Media>, orders: Table<Order>, orders': Table<Order>,
                        cart: nat, media: nat, id: nat)
    requires cart in carts.rows && media in medias.rows
    requires id !in orders.rows && orders'.rows == orders.rows[id := Order(None, Some(media), None, Some(cart))]
    ensures var r := RemoveFromCart(carts, medias, orders', cart, media);
            r.Ok? && |Lines(r.value, cart, media)| == |Lines(orders, cart, media)|
  {
    assert id in Lines(orders', cart, media);
    assert Lines(orders', cart, media) == Lines(orders, cart, media) + {id};
    var r := RemoveFromCart(carts, medias, orders', cart, media);
    var k :| k in Lines(orders', cart, media) && r.value.rows == orders'.rows - {k};
    assert Lines(r.value, cart, media) == Lines(orders', cart, media) - {k};
  }
}

=== FILE: countries.dfy ===
/**
 * Countries (CountryController): a name that is required and unique
 * across all countries, the listing ordered by name, and the search by
 * exact name.
 */
module Countries {
  import opened Base
  import opened Text
  import opened Tables
  import Unique

  datatype Country = Country(name: Field, phoneCode: Field, langCode: Field)

  /** The request body; `id` is the body's id, which `update` reads the current name from. */
  datatype CountryRequest = CountryRequest(id: Option<nat>, name: Field, phoneCode: Field, langCode: Field)

  function Name(c: Country): Field { c.name }

  /** Country names are unique over the whole table: every country shares one scope. */
  function Everywhere(c: Country): bool { true }

  predicate UniqueNames(t: Table<Country>) {
    Unique.Distinct(t, Name, Everywhere)
  }

  /** The required-name rule: null, the empty string or a single space. */
  predicate NameMissing(name: Field) {
    IsNull(name) || name == Some(" ")
  }

  /** Some country's name loosely equals `name`. */
  predicate NameTaken(t: Table<Country>, name: Field) {
    exists k :: k in t.rows && Same(t.rows[k].name, name)
  }

  /** The shared scan, read for countries. */
  lemma TakenIsNameTaken(t: Table<Country>, name: Field)
    ensures Unique.Taken(t, Name, Everywhere, true, name) <==> NameTaken(t, name)
  {
    if NameTaken(t, name) {
      var k :| k in t.rows && Same(t.rows[k].name, name);
      assert Everywhere(t.rows[k]) == true && Same(Name(t.rows[k]), name);
    }
    if Unique.Taken(t, Name, Everywhere, true, name) {
      var k :| k in t.rows && Everywhere(t.rows[k]) == true && Same(Name(t.rows[k]), name);
      assert Name(t.rows[k]) == t.rows[k].name;
    }
  }

  function FromRequest(req: CountryRequest): Country {
    Country(req.name, req.phoneCode, req.langCode)
  }

  /** `store`: a missing name, then a name already in use, are refused. */
  function Store(t: Table<Country>, req: CountryRequest): (r: Result<(Table<Country>, nat)>)
    ensures NameMissing(req.name) ==> r == Err(Required("country_name"))
    ensures r.Err? <==> NameMissing(req.name) || NameTaken(t, req.name)
    ensures r.Ok? ==> r.value.1 !in t.rows && r.value.0.rows == t.rows[r.value.1 := FromRequest(req)]
  {
    TakenIsNameTaken(t, req.name);
    if NameMissing(req.name) then Err(Required("country_name"))
    else if Unique.Taken(t, Name, Everywhere, true, req.name) then Err(Exists("country_name"))
    else Ok(Insert(t, FromRequest(req)))
  }

  lemma StoreKeepsUniqueNames(t: Table<Country>, req: CountryRequest)
    requires UniqueNames(t)
    requires Store(t, req).Ok?
    ensures UniqueNames(Store(t, req).value.0)
  {
    Unique.InsertKeepsDistinct(t, Name, Everywhere, FromRequest(req));
  }

  /** `search`: the countries whose name is exactly `data`. */
  function Search(t: Table<Country>, data: string): (ids: set<nat>)
    ensures forall k :: k in ids <==> k in t.rows && t.rows[k].name == Some(data)
  {
    Select(t, (c: Country) => c.name == Some(data))
  }

  /** A stored country is the only one its name finds. */
  lemma StoreThenSearch(t: Table<Country>, req: CountryRequest)
    requires UniqueNames(t)
    requires Store(t, req).Ok?
    ensures Search(Store(t, req).value.0, req.name.value) == {Store(t, req).value.1}
  {
    var (t', id) := Store(t, req).value;
    forall k | k in t'.rows && t'.rows[k].name == req.name
      ensures k == id
    {
      if k != id {
        assert Same(t.rows[k].name, req.name);
      }
    }
  }

  /**
   * `update` of the route's country `self`: the name is required. The
   * name is then checked in a loop over all countries whose every turn
   * first reads the name of the country the body's id names, so with no
   * such country the first turn fails. A name that differs from that one
   * must not be in use; then every column is overwritten with the request
   * value, nulls included.
   */
  function Update(t: Table<Country>, self: nat, req: CountryRequest): (r: Result<Table<Country>>)
    ensures self !in t.rows ==> r == Err(NotFound("country"))
    ensures self in t.rows && NameMissing(req.name) ==> r == Err(Required("country_name"))
    ensures r == Err(ServerError("country")) <==> self in t.rows && !NameMissing(req.name) && !Finds(t, req.id)
    ensures r.Err? <==> self !in t.rows || NameMissing(req.name) || !Finds(t, req.id)
                        || (!Same(t.rows[req.id.value].name, req.name) && NameTaken(t, req.name))
    ensures r.Ok? ==> r.value.rows == t.rows[self := FromRequest(req)]
  {
    TakenIsNameTaken(t, req.name);
    if self !in t.rows then Err(NotFound("country"))
    else if NameMissing(req.name) then Err(Required("country_name"))
    else if !Finds(t, req.id) then Err(ServerError("country"))
    else if !Same(t.rows[req.id.value].name, req.name) && Unique.Taken(t, Name, Everywhere, true, req.name)
    then Err(Exists("country_name"))
    else Ok(Put(t, self, FromRequest(req)))
  }

  /** When the body's id is the route's country, the update keeps names unique. */
  lemma UpdateKeepsUniqueNames(t: Table<Country>, self: nat, req: CountryRequest)
    requires UniqueNames(t)
    requires req.id == Some(self)
    requires Update(t, self, req).Ok?
    ensures UniqueNames(Update(t, self, req).value)
  {
    var c := FromRequest(req);
    TakenIsNameTaken(t, req.name);
    forall j | j in t.rows && j != self
      ensures !Same(t.rows[j].name, c.name)
    {
      if Same(t.rows[self].name, req.name) {
        assert t.rows[self].name == c.name;
      }
    }
    Unique.PutKeepsDistinct(t, Name, Everywhere, self, c);
  }

  /** `destroy` of the route's country. */
  function Destroy(t: Table<Country>, self: nat): (r: Result<Table<Country>>)
    ensures self !in t.rows <==> r.Err?
    ensures r.Ok? ==> r.value.rows.Keys == t.rows.Keys - {self}
    ensures r.Ok? ==> forall k :: k in r.value.rows ==> r.value.rows[k] == t.rows[k]
  {
    if self !in t.rows then Err(NotFound("country")) else Ok(Remove(t, self))
  }

  /** After a deletion the name is free again: storing it anew succeeds. */
  lemma DestroyFreesName(t: Table<Country>, self: nat, req: CountryRequest)
    requires UniqueNames(t)
    requires self in t.rows && req.name == t.rows[self].name && !NameMissing(req.name)
    ensures Store(Destroy(t, self).value, req).Ok?
  {
    var t' := Destroy(t, self).value;
    forall k | k in t'.rows
      ensures !Same(t'.rows[k].name, req.name)
    {
      assert t'.rows[k] == t.rows[k] && k != self;
    }
  }

  // ---------------------------------------------------------------- index

  /** `orderBy('country_name')` compares names in ascending order, null first. */
  predicate NameLe(a: Field, b: Field) {
    a.None? || (b.Some? && LexLe(a.value, b.value))
  }

  lemma NameLeTotal(a: Field, b: Field)
    ensures NameLe(a, b) || NameLe(b, a)
  {
    if a.Some? && b.Some? {
      LexTotal(a.value, b.value);
    }
  }

  lemma NameLeTransitive(a: Field, b: Field, c: Field)
    requires NameLe(a, b) && NameLe(b, c)
    ensures NameLe(a, c)
  {
    if a.Some? {
      LexTransitive(a.value, b.value, c.value);
    }
  }

  predicate Listed(t: Table<Country>, s: seq<nat>) {
    forall i :: 0 <= i < |s| ==> s[i] in t.rows
  }

  /** Names never decrease along the list. */
  predicate Ordered(t: Table<Country>, s: seq<nat>)
    requires Listed(t, s)
  {
    forall a, b :: 0 <= a < b < |s| ==> NameLe(t.rows[s[a]].name, t.rows[s[b]].name)
  }

  /** The ids from `i` up, in ascending order. */
  function IdsFrom(t: Table<Country>, i: nat): (s: seq<nat>)
    ensures Listed(t, s)
    ensures forall k :: multiset(s)[k] == if k in t.rows && i <= k then 1 else 0
    decreases t.next - i
  {
    if i >= t.next then []
    else if i in t.rows then [i] + IdsFrom(t, i + 1)
    else IdsFrom(t, i + 1)
  }

  /** Places `k` in an ordered list. */
  function Insort(t: Table<Country>, k: nat, s: seq<nat>): (r: seq<nat>)
    requires k in t.rows && Listed(t, s) && Ordered(t, s)
    ensures Listed(t, r) && Ordered(t, r)
    ensures multiset(r) == multiset(s) + multiset{k}
    decreases |s|
  {
    if s == [] then [k]
    else if NameLe(t.rows[k].name, t.rows[s[0]].name) then
      InsortHead(t, k, s);
      [k] + s
    else
      NameLeTotal(t.rows[k].name, t.rows[s[0]].name);
      var rest := Insort(t, k, s[1..]);
      assert s == [s[0]] + s[1..];
      InsortCons(t, s[0], rest, s[1..], k);
      [s[0]] + rest
  }

  lemma InsortHead(t: Table<Country>, k: nat, s: seq<nat>)
    requires k in t.rows && Listed(t, s) && Ordered(t, s) && |s| > 0
    requires NameLe(t.rows[k].name, t.rows[s[0]].name)
    ensures Listed(t, [k] + s) && Ordered(t, [k] + s)
  {
    var r := [k] + s;
    forall a, b | 0 <= a < b < |r|
      ensures NameLe(t.rows[r[a]].name, t.rows[r[b]].name)
    {
      if a == 0 && b > 1 {
        NameLeTransitive(t.rows[k].name, t.rows[s[0]].name, t.rows[s[b - 1]].name);
      }
    }
  }

  lemma InsortCons(t: Table<Country>, h: nat, rest: seq<nat>, s: seq<nat>, k: nat)
    requires h in t.rows && k in t.rows && Listed(t, rest) && Ordered(t, rest) && Listed(t, s)
    requires multiset(rest) == multiset(s) + multiset{k}
    requires NameLe(t.rows[h].name, t.rows[k].name)
    requires forall i :: 0 <= i < |s| ==> NameLe(t.rows[h].name, t.rows[s[i]].name)
    ensures Listed(t, [h] + rest) && Ordered(t, [h] + rest)
  {
    var r := [h] + rest;
    forall a, b | 0 <= a < b < |r|
      ensures NameLe(t.rows[r[a]].name, t.rows[r[b]].name)
    {
      if a == 0 {
        var x := rest[b - 1];
        assert x in multiset(rest);
        assert x == k || x in multiset(s);
        if x != k {
          var i :| 0 <= i < |s| && s[i] == x;
        }
      }
    }
  }

  function Sort(t: Table<Country>, s: seq<nat>): (r: seq<nat>)
    requires Listed(t, s)
    ensures Listed(t, r) && Ordered(t, r)
    ensures multiset(r) == multiset(s)
  {
    if s == [] then []
    else
      assert s == [s[0]] + s[1..];
      Insort(t, s[0], Sort(t, s[1..]))
  }

  /** `index`: every country exactly once, ordered by name. */
  function Index(t: Table<Country>): (r: seq<nat>)
    ensures Listed(t, r) && Ordered(t, r)
    ensures forall k :: multiset(r)[k] == if k in t.rows then 1 else 0
  {
    Sort(t, IdsFrom(t, 0))
  }
}

=== FILE: donations.dfy ===
/**
 * Donations (DonationController): an amount is required to create one,
 * and the update replaces only the fields the request gives.
 */
module Donations {
  import opened Base
  import opened Tables

  datatype Donation = Donation(amount: Field, pricingId: Option<nat>, userId: Option<nat>)

  datatype DonationRequest = DonationRequest(amount: Field, pricingId: Option<nat>, userId: Option<nat>)

  /** `store`: a blank amount is refused; otherwise exactly one donation is added. */
  function Store(t: Table<Donation>, req: DonationRequest): (r: Result<(Table<Donation>, nat)>)
    ensures r.Err? <==> Blank(req.amount)
    ensures r.Err? ==> r.error == Required("amount")
    ensures r.Ok? ==> var (t', id) := r.value;
                      && id !in t.rows && t'.rows.Keys == t.rows.Keys + {id}
                      && t'.rows[id] == Donation(req.amount, req.pricingId, req.userId)
                      && forall k :: k in t.rows ==> t'.rows[k] == t.rows[k]
  {
    if Blank(req.amount) then Err(Required("amount"))
    else Ok(Insert(t, Donation(req.amount, req.pricingId, req.userId)))
  }

  /** The partial update: each non-null request value replaces its column. */
  function Patch(d: Donation, req: DonationRequest): Donation {
    Donation(Pick(req.amount, d.amount), PickId(req.pricingId, d.pricingId), PickId(req.userId, d.userId))
  }

  /** `update` of the route's donation. */
  function Update(t: Table<Donation>, self: nat, req: DonationRequest): (r: Result<Table<Donation>>)
    ensures r.Err? <==> self !in t.rows
    ensures r.Ok? ==> r.value.rows.Keys == t.rows.Keys
    ensures r.Ok? ==> forall k :: k in t.rows && k != self ==> r.value.rows[k] == t.rows[k]
    ensures r.Ok? ==> var d, d' := t.rows[self], r.value.rows[self];
                      && (!IsNull(req.amount) ==> d'.amount == req.amount)
                      && (IsNull(req.amount) ==> d'.amount == d.amount)
                      && (req.pricingId.Some? ==> d'.pricingId == req.pricingId)
                      && (req.pricingId.None? ==> d'.pricingId == d.pricingId)
                      && (req.userId.Some? ==> d'.userId == req.userId) && (req.userId.None? ==> d'.userId == d.userId)
  {
    if self !in t.rows then Err(NotFound("donation")) else Ok(Put(t, self, Patch(t.rows[self], req)))
  }

  /** Sending the same update twice is the same as sending it once. */
  lemma UpdateIdempotent(t: Table<Donation>, self: nat, req: DonationRequest)
    requires self in t.rows
    ensures Update(Update(t, self, req).value, self, req) == Update(t, self, req)
  {
    var t1 := Update(t, self, req).value;
    assert Update(t1, self, req).value.rows == t1.rows;
  }

  /** The update takes an all-space amount that `store` refuses: it checks for null only. */
  lemma UpdateAcceptsBlankAmount(t: Table<Donation>, self: nat, spaces: nat)
    requires self in t.rows && spaces > 0
    ensures var req := DonationRequest(Some(Repeat(' ', spaces)), None, None);
            && Update(t, self, req).Ok?
            && Update(t, self, req).value.rows[self].amount == req.amount
            && Store(t, req).Err?
  {
  }

  /** `destroy` of the route's donation: exactly that donation goes. */
  function Destroy(t: Table<Donation>, self: nat): (r: Result<Table<Donation>>)
    ensures r.Err? <==> self !in t.rows
    ensures r.Ok? ==> r.value.rows.Keys == t.rows.Keys - {self}
    ensures r.Ok? ==> forall k :: k in r.value.rows ==> r.value.rows[k] == t.rows[k]
  {
    if self !in t.rows then Err(NotFound("donation")) else Ok(Remove(t, self))
  }

  /** Destroying a stored donation gives back the rows there were. */
  lemma StoreThenDestroy(t: Table<Donation>, req: DonationRequest)
    requires Store(t, req).Ok?
    ensures var (t', id) := Store(t, req).value;
            Destroy(t', id).Ok? && Destroy(t', id).value.rows == t.rows
  {
    var (t', id) := Store(t, req).value;
    assert Destroy(t', id).value.rows == t.rows;
  }
}

=== FILE: medias.dfy ===
/**
 * Media (MediaController): a title is required and unique among the
 * media of one user, the age group defaults to youth, a cover picture
 * must be an image, and media are listed by age group and type.
 */
module Medias {
  import opened Base
  import opened Tables
  import opened Schema
  import Unique

  /** The text fields of a `store` request. */
  datatype MediaInput = MediaInput(title: Field, mediaUrl: Field, teaserUrl: Field, credits: Credits,
                                   price: Field, forYouth: Field, belongsTo: Option<nat>,
                                   typeId: Option<nat>, userId: Option<nat>)

  /**
   * The `cover_url` file of a `store` request: none, or an upload with
   * the temporary path the column receives and whether its type is one
   * of jpg, jpeg, png and gif.
   */
  datatype Cover = NoCover | Upload(path: string, isImage: bool)

  function Title(m: Media): Field { m.title }

  function OwnerOf(m: Media): Option<nat> { m.userId }

  /** Among the media of one user, no two share a non-null title. */
  predicate UniqueTitles(t: Table<Media>) {
    Unique.Distinct(t, Title, OwnerOf)
  }

  /** `where('user_id', user)` holds a media whose title loosely equals `title`. */
  predicate TitleTaken(t: Table<Media>, user: Option<nat>, title: Field) {
    exists k :: k in t.rows && t.rows[k].userId == user && Same(t.rows[k].title, title)
  }

  lemma TakenIsTitleTaken(t: Table<Media>, user: Option<nat>, title: Field)
    ensures Unique.Taken(t, Title, OwnerOf, user, title) <==> TitleTaken(t, user, title)
  {
    if TitleTaken(t, user, title) {
      var k :| k in t.rows && t.rows[k].userId == user && Same(t.rows[k].title, title);
      assert OwnerOf(t.rows[k]) == user && Same(Title(t.rows[k]), title);
    }
    if Unique.Taken(t, Title, OwnerOf, user, title) {
      var k :| k in t.rows && OwnerOf(t.rows[k]) == user && Same(Title(t.rows[k]), title);
      assert Title(t.rows[k]) == t.rows[k].title && OwnerOf(t.rows[k]) == t.rows[k].userId;
    }
  }

  /** The age group `store` writes as written: `!empty(for_youth) ? for_youth : 1`. */
  function AgeAsWritten(forYouth: Field): Field {
    if PhpEmpty(forYouth) then Some("1") else forYouth
  }

  function CoverPath(cover: Cover): Field {
    if cover.Upload? then Some(cover.path) else None
  }

  /** The row `store` creates, with the age group it was given. */
  function Row(req: MediaInput, cover: Cover, forYouth: Field): Media {
    Media(req.title, Links(req.mediaUrl, req.teaserUrl, CoverPath(cover)), req.credits,
          req.price, forYouth, req.belongsTo, req.typeId, req.userId)
  }

  /** The checks `store` makes before creating the row. */
  predicate Accepted(t: Table<Media>, req: MediaInput, cover: Cover) {
    && !Blank(req.title)
    && !(cover.Upload? && !cover.isImage)
    && !TitleTaken(t, req.userId, req.title)
  }

  /**
   * `store` as written. The row is created once the checks pass; then
   * the cover's extension is read, which fails when no cover was sent,
   * and a video is handed to an uploader method that does not exist.
   * Both failures leave the created row in place.
   */
  function Store(t: Table<Media>, req: MediaInput, cover: Cover, video: bool): (r: (Table<Media>, Result<nat>))
    ensures Blank(req.title) ==> r == (t, Err(Required("media_title")))
    ensures !Blank(req.title) && cover.Upload? && !cover.isImage ==> r == (t, Err(Invalid("cover_url")))
    ensures !Accepted(t, req, cover) ==> r.0 == t && r.1.Err?
    ensures Accepted(t, req, cover) ==> r.0.rows == t.rows[t.next := Row(req, cover, AgeAsWritten(req.forYouth))]
    ensures Accepted(t, req, cover) && cover.NoCover? ==> r.1 == Err(ServerError("cover_url"))
    ensures r.1.Ok? <==> Accepted(t, req, cover) && cover.Upload? && !video
    ensures r.1.Ok? ==> r.1.value == t.next && t.next !in t.rows
  {
    TakenIsTitleTaken(t, req.userId, req.title);
    if Blank(req.title) then (t, Err(Required("media_title")))
    else if cover.Upload? && !cover.isImage then (t, Err(Invalid("cover_url")))
    else if Unique.Taken(t, Title, OwnerOf, req.userId, req.title) then (t, Err(Exists("title")))
    else
      var (t', id) := Insert(t, Row(req, cover, AgeAsWritten(req.forYouth)));
      if cover.NoCover? then (t', Err(ServerError("cover_url")))
      else if video then (t', Err(ServerError("youtube_video")))
      else (t', Ok(id))
  }

  lemma StoreKeepsUniqueTitles(t: Table<Media>, req: MediaInput, cover: Cover, video: bool)
    requires UniqueTitles(t)
    ensures UniqueTitles(Store(t, req, cover, video).0)
  {
    if Accepted(t, req, cover) {
      TakenIsTitleTaken(t, req.userId, req.title);
      Unique.InsertKeepsDistinct(t, Title, OwnerOf, Row(req, cover, AgeAsWritten(req.forYouth)));
    }
  }

  /**
   * As written, a media sent with the age group "0" is stored as a youth
   * media: it is listed under "1" and not under "0".
   */
  lemma StoreTurnsAdultIntoYouth(t: Table<Media>, req: MediaInput, cover: Cover, video: bool, typeId: nat)
    requires Accepted(t, req, cover)
    requires req.forYouth == Some("0") && req.typeId == Some(typeId)
    ensures var t' := Store(t, req, cover, video).0;
            && t.next in FindAllByAgeType(t', "1", typeId)
            && t.next !in FindAllByAgeType(t', "0", typeId)
  {
    var t' := Store(t, req, cover, video).0;
    assert t'.rows[t.next].forYouth == Some("1");
  }

  /** As written, a store without a cover creates the media and still fails. */
  lemma StoreWithoutCoverFails(t: Table<Media>, req: MediaInput, video: bool)
    requires Accepted(t, req, NoCover)
    ensures var (t', r) := Store(t, req, NoCover, video);
            t'.rows.Keys == t.rows.Keys + {t.next} && t.next !in t.rows && r.Err?
  {
  }

  /** The age group as evidently intended: 1 only when none is sent. */
  function Age(forYouth: Field): Field {
    if IsNull(forYouth) then Some("1") else forYouth
  }

  /**
   * `store` as evidently intended: the cover is optional, as its guarded
   * validation says, and an age group of "0" is kept.
   */
  function StoreIntended(t: Table<Media>, req: MediaInput, cover: Cover, video: bool): (r: (Table<Media>, Result<nat>))
    ensures !Accepted(t, req, cover) ==> r == Store(t, req, cover, video)
    ensures Accepted(t, req, cover) ==> r.0.rows == t.rows[t.next := Row(req, cover, Age(req.forYouth))]
    ensures r.1.Ok? <==> Accepted(t, req, cover) && !video
    ensures r.1.Ok? ==> r.1.value == t.next && t.next !in t.rows
  {
    if !Accepted(t, req, cover) then Store(t, req, cover, video)
    else
      var (t', id) := Insert(t, Row(req, cover, Age(req.forYouth)));
      if video then (t', Err(ServerError("youtube_video"))) else (t', Ok(id))
  }

  /** The intended store lists a media under the age group it was sent with, youth when none. */
  lemma StoreIntendedThenFind(t: Table<Media>, req: MediaInput, cover: Cover, video: bool, typeId: nat)
    requires Accepted(t, req, cover) && req.typeId == Some(typeId)
    ensures var t' := StoreIntended(t, req, cover, video).0;
            && (IsNull(req.forYouth) ==> t.next in FindAllByAgeType(t', "1", typeId))
            && (!IsNull(req.forYouth) ==> t.next in FindAllByAgeType(t', req.forYouth.value, typeId))
            && (forall a :: a != Age(req.forYouth).value ==> t.next !in FindAllByAgeType(t', a, typeId))
  {
    var t' := StoreIntended(t, req, cover, video).0;
    assert t'.rows[t.next].forYouth == Age(req.forYouth);
  }

  lemma StoreIntendedKeepsUniqueTitles(t: Table<Media>, req: MediaInput, cover: Cover, video: bool)
    requires UniqueTitles(t)
    ensures UniqueTitles(StoreIntended(t, req, cover, video).0)
  {
    if Accepted(t, req, cover) {
      TakenIsTitleTaken(t, req.userId, req.title);
      Unique.InsertKeepsDistinct(t, Title, OwnerOf, Row(req, cover, Age(req.forYouth)));
    } else {
      StoreKeepsUniqueTitles(t, req, cover, video);
    }
  }

  // ---------------------------------------------------------------- update

  /** The update request; `id` is the body's id, which `update` reads the current title from. */
  datatype MediaRequest = MediaRequest(id: Option<nat>, title: Field, links: Links, credits: Credits,
                                       price: Field, forYouth: Field, belongsTo: Option<nat>,
                                       typeId: Option<nat>, userId: Option<nat>)

  function PickLinks(req: Links, l: Links): Links {
    Links(Pick(req.mediaUrl, l.mediaUrl), Pick(req.teaserUrl, l.teaserUrl), Pick(req.coverUrl, l.coverUrl))
  }

  function PickCredits(req: Credits, c: Credits): Credits {
    Credits(Pick(req.authorNames, c.authorNames), Pick(req.writer, c.writer), Pick(req.director, c.director))
  }

  /** The partial update: each non-null request value replaces its column. */
  function Patch(m: Media, req: MediaRequest): Media {
    Media(Pick(req.title, m.title), PickLinks(req.links, m.links), PickCredits(req.credits, m.credits),
          Pick(req.price, m.price), Pick(req.forYouth, m.forYouth), PickId(req.belongsTo, m.belongsTo),
          PickId(req.typeId, m.typeId), PickId(req.userId, m.userId))
  }

  /** `where('user_id', user)->get()` returns at least one media. */
  predicate HasMedia(t: Table<Media>, user: Option<nat>) {
    exists k :: k in t.rows && t.rows[k].userId == user
  }

  /**
   * `update` of the route's media `self` as written. A non-null title is
   * checked in a loop over the media of the request's user, which is "no
   * user" when the request names none. Every turn first reads the title
   * of the media the body's id names, so with no such media the first
   * turn fails. A title that differs from that one must be free among
   * those media; each non-null value then replaces its column.
   */
  function Update(t: Table<Media>, self: nat, req: MediaRequest): (r: Result<Table<Media>>)
    ensures self !in t.rows ==> r == Err(NotFound("media"))
    ensures r == Err(ServerError("media")) <==>
              self in t.rows && !IsNull(req.title) && !Finds(t, req.id) && HasMedia(t, req.userId)
    ensures r.Err? <==> self !in t.rows
                        || (!IsNull(req.title) && !Finds(t, req.id) && HasMedia(t, req.userId))
                        || (!IsNull(req.title) && Finds(t, req.id) && !Same(t.rows[req.id.value].title, req.title)
                            && TitleTaken(t, req.userId, req.title))
    ensures r.Ok? ==> r.value.rows.Keys == t.rows.Keys
    ensures r.Ok? ==> forall k :: k in t.rows && k != self ==> r.value.rows[k] == t.rows[k]
    ensures r.Ok? ==> var m, m' := t.rows[self], r.value.rows[self];
                      && m'.title == Pick(req.title, m.title)
                      && m'.links.mediaUrl == Pick(req.links.mediaUrl, m.links.mediaUrl)
                      && m'.links.teaserUrl == Pick(req.links.teaserUrl, m.links.teaserUrl)
                      && m'.links.coverUrl == Pick(req.links.coverUrl, m.links.coverUrl)
                      && m'.credits.authorNames == Pick(req.credits.authorNames, m.credits.authorNames)
                      && m'.credits.writer == Pick(req.credits.writer, m.credits.writer)
                      && m'.credits.director == Pick(req.credits.director, m.credits.director)
                      && m'.price == Pick(req.price, m.price) && m'.forYouth == Pick(req.forYouth, m.forYouth)
                      && m'.belongsTo == PickId(req.belongsTo, m.belongsTo)
                      && m'.typeId == PickId(req.typeId, m.typeId) && m'.userId == PickId(req.userId, m.userId)
  {
    TakenIsTitleTaken(t, req.userId, req.title);
    if self !in t.rows then Err(NotFound("media"))
    else if !IsNull(req.title) && !Finds(t, req.id) && HasMedia(t, req.userId) then Err(ServerError("media"))
    else if !IsNull(req.title) && Finds(t, req.id) && !Same(t.rows[req.id.value].title, req.title)
            && Unique.Taken(t, Title, OwnerOf, req.userId, req.title)
    then Err(Exists("title"))
    else Ok(Put(t, self, Patch(t.rows[self], req)))
  }

  /**
   * As written, renaming a media without repeating its owner checks the
   * media that have no owner: media 2 of user 7 takes the title "A" of
   * media 1 of user 7.
   */
  lemma UpdateDuplicatesTitle()
    ensures var m := Media(None, Links(None, None, None), Credits(None, None, None), None, None, None, None, Some(7));
            var t: Table<Media> := Tables.Store(map[1 := m.(title := Some("A")), 2 := m.(title := Some("B"))], 3);
            var req := MediaRequest(Some(2), Some("A"), Links(None, None, None), Credits(None, None, None),
                                    None, None, None, None, None);
            && UniqueTitles(t)
            && Update(t, 2, req).Ok?
            && !UniqueTitles(Update(t, 2, req).value)
  {
    var m := Media(None, Links(None, None, None), Credits(None, None, None), None, None, None, None, Some(7));
    var t: Table<Media> := Tables.Store(map[1 := m.(title := Some("A")), 2 := m.(title := Some("B"))], 3);
    var req := MediaRequest(Some(2), Some("A"), Links(None, None, None), Credits(None, None, None),
                            None, None, None, None, None);
    assert !TitleTaken(t, None, Some("A"));
    var t' := Update(t, 2, req).value;
    assert t'.rows[2].title == t'.rows[1].title && t'.rows[2].userId == t'.rows[1].userId;
  }

  /** Another media of the user `m` will have already holds the title of `m`. */
  predicate ClashesWithOther(t: Table<Media>, self: nat, m: Media) {
    exists j :: j in t.rows && j != self && t.rows[j].userId == m.userId && Same(t.rows[j].title, m.title)
  }

  /**
   * The update as evidently intended: the media as it will be is checked
   * against the other media of the user it will belong to.
   */
  function UpdateIntended(t: Table<Media>, self: nat, req: MediaRequest): (r: Result<Table<Media>>)
    ensures self !in t.rows ==> r == Err(NotFound("media"))
    ensures r.Err? <==> self !in t.rows
                        || (!IsNull(Patch(t.rows[self], req).title) && ClashesWithOther(t, self, Patch(t.rows[self], req)))
    ensures r.Ok? ==> r.value.rows == t.rows[self := Patch(t.rows[self], req)]
  {
    if self !in t.rows then Err(NotFound("media"))
    else
      var m := Patch(t.rows[self], req);
      if !IsNull(m.title) && ClashesWithOther(t, self, m) then Err(Exists("title"))
      else Ok(Put(t, self, m))
  }

  lemma UpdateIntendedKeepsUniqueTitles(t: Table<Media>, self: nat, req: MediaRequest)
    requires UniqueTitles(t)
    requires UpdateIntended(t, self, req).Ok?
    ensures UniqueTitles(UpdateIntended(t, self, req).value)
  {
    var m := Patch(t.rows[self], req);
    forall j | j in t.rows && j != self && OwnerOf(t.rows[j]) == OwnerOf(m) && !IsNull(Title(m))
      ensures !Same(Title(t.rows[j]), Title(m))
    {
      assert !(t.rows[j].userId == m.userId && Same(t.rows[j].title, m.title));
    }
    Unique.PutKeepsDistinct(t, Title, OwnerOf, self, m);
  }

  /**
   * The two updates agree whenever the request repeats the media's own
   * id and owner: the written check then reads what it means to.
   */
  lemma UpdateIntendedAgrees(t: Table<Media>, self: nat, req: MediaRequest)
    requires UniqueTitles(t)
    requires self in t.rows && req.id == Some(self) && req.userId == t.rows[self].userId
    ensures UpdateIntended(t, self, req) == Update(t, self, req)
  {
    var m := Patch(t.rows[self], req);
    if IsNull(req.title) || Same(t.rows[self].title, req.title) {
      forall j | j in t.rows && j != self && t.rows[j].userId == m.userId && !IsNull(m.title)
        ensures !Same(t.rows[j].title, m.title)
      {
        assert m.title == t.rows[self].title;
      }
    } else {
      if TitleTaken(t, req.userId, req.title) {
        var k :| k in t.rows && t.rows[k].userId == req.userId && Same(t.rows[k].title, req.title);
        assert k != self;
      }
    }
  }

  /** The address the video branch of `destroy` is guarded by. */
  const YouTubeHome := "https://www.youtube.com"

  /**
   * The guard of the video branch as written,
   * `str_starts_with(YouTubeHome, media_url)`: the arguments are swapped,
   * so it holds when the media's URL is a prefix of `YouTubeHome`, a
   * null URL (read as "") included, and not for a video's address.
   */
  predicate VideoBranch(url: Field) {
    url.GetOr("") <= YouTubeHome
  }

  /**
   * `destroy` of the route's media as written. In the video branch the
   * URL is matched against the video-id pattern, which no prefix of
   * `YouTubeHome` matches, so reading the id fails before the delete;
   * otherwise the media goes.
   */
  function Destroy(t: Table<Media>, self: nat): (r: Result<Table<Media>>)
    ensures self !in t.rows ==> r == Err(NotFound("media"))
    ensures r.Err? <==> self !in t.rows || VideoBranch(t.rows[self].links.mediaUrl)
    ensures r.Ok? ==> r.value.rows.Keys == t.rows.Keys - {self}
    ensures r.Ok? ==> forall k :: k in r.value.rows ==> r.value.rows[k] == t.rows[k]
  {
    if self !in t.rows then Err(NotFound("media"))
    else if VideoBranch(t.rows[self].links.mediaUrl) then Err(ServerError("youtube"))
    else Ok(Remove(t, self))
  }

  /** As written, a media whose URL is null or empty cannot be deleted, while a video's can. */
  lemma DestroyKeepsMediaWithoutUrl(t: Table<Media>, self: nat, video: nat)
    requires self in t.rows && IsNull(t.rows[self].links.mediaUrl)
    requires video in t.rows && t.rows[video].links.mediaUrl == Some(YouTubeHome + "/watch?v=dQw4w9WgXcQ")
    ensures Destroy(t, self) == Err(ServerError("youtube"))
    ensures Destroy(t, video).Ok?
  {
    assert t.rows[self].links.mediaUrl.GetOr("") == "";
    var url := YouTubeHome + "/watch?v=dQw4w9WgXcQ";
    assert |url| > |YouTubeHome|;
  }

  /**
   * `destroy` as evidently intended, the guard reading "the URL starts
   * with `YouTubeHome`": with the video removal left out, an existing
   * media always goes.
   */
  function DestroyIntended(t: Table<Media>, self: nat): (r: Result<Table<Media>>)
    ensures self !in t.rows <==> r.Err?
    ensures r.Ok? ==> r.value.rows.Keys == t.rows.Keys - {self}
    ensures r.Ok? ==> forall k :: k in r.value.rows ==> r.value.rows[k] == t.rows[k]
  {
    if self !in t.rows then Err(NotFound("media")) else Ok(Remove(t, self))
  }

  /** Wherever the written guard lets the delete through, the two agree. */
  lemma DestroyIntendedAgrees(t: Table<Media>, self: nat)
    requires Destroy(t, self).Ok?
    ensures DestroyIntended(t, self) == Destroy(t, self)
  {
  }

  lemma DestroyKeepsUniqueTitles(t: Table<Media>, self: nat)
    requires UniqueTitles(t)
    requires Destroy(t, self).Ok?
    ensures UniqueTitles(Destroy(t, self).value)
  {
    Unique.RemoveKeepsDistinct(t, Title, OwnerOf, self);
  }

  lemma DestroyIntendedKeepsUniqueTitles(t: Table<Media>, self: nat)
    requires UniqueTitles(t)
    requires DestroyIntended(t, self).Ok?
    ensures UniqueTitles(DestroyIntended(t, self).value)
  {
    Unique.RemoveKeepsDistinct(t, Title, OwnerOf, self);
  }

  // -------------------------------------------------------------- listings

  /** `findAllByAgeType` without session headers: the media of age group `forYouth` and type `typeId`. */
  function FindAllByAgeType(t: Table<Media>, forYouth: string, typeId: nat): (ids: set<nat>)
    ensures forall k :: k in ids <==> k in t.rows && t.rows[k].forYouth == Some(forYouth) && t.rows[k].typeId == Some(typeId)
  {
    Select(t, (m: Media) => m.forYouth == Some(forYouth) && m.typeId == Some(typeId))
  }
}

=== FILE: orders.dfy ===
/**
 * Order lines (OrderController): a cart is required to create one,
 * and the update replaces only the ids the request gives.
 */
module Orders {
  import opened Base
  import opened Tables
  import opened Schema

  datatype OrderRequest = OrderRequest(bookId: Option<nat>, mediaId: Option<nat>, pricingId: Option<nat>, cartId: Option<nat>)

  function FromRequest(req: OrderRequest): Order {
    Order(req.bookId, req.mediaId, req.pricingId, req.cartId)
  }

  /** `store`: a missing cart is refused; otherwise exactly one order is added. */
  function Store(t: Table<Order>, req: OrderRequest): (r: Result<(Table<Order>, nat)>)
    ensures r.Err? <==> req.cartId.None?
    ensures r.Err? ==> r.error == Required("cart_id")
    ensures r.Ok? ==> var (t', id) := r.value;
                      && id !in t.rows && t'.rows.Keys == t.rows.Keys + {id}
                      && t'.rows[id] == Order(req.bookId, req.mediaId, req.pricingId, req.cartId)
                      && forall k :: k in t.rows ==> t'.rows[k] == t.rows[k]
  {
    if req.cartId.None? then Err(Required("cart_id"))
    else Ok(Insert(t, FromRequest(req)))
  }

  /** The partial update: each id the request gives replaces its column. */
  function Patch(o: Order, req: OrderRequest): Order {
    Order(PickId(req.bookId, o.bookId), PickId(req.mediaId, o.mediaId),
          PickId(req.pricingId, o.pricingId), PickId(req.cartId, o.cartId))
  }

  /** `update` of the route's order. */
  function Update(t: Table<Order>, self: nat, req: OrderRequest): (r: Result<Table<Order>>)
    ensures r.Err? <==> self !in t.rows
    ensures r.Ok? ==> r.value.rows.Keys == t.rows.Keys
    ensures r.Ok? ==> forall k :: k in t.rows && k != self ==> r.value.rows[k] == t.rows[k]
    ensures r.Ok? ==> var o, o' := t.rows[self], r.value.rows[self];
                      && (req.bookId.Some? ==> o'.bookId == req.bookId) && (req.bookId.None? ==> o'.bookId == o.bookId)
                      && (req.mediaId.Some? ==> o'.mediaId == req.mediaId) && (req.mediaId.None? ==> o'.mediaId == o.mediaId)
                      && (req.pricingId.Some? ==> o'.pricingId == req.pricingId)
                      && (req.pricingId.None? ==> o'.pricingId == o.pricingId)
                      && (req.cartId.Some? ==> o'.cartId == req.cartId) && (req.cartId.None? ==> o'.cartId == o.cartId)
  {
    if self !in t.rows then Err(NotFound("order")) else Ok(Put(t, self, Patch(t.rows[self], req)))
  }

  /** Sending the same update twice is the same as sending it once. */
  lemma UpdateIdempotent(t: Table<Order>, self: nat, req: OrderRequest)
    requires self in t.rows
    ensures Update(Update(t, self, req).value, self, req) == Update(t, self, req)
  {
    var t1 := Update(t, self, req).value;
    assert Update(t1, self, req).value.rows == t1.rows;
  }

  /** Updating a stored order with the request it was stored from changes nothing. */
  lemma StoreThenUpdate(t: Table<Order>, req: OrderRequest)
    requires Store(t, req).Ok?
    ensures var (t', id) := Store(t, req).value;
            Update(t', id, req) == Ok(t')
  {
    var (t', id) := Store(t, req).value;
    assert Update(t', id, req).value.rows == t'.rows;
  }

  /** `destroy` of the route's order: exactly that order goes. */
  function Destroy(t: Table<Order>, self: nat): (r: Result<Table<Order>>)
    ensures r.Err? <==> self !in t.rows
    ensures r.Ok? ==> r.value.rows.Keys == t.rows.Keys - {self}
    ensures r.Ok? ==> forall k :: k in r.value.rows ==> r.value.rows[k] == t.rows[k]
  {
    if self !in t.rows then Err(NotFound("order")) else Ok(Remove(t, self))
  }

  /** Destroying a stored order gives back the rows there were. */
  lemma StoreThenDestroy(t: Table<Order>, req: OrderRequest)
    requires Store(t, req).Ok?
    ensures var (t', id) := Store(t, req).value;
            Destroy(t', id).Ok? && Destroy(t', id).value.rows == t.rows
  {
    var (t', id) := Store(t, req).value;
    assert Destroy(t', id).value.rows == t.rows;
  }
}

=== FILE: parts.dfy ===
/**
 * Parts of a media (PartController): a title and a URL are required,
 * and a title is unique among the parts of one media.
 */
module Parts {
  import opened Base
  import opened Tables
  import Unique

  datatype Part = Part(title: Field, url: Field, mediaId: Option<nat>)

  /** The request body; `id` is the body's id, which `update` reads the current title from. */
  datatype PartRequest = PartRequest(id: Option<nat>, title: Field, url: Field, mediaId: Option<nat>)

  function Title(p: Part): Field { p.title }

  function MediaOf(p: Part): Option<nat> { p.mediaId }

  /** Within one media, no two parts share a non-null title. */
  predicate UniqueTitles(t: Table<Part>) {
    Unique.Distinct(t, Title, MediaOf)
  }

  /** `where('media_id', media)` holds a part whose title loosely equals `title`. */
  predicate TitleTaken(t: Table<Part>, media: Option<nat>, title: Field) {
    exists k :: k in t.rows && t.rows[k].mediaId == media && Same(t.rows[k].title, title)
  }

  lemma TakenIsTitleTaken(t: Table<Part>, media: Option<nat>, title: Field)
    ensures Unique.Taken(t, Title, MediaOf, media, title) <==> TitleTaken(t, media, title)
  {
    if TitleTaken(t, media, title) {
      var k :| k in t.rows && t.rows[k].mediaId == media && Same(t.rows[k].title, title);
      assert MediaOf(t.rows[k]) == media && Same(Title(t.rows[k]), title);
    }
    if Unique.Taken(t, Title, MediaOf, media, title) {
      var k :| k in t.rows && MediaOf(t.rows[k]) == media && Same(Title(t.rows[k]), title);
      assert Title(t.rows[k]) == t.rows[k].title && MediaOf(t.rows[k]) == t.rows[k].mediaId;
    }
  }

  function FromRequest(req: PartRequest): Part {
    Part(req.title, req.url, req.mediaId)
  }

  /** `store`: title, then URL, are required; the title must be free within the request's media. */
  function Store(t: Table<Part>, req: PartRequest): (r: Result<(Table<Part>, nat)>)
    ensures Blank(req.title) ==> r == Err(Required("part_title"))
    ensures !Blank(req.title) && Blank(req.url) ==> r == Err(Required("part_url"))
    ensures r.Err? <==> Blank(req.title) || Blank(req.url) || TitleTaken(t, req.mediaId, req.title)
    ensures r.Ok? ==> r.value.1 !in t.rows && r.value.0.rows == t.rows[r.value.1 := FromRequest(req)]
  {
    TakenIsTitleTaken(t, req.mediaId, req.title);
    if Blank(req.title) then Err(Required("part_title"))
    else if Blank(req.url) then Err(Required("part_url"))
    else if Unique.Taken(t, Title, MediaOf, req.mediaId, req.title) then Err(Exists("title"))
    else Ok(Insert(t, FromRequest(req)))
  }

  lemma StoreKeepsUniqueTitles(t: Table<Part>, req: PartRequest)
    requires UniqueTitles(t)
    requires Store(t, req).Ok?
    ensures UniqueTitles(Store(t, req).value.0)
  {
    Unique.InsertKeepsDistinct(t, Title, MediaOf, FromRequest(req));
  }

  /** The partial update: each non-null request value replaces its column. */
  function Patch(p: Part, req: PartRequest): Part {
    Part(Pick(req.title, p.title), Pick(req.url, p.url), PickId(req.mediaId, p.mediaId))
  }

  /** `where('media_id', media)->get()` returns at least one part. */
  predicate HasParts(t: Table<Part>, media: Option<nat>) {
    exists k :: k in t.rows && t.rows[k].mediaId == media
  }

  /**
   * `update` of the route's part `self` as written. A non-null title is
   * checked in a loop over the parts of the request's media, which is
   * "no media" when the request names none. Every turn first reads the
   * title of the part the body's id names, so with no such part the
   * first turn fails. A title that differs from that one must be free
   * among those parts; each non-null value then replaces its column.
   */
  function Update(t: Table<Part>, self: nat, req: PartRequest): (r: Result<Table<Part>>)
    ensures self !in t.rows ==> r == Err(NotFound("part"))
    ensures r == Err(ServerError("part")) <==>
              self in t.rows && !IsNull(req.title) && !Finds(t, req.id) && HasParts(t, req.mediaId)
    ensures r.Err? <==> self !in t.rows
                        || (!IsNull(req.title) && !Finds(t, req.id) && HasParts(t, req.mediaId))
                        || (!IsNull(req.title) && Finds(t, req.id) && !Same(t.rows[req.id.value].title, req.title)
                            && TitleTaken(t, req.mediaId, req.title))
    ensures r.Ok? ==> r.value.rows.Keys == t.rows.Keys
    ensures r.Ok? ==> forall k :: k in t.rows && k != self ==> r.value.rows[k] == t.rows[k]
    ensures r.Ok? ==> var p := r.value.rows[self];
                      && p.title == Pick(req.title, t.rows[self].title)
                      && p.url == Pick(req.url, t.rows[self].url)
                      && p.mediaId == PickId(req.mediaId, t.rows[self].mediaId)
  {
    TakenIsTitleTaken(t, req.mediaId, req.title);
    if self !in t.rows then Err(NotFound("part"))
    else if !IsNull(req.title) && !Finds(t, req.id) && HasParts(t, req.mediaId) then Err(ServerError("part"))
    else if !IsNull(req.title) && Finds(t, req.id) && !Same(t.rows[req.id.value].title, req.title)
            && Unique.Taken(t, Title, MediaOf, req.mediaId, req.title)
    then Err(Exists("title"))
    else Ok(Put(t, self, Patch(t.rows[self], req)))
  }

  /**
   * As written, renaming a part without repeating its media checks the
   * parts that have no media: part 2 of media 5 takes the title "A" of
   * part 1 of the same media.
   */
  lemma UpdateDuplicatesTitle()
    ensures var t: Table<Part> := Tables.Store(map[1 := Part(Some("A"), Some("u"), Some(5)),
                                                   2 := Part(Some("B"), Some("v"), Some(5))], 3);
            var req := PartRequest(Some(2), Some("A"), None, None);
            && UniqueTitles(t)
            && Update(t, 2, req).Ok?
            && !UniqueTitles(Update(t, 2, req).value)
  {
    var t: Table<Part> := Tables.Store(map[1 := Part(Some("A"), Some("u"), Some(5)),
                                           2 := Part(Some("B"), Some("v"), Some(5))], 3);
    var req := PartRequest(Some(2), Some("A"), None, None);
    assert !TitleTaken(t, None, Some("A"));
    var t' := Update(t, 2, req).value;
    assert t'.rows[2].title == t'.rows[1].title && t'.rows[2].mediaId == t'.rows[1].mediaId;
  }

  /** Another part of the media `p` lands in already holds the title of `p`. */
  predicate ClashesWithOther(t: Table<Part>, self: nat, p: Part) {
    exists j :: j in t.rows && j != self && t.rows[j].mediaId == p.mediaId && Same(t.rows[j].title, p.title)
  }

  /**
   * The update as evidently intended: the part as it will be is checked
   * against the other parts of the media it will belong to.
   */
  function UpdateIntended(t: Table<Part>, self: nat, req: PartRequest): (r: Result<Table<Part>>)
    ensures self !in t.rows ==> r == Err(NotFound("part"))
    ensures r.Err? <==> self !in t.rows
                        || (!IsNull(Patch(t.rows[self], req).title) && ClashesWithOther(t, self, Patch(t.rows[self], req)))
    ensures r.Ok? ==> r.value.rows == t.rows[self := Patch(t.rows[self], req)]
  {
    if self !in t.rows then Err(NotFound("part"))
    else
      var p := Patch(t.rows[self], req);
      if !IsNull(p.title) && ClashesWithOther(t, self, p) then Err(Exists("title"))
      else Ok(Put(t, self, p))
  }

  lemma UpdateIntendedKeepsUniqueTitles(t: Table<Part>, self: nat, req: PartRequest)
    requires UniqueTitles(t)
    requires UpdateIntended(t, self, req).Ok?
    ensures UniqueTitles(UpdateIntended(t, self, req).value)
  {
    var p := Patch(t.rows[self], req);
    forall j | j in t.rows && j != self && MediaOf(t.rows[j]) == MediaOf(p) && !IsNull(Title(p))
      ensures !Same(Title(t.rows[j]), Title(p))
    {
      assert !(t.rows[j].mediaId == p.mediaId && Same(t.rows[j].title, p.title));
    }
    Unique.PutKeepsDistinct(t, Title, MediaOf, self, p);
  }

  /**
   * The two updates agree whenever the request repeats the part's own
   * id and media: the written check then reads what it means to.
   */
  lemma UpdateIntendedAgrees(t: Table<Part>, self: nat, req: PartRequest)
    requires UniqueTitles(t)
    requires self in t.rows && req.id == Some(self) && req.mediaId == t.rows[self].mediaId
    ensures UpdateIntended(t, self, req) == Update(t, self, req)
  {
    var p := Patch(t.rows[self], req);
    if IsNull(req.title) || Same(t.rows[self].title, req.title) {
      forall j | j in t.rows && j != self && t.rows[j].mediaId == p.mediaId && !IsNull(p.title)
        ensures !Same(t.rows[j].title, p.title)
      {
        assert p.title == t.rows[self].title;
      }
    } else {
      if TitleTaken(t, req.mediaId, req.title) {
        var k :| k in t.rows && t.rows[k].mediaId == req.mediaId && Same(t.rows[k].title, req.title);
        assert k != self;
      }
    }
  }

  /** `destroy` of the route's part. */
  function Destroy(t: Table<Part>, self: nat): (r: Result<Table<Part>>)
    ensures self !in t.rows <==> r.Err?
    ensures r.Ok? ==> r.value.rows.Keys == t.rows.Keys - {self}
    ensures r.Ok? ==> forall k :: k in r.value.rows ==> r.value.rows[k] == t.rows[k]
  {
    if self !in t.rows then Err(NotFound("part")) else Ok(Remove(t, self))
  }

  lemma DestroyKeepsUniqueTitles(t: Table<Part>, self: nat)
    requires UniqueTitles(t)
    requires Destroy(t, self).Ok?
    ensures UniqueTitles(Destroy(t, self).value)
  {
    Unique.RemoveKeepsDistinct(t, Title, MediaOf, self);
  }
}

=== FILE: password_resets.dfy ===
/**
 * One-time codes (PasswordResetController): a `password_resets` row holds
 * the 7-digit token sent to an e-mail address or a phone number; storing
 * replaces the address's previous row, searching regenerates the token,
 * and checking a matching token marks the address verified.
 */
module PasswordResets {
  import opened Base
  import opened Text
  import opened Tables
  import opened Schema

  /** `(string) random_int(1000000, 9999999)`: always seven decimal digits. */
  function TokenString(n: Token7): (s: string)
    ensures |s| == 7 && IsDigits(s) && ValueOf(s) == n
  {
    NatToStrLength(n, 6);
    NatToStrRoundTrip(n);
    NatToStr(n)
  }

  /** Distinct tokens are distinct strings. */
  lemma TokenStringInjective(a: Token7, b: Token7)
    requires TokenString(a) == TokenString(b)
    ensures a == b
  {
  }

  datatype ResetRequest = ResetRequest(email: Field, phone: Field, formerPassword: Field)

  /** Null, empty, or the single space the controller also refuses. */
  predicate NullOrSpace(f: Field) {
    IsNull(f) || f == Some(" ")
  }

  /** No two rows share a non-null e-mail address. */
  predicate UniqueEmails(resets: Table<Reset>) {
    forall i, j :: i in resets.rows && j in resets.rows && i != j && !IsNull(resets.rows[i].email) ==>
      resets.rows[i].email != resets.rows[j].email
  }

  /** Deletes the first row satisfying p, if any. */
  function RemoveFirst(resets: Table<Reset>, p: Reset -> bool): (r: Table<Reset>)
    ensures First(resets, p).None? ==> r == resets
    ensures First(resets, p).Some? ==> r.rows == resets.rows - {First(resets, p).value}
    ensures r.next == resets.next
  {
    match First(resets, p)
    case None => resets
    case Some(k) => Remove(resets, k)
  }

  /**
   * `store`: refused when each identifier is null, empty or " ";
   * otherwise the first row for the e-mail (or, without an e-mail, for
   * the phone) is replaced by a new row carrying a fresh token.
   */
  function Store(resets: Table<Reset>, req: ResetRequest, token: Token7): (r: Result<(Table<Reset>, nat)>)
    ensures r.Err? <==> NullOrSpace(req.email) && NullOrSpace(req.phone)
    ensures r.Err? ==> r.error == Required("email_or_phone")
    ensures r.Ok? ==> var (resets', id) := r.value;
                      && id !in resets.rows && id in resets'.rows
                      && resets'.rows[id] == Reset(req.email, req.phone, Some(TokenString(token)), req.formerPassword)
    // the e-mail takes precedence: its first row goes, and only that one
    ensures r.Ok? && !IsNull(req.email) ==>
              var kept := RemoveFirst(resets, (x: Reset) => x.email == req.email);
              r.value.0.rows == kept.rows[r.value.1 := Reset(req.email, req.phone, Some(TokenString(token)), req.formerPassword)]
    ensures r.Ok? && IsNull(req.email) ==>
              var kept := RemoveFirst(resets, (x: Reset) => x.phone == req.phone);
              r.value.0.rows == kept.rows[r.value.1 := Reset(req.email, req.phone, Some(TokenString(token)), req.formerPassword)]
  {
    if NullOrSpace(req.email) && NullOrSpace(req.phone) then Err(Required("email_or_phone"))
    else
      var row := Reset(req.email, req.phone, Some(TokenString(token)), req.formerPassword);
      if !IsNull(req.email) then
        Ok(Insert(RemoveFirst(resets, (x: Reset) => x.email == req.email), row))
      else
        Ok(Insert(RemoveFirst(resets, (x: Reset) => x.phone == req.phone), row))
  }

  /** Storing keeps at most one row per e-mail address. */
  lemma StoreKeepsUniqueEmails(resets: Table<Reset>, req: ResetRequest, token: Token7)
    requires UniqueEmails(resets)
    requires Store(resets, req, token).Ok?
    ensures UniqueEmails(Store(resets, req, token).value.0)
  {
    var (resets', id) := Store(resets, req, token).value;
    forall i, j | i in resets'.rows && j in resets'.rows && i != j && !IsNull(resets'.rows[i].email)
      ensures resets'.rows[i].email != resets'.rows[j].email
    {
      if !IsNull(req.email) && (i == id || j == id) {
        var other := if i == id then j else i;
        var f := First(resets, (x: Reset) => x.email == req.email);
        assert other in resets.rows && resets'.rows[other] == resets.rows[other];
        if f.Some? {
          assert other != f.value;
          assert resets.rows[f.value].email != resets.rows[other].email;
        }
      }
    }
  }

  /** The reset stored for an address is the one later found for it. */
  lemma StoreThenFind(resets: Table<Reset>, req: ResetRequest, token: Token7)
    requires UniqueEmails(resets)
    requires !IsNull(req.email) && Store(resets, req, token).Ok?
    ensures var (resets', id) := Store(resets, req, token).value;
            First(resets', (x: Reset) => x.email == req.email) == Some(id)
  {
    var (resets', id) := Store(resets, req, token).value;
    StoreKeepsUniqueEmails(resets, req, token);
    FirstOfSole(resets', (x: Reset) => x.email == req.email, id);
  }

  datatype Channel = ByEmail | ByPhone

  /** `searchByEmailOrPhone` reads a numeric datum as a phone number, anything else as an e-mail. */
  function ChannelOf(data: string): (c: Channel)
    ensures c == ByPhone <==> IsNumeric(data)
  {
    if IsNumeric(data) then ByPhone else ByEmail
  }

  predicate UserHas(u: User, c: Channel, data: string) {
    if c == ByPhone then u.phone == Some(data) else u.email == Some(data)
  }

  predicate ResetHas(x: Reset, c: Channel, data: string) {
    if c == ByPhone then x.phone == Some(data) else x.email == Some(data)
  }

  /**
   * `searchByEmailOrPhone`: with both a user and a reset for the datum,
   * the reset gets a new token; otherwise nothing changes.
   */
  function SearchByEmailOrPhone(users: Table<User>, resets: Table<Reset>, data: string, token: Token7)
    : (r: Result<(Table<Reset>, nat)>)
    ensures !Any(users, (u: User) => UserHas(u, ChannelOf(data), data)) ==> r == Err(NotFound("user"))
    ensures r.Ok? <==> (Any(users, (u: User) => UserHas(u, ChannelOf(data), data))
                        && Any(resets, (x: Reset) => ResetHas(x, ChannelOf(data), data)))
    ensures r.Ok? ==> var (resets', k) := r.value;
                      && k == First(resets, (x: Reset) => ResetHas(x, ChannelOf(data), data)).value
                      && resets'.rows == resets.rows[k := resets.rows[k].(token := Some(TokenString(token)))]
  {
    var c := ChannelOf(data);
    if First(users, (u: User) => UserHas(u, c, data)).None? then Err(NotFound("user"))
    else match First(resets, (x: Reset) => ResetHas(x, c, data))
      case None => Err(NotFound("password_reset"))
      case Some(k) => Ok((Put(resets, k, resets.rows[k].(token := Some(TokenString(token)))), k))
  }

  /** The first account holding the e-mail `email`. */
  function UserByEmail(users: Table<User>, email: Field): Option<nat> {
    First(users, (u: User) => u.email == email)
  }

  /** The first account holding the phone `phone`. */
  function UserByPhone(users: Table<User>, phone: Field): Option<nat> {
    First(users, (u: User) => u.phone == phone)
  }

  /** The first reset row of the e-mail `email` exists and holds `token`. */
  predicate EmailChecks(resets: Table<Reset>, email: Field, token: Field) {
    var k := First(resets, (x: Reset) => x.email == email);
    k.Some? && Same(resets.rows[k.value].token, token)
  }

  /** The first reset row of the phone `phone` exists and holds `token`. */
  predicate PhoneChecks(resets: Table<Reset>, phone: Field, token: Field) {
    var k := First(resets, (x: Reset) => x.phone == phone);
    k.Some? && Same(resets.rows[k.value].token, token)
  }

  /** Account `u` with its e-mail and phone verification times set to `now` as the flags say. */
  function Stamped(u: User, byEmail: bool, byPhone: bool, now: string): User {
    u.(emailVerifiedAt := if byEmail then Some(now) else u.emailVerifiedAt,
       phoneVerifiedAt := if byPhone then Some(now) else u.phoneVerifiedAt)
  }

  /** The request gives a token and both an e-mail and a phone, one of them not blank. */
  predicate BothGiven(email: Field, phone: Field, token: Field) {
    !IsNull(email) && !IsNull(phone) && !(Blank(email) && Blank(phone)) && !Blank(token)
  }

  /**
   * The branch of `checkToken` for both identifiers, looking up the
   * values `email` and `phone`. The e-mail step runs when an account holds
   * the e-mail and the phone step when one holds the phone; each refuses
   * a missing reset row or a wrong token, and a passing e-mail step stays
   * written when the phone step then fails. The answer is the account
   * found by phone, else the one found by e-mail; with neither, the
   * response reads the columns of a missing account, which fails.
   */
  function CheckBoth(users: Table<User>, resets: Table<Reset>, email: Field, phone: Field, token: Field, now: string)
    : (r: (Table<User>, Result<nat>))
    ensures r.0.rows.Keys == users.rows.Keys
    ensures UserByEmail(users, email).None? && UserByPhone(users, phone).None? ==> r == (users, Err(ServerError("user")))
    ensures r.1.Ok? <==>
              (&& (UserByEmail(users, email).Some? || UserByPhone(users, phone).Some?)
               && (UserByEmail(users, email).Some? ==> EmailChecks(resets, email, token))
               && (UserByPhone(users, phone).Some? ==> PhoneChecks(resets, phone, token)))
    ensures r.1.Ok? ==> Some(r.1.value) == if UserByPhone(users, phone).Some? then UserByPhone(users, phone)
                                           else UserByEmail(users, email)
    // each account found by a step that passed has that step's time; nothing else changes
    ensures forall k :: k in users.rows ==>
              r.0.rows[k] == Stamped(users.rows[k],
                                     UserByEmail(users, email) == Some(k) && EmailChecks(resets, email, token),
                                     && UserByPhone(users, phone) == Some(k) && PhoneChecks(resets, phone, token)
                                     && (UserByEmail(users, email).Some? ==> EmailChecks(resets, email, token)),
                                     now)
    // which step refused, and why
    ensures UserByEmail(users, email).Some? && !Any(resets, (x: Reset) => x.email == email) ==>
              r.1 == Err(NotFound("password_reset"))
    ensures UserByEmail(users, email).Some? && Any(resets, (x: Reset) => x.email == email) && !EmailChecks(resets, email, token) ==>
              r.1 == Err(BadToken)
    ensures (&& (UserByEmail(users, email).Some? ==> EmailChecks(resets, email, token)) && UserByPhone(users, phone).Some?
             && !Any(resets, (x: Reset) => x.phone == phone)) ==> r.1 == Err(NotFound("password_reset"))
    ensures (&& (UserByEmail(users, email).Some? ==> EmailChecks(resets, email, token)) && UserByPhone(users, phone).Some?
             && Any(resets, (x: Reset) => x.phone == phone) && !PhoneChecks(resets, phone, token)) ==> r.1 == Err(BadToken)
  {
    var ue := UserByEmail(users, email);
    var up := UserByPhone(users, phone);
    if ue.Some? && !EmailChecks(resets, email, token) then
      (users, Err(if Any(resets, (x: Reset) => x.email == email) then BadToken else NotFound("password_reset")))
    else
      var users1 := if ue.Some? then Put(users, ue.value, users.rows[ue.value].(emailVerifiedAt := Some(now))) else users;
      if up.None? then
        if ue.None? then (users, Err(ServerError("user"))) else (users1, Ok(ue.value))
      else if !PhoneChecks(resets, phone, token) then
        (users1, Err(if Any(resets, (x: Reset) => x.phone == phone) then BadToken else NotFound("password_reset")))
      else (Put(users1, up.value, users1.rows[up.value].(phoneVerifiedAt := Some(now))), Ok(up.value))
  }

  /**
   * `checkToken` as evidently intended: the branch for both identifiers
   * looks up the request's e-mail and phone, as the branches for one
   * identifier do; `now` is the timestamp written.
   */
  function CheckTokenIntended(users: Table<User>, resets: Table<Reset>, email: Field, phone: Field, token: Field, now: string)
    : (r: (Table<User>, Result<nat>))
    ensures Blank(email) && Blank(phone) ==> r == (users, Err(Required("email_or_phone")))
    ensures !(Blank(email) && Blank(phone)) && Blank(token) ==> r == (users, Err(Required("token")))
    ensures BothGiven(email, phone, token) ==> r == CheckBoth(users, resets, email, phone, token, now)
    // one identifier: success means an account and the first reset row of the identifier, holding the token
    ensures !Blank(email) && IsNull(phone) && !Blank(token) ==>
              (r.1.Ok? <==> UserByEmail(users, email).Some? && EmailChecks(resets, email, token))
    ensures IsNull(email) && !Blank(phone) && !Blank(token) ==>
              (r.1.Ok? <==> UserByPhone(users, phone).Some? && PhoneChecks(resets, phone, token))
    ensures r.1.Ok? && IsNull(phone) ==>
              && UserByEmail(users, email) == Some(r.1.value)
              && r.0.rows == users.rows[r.1.value := users.rows[r.1.value].(emailVerifiedAt := Some(now))]
    ensures r.1.Ok? && IsNull(email) ==>
              && UserByPhone(users, phone) == Some(r.1.value)
              && r.0.rows == users.rows[r.1.value := users.rows[r.1.value].(phoneVerifiedAt := Some(now))]
    ensures (IsNull(email) || IsNull(phone)) && r.1.Err? ==> r.0 == users
    // a token that differs from the stored one is refused
    ensures (&& !Blank(email) && IsNull(phone) && !Blank(token) && UserByEmail(users, email).Some?
             && Any(resets, (x: Reset) => x.email == email) && !EmailChecks(resets, email, token)) ==> r.1 == Err(BadToken)
    ensures (&& IsNull(email) && !Blank(phone) && !Blank(token) && UserByPhone(users, phone).Some?
             && Any(resets, (x: Reset) => x.phone == phone) && !PhoneChecks(resets, phone, token)) ==> r.1 == Err(BadToken)
  {
    if Blank(email) && Blank(phone) then (users, Err(Required("email_or_phone")))
    else if Blank(token) then (users, Err(Required("token")))
    else if !IsNull(email) && !IsNull(phone) then CheckBoth(users, resets, email, phone, token, now)
    else if !IsNull(email) then
      match UserByEmail(users, email)
      case None => (users, Err(NotFound("user")))
      case Some(u) =>
        if !Any(resets, (x: Reset) => x.email == email) then (users, Err(NotFound("password_reset")))
        else if !EmailChecks(resets, email, token) then (users, Err(BadToken))
        else (Put(users, u, users.rows[u].(emailVerifiedAt := Some(now))), Ok(u))
    else
      match UserByPhone(users, phone)
      case None => (users, Err(NotFound("user")))
      case Some(u) =>
        if !Any(resets, (x: Reset) => x.phone == phone) then (users, Err(NotFound("password_reset")))
        else if !PhoneChecks(resets, phone, token) then (users, Err(BadToken))
        else (Put(users, u, users.rows[u].(phoneVerifiedAt := Some(now))), Ok(u))
  }

  /**
   * `checkToken` as written: the branch for both identifiers looks up the
   * strings "email" and "phone" instead of the request's values; with one
   * identifier it is the intended check.
   */
  function CheckToken(users: Table<User>, resets: Table<Reset>, email: Field, phone: Field, token: Field, now: string)
    : (r: (Table<User>, Result<nat>))
    ensures !BothGiven(email, phone, token) ==> r == CheckTokenIntended(users, resets, email, phone, token, now)
    ensures BothGiven(email, phone, token) ==> r == CheckBoth(users, resets, Some("email"), Some("phone"), token, now)
    // so with no account holding those strings, any request with both identifiers fails
    ensures && BothGiven(email, phone, token)
            && UserByEmail(users, Some("email")).None? && UserByPhone(users, Some("phone")).None? ==>
              r == (users, Err(ServerError("user")))
  {
    if BothGiven(email, phone, token) then CheckBoth(users, resets, Some("email"), Some("phone"), token, now)
    else CheckTokenIntended(users, resets, email, phone, token, now)
  }

  /**
   * When one account and one reset row hold an e-mail and a phone, and
   * the row holds the code, the intended check with both identifiers
   * verifies both on that account and changes nothing else.
   */
  lemma CheckBothSole(users: Table<User>, resets: Table<Reset>, id: nat, x: nat, email: string, phone: string,
                      token: Token7, now: string)
    requires !Blank(Some(email)) && !Blank(Some(phone))
    requires id in users.rows && users.rows[id].email == Some(email) && users.rows[id].phone == Some(phone)
    requires forall k :: k in users.rows && k != id ==> users.rows[k].email != Some(email) && users.rows[k].phone != Some(phone)
    requires x in resets.rows && resets.rows[x].email == Some(email) && resets.rows[x].phone == Some(phone)
    requires resets.rows[x].token == Some(TokenString(token))
    requires forall k :: k in resets.rows && k != x ==> resets.rows[k].email != Some(email) && resets.rows[k].phone != Some(phone)
    ensures CheckTokenIntended(users, resets, Some(email), Some(phone), Some(TokenString(token)), now)
              == (Put(users, id, users.rows[id].(emailVerifiedAt := Some(now), phoneVerifiedAt := Some(now))), Ok(id))
  {
    var t := Some(TokenString(token));
    FirstOfSole(users, (u: User) => u.email == Some(email), id);
    FirstOfSole(users, (u: User) => u.phone == Some(phone), id);
    FirstOfSole(resets, (y: Reset) => y.email == Some(email), x);
    FirstOfSole(resets, (y: Reset) => y.phone == Some(phone), x);
    assert !Blank(t) by { assert !IsTrimmed(TokenString(token)[0]); }
    assert EmailChecks(resets, Some(email), t) && PhoneChecks(resets, Some(phone), t);
    var users1 := Put(users, id, users.rows[id].(emailVerifiedAt := Some(now)));
    assert Put(users1, id, users1.rows[id].(phoneVerifiedAt := Some(now)))
        == Put(users, id, users.rows[id].(emailVerifiedAt := Some(now), phoneVerifiedAt := Some(now)));
  }

  /**
   * The same request to the check as written fails when no account holds
   * the strings "email" and "phone", and changes nothing.
   */
  lemma CheckBothLiteralLookups(users: Table<User>, resets: Table<Reset>, id: nat, x: nat, email: string, phone: string,
                                token: Token7, now: string)
    requires !Blank(Some(email)) && !Blank(Some(phone))
    requires id in users.rows && users.rows[id].email == Some(email) && users.rows[id].phone == Some(phone)
    requires forall k :: k in users.rows && k != id ==> users.rows[k].email != Some(email) && users.rows[k].phone != Some(phone)
    requires x in resets.rows && resets.rows[x].email == Some(email) && resets.rows[x].phone == Some(phone)
    requires resets.rows[x].token == Some(TokenString(token))
    requires forall k :: k in resets.rows && k != x ==> resets.rows[k].email != Some(email) && resets.rows[k].phone != Some(phone)
    requires forall k :: k in users.rows ==> users.rows[k].email != Some("email") && users.rows[k].phone != Some("phone")
    ensures CheckTokenIntended(users, resets, Some(email), Some(phone), Some(TokenString(token)), now).1 == Ok(id)
    ensures CheckToken(users, resets, Some(email), Some(phone), Some(TokenString(token)), now)
              == (users, Err(ServerError("user")))
  {
    CheckBothSole(users, resets, id, x, email, phone, token, now);
    assert !Blank(Some(TokenString(token))) by { assert !IsTrimmed(TokenString(token)[0]); }
    assert UserByEmail(users, Some("email")).None? && UserByPhone(users, Some("phone")).None?;
  }

  /**
   * The code a search issues is the code that checks: right after a
   * successful search by e-mail, checking that e-mail with the new token
   * verifies the user the search found.
   */
  lemma SearchThenCheckEmail(users: Table<User>, resets: Table<Reset>, data: string, token: Token7, now: string)
    requires !IsNumeric(data) && !Blank(Some(data))
    requires SearchByEmailOrPhone(users, resets, data, token).Ok?
    ensures var resets' := SearchByEmailOrPhone(users, resets, data, token).value.0;
            var r := CheckToken(users, resets', Some(data), None, Some(TokenString(token)), now);
            && r.1.Ok?
            && r.1.value == First(users, (u: User) => UserHas(u, ByEmail, data)).value
            && r.0.rows[r.1.value].emailVerifiedAt == Some(now)
  {
    var (resets', k) := SearchByEmailOrPhone(users, resets, data, token).value;
    SameFirst(users, (u: User) => UserHas(u, ByEmail, data), (u: User) => u.email == Some(data));
    ResetFirstAfterToken(resets, (x: Reset) => ResetHas(x, ByEmail, data), (x: Reset) => x.email == Some(data), k, TokenString(token));
    assert !Blank(Some(TokenString(token))) by { assert !IsTrimmed(TokenString(token)[0]); }
  }

  /** The same for a search by phone number. */
  lemma SearchThenCheckPhone(users: Table<User>, resets: Table<Reset>, data: string, token: Token7, now: string)
    requires IsNumeric(data)
    requires SearchByEmailOrPhone(users, resets, data, token).Ok?
    ensures var resets' := SearchByEmailOrPhone(users, resets, data, token).value.0;
            var r := CheckToken(users, resets', None, Some(data), Some(TokenString(token)), now);
            && r.1.Ok?
            && r.1.value == First(users, (u: User) => UserHas(u, ByPhone, data)).value
            && r.0.rows[r.1.value].phoneVerifiedAt == Some(now)
  {
    var (resets', k) := SearchByEmailOrPhone(users, resets, data, token).value;
    SameFirst(users, (u: User) => UserHas(u, ByPhone, data), (u: User) => u.phone == Some(data));
    ResetFirstAfterToken(resets, (x: Reset) => ResetHas(x, ByPhone, data), (x: Reset) => x.phone == Some(data), k, TokenString(token));
    NumericNotBlank(data);
    assert !Blank(Some(TokenString(token))) by { assert !IsTrimmed(TokenString(token)[0]); }
  }
  /**
   * When one account and one reset row hold an e-mail address, and the
   * row holds the code, checking the address with that code verifies
   * that account and nothing else.
   */
  lemma CheckSoleEmail(users: Table<User>, resets: Table<Reset>, id: nat, x: nat, email: string, token: Token7, now: string)
    requires id in users.rows && users.rows[id].email == Some(email) && !Blank(Some(email))
    requires forall k :: k in users.rows && k != id ==> users.rows[k].email != Some(email)
    requires x in resets.rows && resets.rows[x].email == Some(email) && resets.rows[x].token == Some(TokenString(token))
    requires forall k :: k in resets.rows && k != x ==> resets.rows[k].email != Some(email)
    ensures CheckToken(users, resets, Some(email), None, Some(TokenString(token)), now)
              == (Put(users, id, users.rows[id].(emailVerifiedAt := Some(now))), Ok(id))
  {
    FirstOfSole(users, (u: User) => u.email == Some(email), id);
    FirstOfSole(resets, (y: Reset) => y.email == Some(email), x);
    assert !Blank(Some(TokenString(token))) by { assert !IsTrimmed(TokenString(token)[0]); }
  }


  /** A numeric string has a digit, so it is not blank. */
  lemma NumericNotBlank(s: string)
    requires IsNumeric(s)
    ensures !Blank(Some(s))
  {
    var a := SkipSpaces(s, 0);
    var b := SkipSign(s, a);
    var c := SkipDigits(s, b);
    var d := SkipFraction(s, c);
    if c > b {
      assert IsDigit(s[b]) && !IsTrimmed(s[b]);
    } else {
      assert IsDigit(s[c + 1]) && !IsTrimmed(s[c + 1]);
    }
  }

  lemma SameFirst<T>(t: Table<T>, p: T -> bool, q: T -> bool)
    requires forall x :: p(x) == q(x)
    ensures First(t, p) == First(t, q)
  {
    if First(t, p).Some? {
      FirstIs(t, q, First(t, p).value);
    }
  }

  /** Changing the token of the first matching row keeps it the first matching row. */
  lemma ResetFirstAfterToken(resets: Table<Reset>, p: Reset -> bool, q: Reset -> bool, k: nat, token: string)
    requires forall x :: p(x) == q(x) && q(x) == q(x.(token := Some(token)))
    requires First(resets, p) == Some(k)
    ensures var resets' := Put(resets, k, resets.rows[k].(token := Some(token)));
            First(resets', q) == Some(k)
  {
    var resets' := Put(resets, k, resets.rows[k].(token := Some(token)));
    assert q(resets'.rows[k]);
    FirstIs(resets', q, k);
  }
}

=== FILE: payments.dfy ===
/**
 * Payment reconciliation (PaymentController): the gateway callback
 * upserts one payment per order number and rotates the paid cart's
 * payment code; plus the blanket update, the order-number lookups and
 * the status switch.
 */
module Payments {
  import opened Base
  import opened Tables
  import opened Schema
  import Reference

  datatype Payment = Payment(
    reference: Field, providerReference: Field, orderNumber: Field,
    amount: Field, amountCustomer: Field, phone: Field, currency: Field, channel: Field,
    typeId: Option<nat>, statusId: Option<nat>,
    cartId: Option<nat>, donationId: Option<nat>, userId: Option<nat>,
    createdAt: Field)

  /** The fields of a gateway callback. `code` is the gateway's result code. */
  datatype Callback = Callback(
    reference: Field, providerReference: Field, orderNumber: Field,
    amount: Field, amountCustomer: Field, phone: Field, currency: Field, channel: Field,
    typeId: Option<nat>, code: Option<nat>, createdAt: Field)

  datatype Upsert = Upsert(payments: Table<Payment>, carts: Table<Cart>, id: nat, created: bool)

  /** Every payment has its own order number (null counts as a value, as `where(col, null)` matches it). */
  predicate UniqueOrderNumbers(payments: Table<Payment>) {
    forall i, j :: i in payments.rows && j in payments.rows && i != j ==>
      payments.rows[i].orderNumber != payments.rows[j].orderNumber
  }

  /** The row a callback writes for the reference's ids, keeping `createdAt` as given. */
  function FromCallback(req: Callback, ids: Reference.Target, createdAt: Field): Payment {
    Payment(req.reference, req.providerReference, req.orderNumber, req.amount, req.amountCustomer,
            req.phone, req.currency, req.channel, req.typeId, req.code,
            ids.cart, ids.donation, ids.user, createdAt)
  }

  /**
   * The paid cart gets a fresh payment code; no cart changes when the
   * reference names none, names 0 (PHP `0 != null` is false) or names a
   * cart that does not exist.
   */
  function RotateCode(carts: Table<Cart>, cart: Option<nat>, code: Code7): (carts': Table<Cart>)
    ensures cart.Some? && cart.value != 0 && cart.value in carts.rows ==>
              carts'.rows == carts.rows[cart.value := carts.rows[cart.value].(paymentCode := Some(code))]
    ensures !(cart.Some? && cart.value != 0 && cart.value in carts.rows) ==> carts' == carts
  {
    if cart.Some? && cart.value != 0 && cart.value in carts.rows then
      Put(carts, cart.value, carts.rows[cart.value].(paymentCode := Some(code)))
    else carts
  }

  predicate HasOrderNumber(p: Payment, orderNumber: Field) {
    p.orderNumber == orderNumber
  }

  /**
   * What reconciling a callback leaves behind: when a payment holds the
   * order number, that row is rewritten in place and keeps its creation
   * time; otherwise exactly one row is added with the callback's. The
   * row carries every value of the callback and the reference's ids, no
   * other payment changes, and only the referenced cart gets a new code.
   */
  predicate Reconciles(payments: Table<Payment>, carts: Table<Cart>, req: Callback, code: Code7,
                       ids: Reference.Target, u: Upsert) {
    && u.id in u.payments.rows
    && (u.created <==> !Any(payments, (p: Payment) => HasOrderNumber(p, req.orderNumber)))
    && (!u.created ==> && u.id in payments.rows && payments.rows[u.id].orderNumber == req.orderNumber
                       && u.payments.rows.Keys == payments.rows.Keys
                       && u.payments.rows[u.id] == FromCallback(req, ids, payments.rows[u.id].createdAt))
    && (u.created ==> && u.id !in payments.rows && u.payments.rows.Keys == payments.rows.Keys + {u.id}
                      && u.payments.rows[u.id] == FromCallback(req, ids, req.createdAt))
    && (forall k :: k in payments.rows && k != u.id ==> k in u.payments.rows && u.payments.rows[k] == payments.rows[k])
    && u.carts == RotateCode(carts, ids.cart, code)
  }

  /**
   * `store`: reconcile a gateway callback. The reference is split before
   * anything is read or written, so a reference too short to index
   * fails with nothing written.
   */
  function Store(payments: Table<Payment>, carts: Table<Cart>, req: Callback, code: Code7): (r: Result<Upsert>)
    ensures r.Err? <==> Reference.Decode(req.reference).Err?
    ensures r.Err? ==> r.error == ServerError("reference")
    ensures r.Ok? ==> Reconciles(payments, carts, req, code, Reference.Decode(req.reference).value, r.value)
  {
    match Reference.Decode(req.reference)
    case Err(e) => Err(e)
    case Ok(ids) =>
      var carts' := RotateCode(carts, ids.cart, code);
      match First(payments, (p: Payment) => HasOrderNumber(p, req.orderNumber))
      case Some(k) =>
        Ok(Upsert(Put(payments, k, FromCallback(req, ids, payments.rows[k].createdAt)), carts', k, false))
      case None =>
        var (payments', id) := Insert(payments, FromCallback(req, ids, req.createdAt));
        Ok(Upsert(payments', carts', id, true))
  }

  /** The upsert keeps order numbers unique. */
  lemma StorePreservesUniqueness(payments: Table<Payment>, carts: Table<Cart>, req: Callback, code: Code7)
    requires UniqueOrderNumbers(payments)
    ensures var r := Store(payments, carts, req, code);
            r.Ok? ==> UniqueOrderNumbers(r.value.payments)
  {
    var r := Store(payments, carts, req, code);
    if r.Ok? {
      var u := r.value;
      forall i, j | i in u.payments.rows && j in u.payments.rows && i != j
        ensures u.payments.rows[i].orderNumber != u.payments.rows[j].orderNumber
      {
        if i == u.id || j == u.id {
          var other := if i == u.id then j else i;
          assert other in payments.rows && u.payments.rows[other] == payments.rows[other];
          if u.created {
            assert !HasOrderNumber(payments.rows[other], req.orderNumber);
          }
        }
      }
    }
  }

  /** Afterwards exactly one payment carries the callback's order number. */
  lemma StoreLeavesOneRow(payments: Table<Payment>, carts: Table<Cart>, req: Callback, code: Code7)
    requires UniqueOrderNumbers(payments)
    ensures var r := Store(payments, carts, req, code);
            r.Ok? ==> Select(r.value.payments, p => HasOrderNumber(p, req.orderNumber)) == {r.value.id}
  {
    var r := Store(payments, carts, req, code);
    if r.Ok? {
      var u := r.value;
      forall k | k in u.payments.rows && k != u.id
        ensures !HasOrderNumber(u.payments.rows[k], req.orderNumber)
      {
        assert k in payments.rows && payments.rows[k] == u.payments.rows[k];
        if !u.created {
          assert payments.rows[u.id].orderNumber != payments.rows[k].orderNumber;
        }
      }
    }
  }

  /**
   * Last writer wins: after two callbacks with the same order number, the
   * row holds the second callback's values, in the same row, and keeps
   * the creation time of the first write.
   */
  lemma LastWriterWins(payments: Table<Payment>, carts: Table<Cart>, req1: Callback, req2: Callback, code1: Code7, code2: Code7)
    requires req1.orderNumber == req2.orderNumber
    requires Store(payments, carts, req1, code1).Ok?
    ensures var r1 := Store(payments, carts, req1, code1).value;
            var r2 := Store(r1.payments, r1.carts, req2, code2);
            r2.Ok? ==>
              && !r2.value.created && r2.value.id == r1.id
              && r2.value.payments.rows.Keys == r1.payments.rows.Keys
              && r2.value.payments.rows[r1.id] ==
                   FromCallback(req2, Reference.Decode(req2.reference).value, r1.payments.rows[r1.id].createdAt)
  {
    var r1 := Store(payments, carts, req1, code1).value;
    var p := (q: Payment) => HasOrderNumber(q, req2.orderNumber);
    forall j | j < r1.id && j in r1.payments.rows
      ensures !p(r1.payments.rows[j])
    {
      assert j in payments.rows && r1.payments.rows[j] == payments.rows[j];
      if r1.created {
        assert !HasOrderNumber(payments.rows[j], req1.orderNumber);
      } else {
        assert First(payments, (q: Payment) => HasOrderNumber(q, req1.orderNumber)) == Some(r1.id);
      }
    }
    FirstIs(r1.payments, p, r1.id);
  }

  /** Replaying the same callback leaves the payments exactly as the first delivery did. */
  lemma StoreIdempotent(payments: Table<Payment>, carts: Table<Cart>, req: Callback, code1: Code7, code2: Code7)
    requires Store(payments, carts, req, code1).Ok?
    ensures var r1 := Store(payments, carts, req, code1).value;
            var r2 := Store(r1.payments, r1.carts, req, code2);
            r2.Ok? && r2.value.payments == r1.payments
  {
    var r1 := Store(payments, carts, req, code1).value;
    LastWriterWins(payments, carts, req, req, code1, code2);
    var r2 := Store(r1.payments, r1.carts, req, code2).value;
    var ids := Reference.Decode(req.reference).value;
    assert r1.payments.rows[r1.id] == FromCallback(req, ids, r1.payments.rows[r1.id].createdAt);
    assert r2.payments.rows == r1.payments.rows;
  }

  /** The fields of the blanket `update`. */
  datatype Change = Change(
    reference: Field, providerReference: Field, orderNumber: Field,
    amount: Field, amountCustomer: Field, phone: Field, currency: Field, channel: Field,
    typeId: Option<nat>, statusId: Option<nat>,
    cartId: Option<nat>, donationId: Option<nat>, userId: Option<nat>)

  /** `update`: every column takes the request's value, nulls included. */
  function Update(payments: Table<Payment>, id: nat, req: Change): (r: Result<Table<Payment>>)
    ensures r.Err? <==> id !in payments.rows
    ensures r.Ok? ==> r.value.rows.Keys == payments.rows.Keys
    ensures r.Ok? ==> forall k :: k in payments.rows && k != id ==> r.value.rows[k] == payments.rows[k]
    ensures r.Ok? ==>
              r.value.rows[id] == Payment(req.reference, req.providerReference, req.orderNumber, req.amount,
                                          req.amountCustomer, req.phone, req.currency, req.channel, req.typeId,
                                          req.statusId, req.cartId, req.donationId, req.userId,
                                          payments.rows[id].createdAt)
  {
    if id !in payments.rows then Err(NotFound("payment"))
    else
      var p := Payment(req.reference, req.providerReference, req.orderNumber, req.amount,
                       req.amountCustomer, req.phone, req.currency, req.channel, req.typeId,
                       req.statusId, req.cartId, req.donationId, req.userId,
                       payments.rows[id].createdAt);
      Ok(Put(payments, id, p))
  }

  /** The update overwrites: its outcome does not depend on what the row held before, bar the creation time. */
  lemma UpdateForgetsPrevious(payments: Table<Payment>, id: nat, a: Change, b: Change)
    requires id in payments.rows
    ensures Update(payments, id, b) == Update(Update(payments, id, a).value, id, b)
  {
    var once := Update(payments, id, b).value;
    var twice := Update(Update(payments, id, a).value, id, b).value;
    assert once.rows == twice.rows;
  }

  /** `findByOrderNumber`: a null payload when no payment has that order number. */
  function FindByOrderNumber(payments: Table<Payment>, orderNumber: string): (r: Option<nat>)
    ensures r.Some? ==> r.value in payments.rows && payments.rows[r.value].orderNumber == Some(orderNumber)
    ensures r.None? <==> forall k :: k in payments.rows ==> payments.rows[k].orderNumber != Some(orderNumber)
  {
    First(payments, (p: Payment) => p.orderNumber == Some(orderNumber))
  }

  /** `findByOrderNumberUser`: a payment only when both the order number and the user match. */
  function FindByOrderNumberUser(payments: Table<Payment>, orderNumber: string, userId: nat): (r: Option<nat>)
    ensures r.Some? ==> && r.value in payments.rows
                        && payments.rows[r.value].orderNumber == Some(orderNumber)
                        && payments.rows[r.value].userId == Some(userId)
    ensures r.None? <==> forall k :: k in payments.rows ==>
                           !(payments.rows[k].orderNumber == Some(orderNumber) && payments.rows[k].userId == Some(userId))
  {
    First(payments, (p: Payment) => p.orderNumber == Some(orderNumber) && p.userId == Some(userId))
  }

  /** With unique order numbers, the user-scoped lookup is the plain lookup filtered by owner. */
  lemma FindByOrderNumberUserAgrees(payments: Table<Payment>, orderNumber: string, userId: nat)
    requires UniqueOrderNumbers(payments)
    ensures var plain := FindByOrderNumber(payments, orderNumber);
            FindByOrderNumberUser(payments, orderNumber, userId) ==
              if plain.Some? && payments.rows[plain.value].userId == Some(userId) then plain else None
  {
    var plain := FindByOrderNumber(payments, orderNumber);
    var scoped := FindByOrderNumberUser(payments, orderNumber, userId);
    if scoped.Some? {
      assert plain.Some?;
      assert plain.value == scoped.value;
    }
  }

  /**
   * `switchStatus`: an unknown status is refused; a missing payment is
   * `find()` returning null and `update` called on it, a PHP error;
   * otherwise only the status changes.
   */
  function SwitchStatus(payments: Table<Payment>, statuses: set<nat>, id: nat, statusId: nat): (r: Result<Table<Payment>>)
    ensures statusId !in statuses ==> r == Err(NotFound("status"))
    ensures statusId in statuses && id !in payments.rows ==> r == Err(ServerError("payment"))
    ensures r.Ok? <==> statusId in statuses && id in payments.rows
    ensures r.Ok? ==> r.value.rows.Keys == payments.rows.Keys
    ensures r.Ok? ==> forall k :: k in payments.rows && k != id ==> r.value.rows[k] == payments.rows[k]
    ensures r.Ok? ==> r.value.rows[id].statusId == Some(statusId)
    ensures r.Ok? ==> r.value.rows[id].(statusId := payments.rows[id].statusId) == payments.rows[id]
  {
    if statusId !in statuses then Err(NotFound("status"))
    else if id !in payments.rows then Err(ServerError("payment"))
    else Ok(Put(payments, id, payments.rows[id].(statusId := Some(statusId))))
  }

  /** Switching to the status a payment already has changes nothing. */
  lemma SwitchStatusIdempotent(payments: Table<Payment>, statuses: set<nat>, id: nat, statusId: nat)
    requires SwitchStatus(payments, statuses, id, statusId).Ok?
    ensures var once := SwitchStatus(payments, statuses, id, statusId).value;
            SwitchStatus(once, statuses, id, statusId) == Ok(once)
  {
    var once := SwitchStatus(payments, statuses, id, statusId).value;
    assert Put(once, id, once.rows[id].(statusId := Some(statusId))).rows == once.rows;
  }

  /** Switching away and back to the payment's former status restores the table. */
  lemma SwitchStatusBack(payments: Table<Payment>, statuses: set<nat>, id: nat, statusId: nat)
    requires SwitchStatus(payments, statuses, id, statusId).Ok?
    requires payments.rows[id].statusId.Some? && payments.rows[id].statusId.value in statuses
    ensures var once := SwitchStatus(payments, statuses, id, statusId).value;
            SwitchStatus(once, statuses, id, payments.rows[id].statusId.value) == Ok(payments)
  {
    var once := SwitchStatus(payments, statuses, id, statusId).value;
    var back := SwitchStatus(once, statuses, id, payments.rows[id].statusId.value).value;
    assert back.rows == payments.rows;
  }
}

=== FILE: pricings.dfy ===
/**
 * Pricings (PricingController): a deadline that is required and unique
 * across all pricings, and a partial update.
 */
module Pricings {
  import opened Base
  import opened Tables
  import Unique

  datatype Pricing = Pricing(deadline: Field, price: Field)

  /** The request body; `id` is the body's id, which `update` reads the current deadline from. */
  datatype PricingRequest = PricingRequest(id: Option<nat>, deadline: Field, price: Field)

  function Deadline(p: Pricing): Field { p.deadline }

  /** Deadlines are unique over the whole table: every pricing shares one scope. */
  function Everywhere(p: Pricing): bool { true }

  predicate UniqueDeadlines(t: Table<Pricing>) {
    Unique.Distinct(t, Deadline, Everywhere)
  }

  /** Some pricing's deadline loosely equals `deadline`. */
  predicate DeadlineTaken(t: Table<Pricing>, deadline: Field) {
    exists k :: k in t.rows && Same(t.rows[k].deadline, deadline)
  }

  lemma TakenIsDeadlineTaken(t: Table<Pricing>, deadline: Field)
    ensures Unique.Taken(t, Deadline, Everywhere, true, deadline) <==> DeadlineTaken(t, deadline)
  {
    if DeadlineTaken(t, deadline) {
      var k :| k in t.rows && Same(t.rows[k].deadline, deadline);
      assert Everywhere(t.rows[k]) == true && Same(Deadline(t.rows[k]), deadline);
    }
    if Unique.Taken(t, Deadline, Everywhere, true, deadline) {
      var k :| k in t.rows && Everywhere(t.rows[k]) == true && Same(Deadline(t.rows[k]), deadline);
      assert Deadline(t.rows[k]) == t.rows[k].deadline;
    }
  }

  /** `store`: a blank deadline, then a deadline already in use, are refused. */
  function Store(t: Table<Pricing>, req: PricingRequest): (r: Result<(Table<Pricing>, nat)>)
    ensures Blank(req.deadline) ==> r == Err(Required("deadline"))
    ensures r.Err? <==> Blank(req.deadline) || DeadlineTaken(t, req.deadline)
    ensures r.Ok? ==> r.value.1 !in t.rows && r.value.0.rows == t.rows[r.value.1 := Pricing(req.deadline, req.price)]
  {
    TakenIsDeadlineTaken(t, req.deadline);
    if Blank(req.deadline) then Err(Required("deadline"))
    else if Unique.Taken(t, Deadline, Everywhere, true, req.deadline) then Err(Exists("deadline"))
    else Ok(Insert(t, Pricing(req.deadline, req.price)))
  }

  lemma StoreKeepsUniqueDeadlines(t: Table<Pricing>, req: PricingRequest)
    requires UniqueDeadlines(t)
    requires Store(t, req).Ok?
    ensures UniqueDeadlines(Store(t, req).value.0)
  {
    Unique.InsertKeepsDistinct(t, Deadline, Everywhere, Pricing(req.deadline, req.price));
  }

  function Patch(p: Pricing, req: PricingRequest): Pricing {
    Pricing(Pick(req.deadline, p.deadline), Pick(req.price, p.price))
  }

  /**
   * `update` of the route's pricing `self`. A non-null deadline is
   * checked in a loop over all pricings whose every turn first reads the
   * deadline of the pricing the body's id names, so with no such pricing
   * the first turn fails. A deadline that differs from that one must not
   * be in use; each non-null value then replaces its column.
   */
  function Update(t: Table<Pricing>, self: nat, req: PricingRequest): (r: Result<Table<Pricing>>)
    ensures self !in t.rows ==> r == Err(NotFound("pricing"))
    ensures r == Err(ServerError("pricing")) <==> self in t.rows && !IsNull(req.deadline) && !Finds(t, req.id)
    ensures r.Err? <==> self !in t.rows
                        || (!IsNull(req.deadline)
                            && (!Finds(t, req.id)
                                || (!Same(t.rows[req.id.value].deadline, req.deadline) && DeadlineTaken(t, req.deadline))))
    ensures r.Ok? ==> r.value.rows.Keys == t.rows.Keys
    ensures r.Ok? ==> forall k :: k in t.rows && k != self ==> r.value.rows[k] == t.rows[k]
    ensures r.Ok? ==> && r.value.rows[self].deadline == Pick(req.deadline, t.rows[self].deadline)
                      && r.value.rows[self].price == Pick(req.price, t.rows[self].price)
  {
    TakenIsDeadlineTaken(t, req.deadline);
    if self !in t.rows then Err(NotFound("pricing"))
    else if !IsNull(req.deadline) && !Finds(t, req.id) then Err(ServerError("pricing"))
    else if !IsNull(req.deadline) && !Same(t.rows[req.id.value].deadline, req.deadline)
            && Unique.Taken(t, Deadline, Everywhere, true, req.deadline)
    then Err(Exists("deadline"))
    else Ok(Put(t, self, Patch(t.rows[self], req)))
  }

  /** When the body's id is the route's pricing, the update keeps deadlines unique. */
  lemma UpdateKeepsUniqueDeadlines(t: Table<Pricing>, self: nat, req: PricingRequest)
    requires UniqueDeadlines(t)
    requires req.id == Some(self)
    requires Update(t, self, req).Ok?
    ensures UniqueDeadlines(Update(t, self, req).value)
  {
    var p := Patch(t.rows[self], req);
    if IsNull(req.deadline) || Same(t.rows[self].deadline, req.deadline) {
      assert p.deadline == t.rows[self].deadline;
      Unique.PutSameKeyKeepsDistinct(t, Deadline, Everywhere, self, p);
    } else {
      TakenIsDeadlineTaken(t, req.deadline);
      forall j | j in t.rows && j != self
        ensures !Same(Deadline(t.rows[j]), Deadline(p))
      {
        assert !Same(t.rows[j].deadline, req.deadline);
      }
      Unique.PutKeepsDistinct(t, Deadline, Everywhere, self, p);
    }
  }

  /** An update whose fields are both null changes nothing. */
  lemma EmptyUpdateIsIdentity(t: Table<Pricing>, self: nat, id: Option<nat>)
    requires self in t.rows
    ensures Update(t, self, PricingRequest(id, None, None)) == Ok(t)
  {
    var r := Update(t, self, PricingRequest(id, None, None));
    assert r.value.rows == t.rows;
  }

  /** `destroy` of the route's pricing. */
  function Destroy(t: Table<Pricing>, self: nat): (r: Result<Table<Pricing>>)
    ensures self !in t.rows <==> r.Err?
    ensures r.Ok? ==> r.value.rows.Keys == t.rows.Keys - {self}
    ensures r.Ok? ==> forall k :: k in r.value.rows ==> r.value.rows[k] == t.rows[k]
  {
    if self !in t.rows then Err(NotFound("pricing")) else Ok(Remove(t, self))
  }

  lemma DestroyKeepsUniqueDeadlines(t: Table<Pricing>, self: nat)
    requires UniqueDeadlines(t)
    requires Destroy(t, self).Ok?
    ensures UniqueDeadlines(Destroy(t, self).value)
  {
    Unique.RemoveKeepsDistinct(t, Deadline, Everywhere, self);
  }

  /** After a deletion the deadline is free again: storing it anew succeeds. */
  lemma DestroyFreesDeadline(t: Table<Pricing>, self: nat, req: PricingRequest)
    requires UniqueDeadlines(t)
    requires self in t.rows && req.deadline == t.rows[self].deadline && !Blank(req.deadline)
    ensures Store(Destroy(t, self).value, req).Ok?
  {
    var t' := Destroy(t, self).value;
    forall k | k in t'.rows
      ensures !Same(t'.rows[k].deadline, req.deadline)
    {
      assert t'.rows[k] == t.rows[k] && k != self;
      assert !Same(Deadline(t.rows[k]), Deadline(t.rows[self]));
    }
  }
}

=== FILE: reference.dfy ===
/**
 * The payment reference `<tag>-<nonce>-<user>-<cart>-<donation>`: the
 * gateway echoes it back and the payment callback recovers the user,
 * cart and donation ids from its third, fourth and fifth `-`-separated
 * segments. Indexing a segment that is not there is a PHP error, so a
 * missing reference, or one with fewer than five segments, fails; a
 * segment that is there but not numeric yields no id.
 */
module Reference {
  import opened Base
  import opened Text

  datatype Target = Target(user: Option<nat>, cart: Option<nat>, donation: Option<nat>)

  /** `PHP_INT_MAX` on a 64-bit build: `(int)` of a larger digit string saturates to it. */
  const PhpIntMax: nat := 0x7FFF_FFFF_FFFF_FFFF

  /**
   * What `is_numeric($seg) ? (int) $seg : null` yields for a segment,
   * with numeric read as "a non-empty string of decimal digits": no id
   * for anything else, the digits' value up to `PHP_INT_MAX`, and
   * `PHP_INT_MAX` beyond it.
   */
  predicate Reads(segment: string, id: Option<nat>) {
    if !IsDigits(segment) then id == None
    else && id.Some? && id.value <= PhpIntMax
         && (ValueOf(segment) <= PhpIntMax ==> id.value == ValueOf(segment))
         && (ValueOf(segment) > PhpIntMax ==> id.value == PhpIntMax)
  }

  function DecodeId(segment: string): (id: Option<nat>)
    ensures Reads(segment, id)
  {
    if !IsDigits(segment) then None
    else if ValueOf(segment) > PhpIntMax then Some(PhpIntMax)
    else Some(ValueOf(segment))
  }

  /** The ids a callback's reference designates, or the error of a reference too short to index. */
  function Decode(reference: Field): (r: Result<Target>)
    ensures var parts := Split(reference.GetOr(""), '-');
            && (r.Err? <==> |parts| < 5)
            && (r.Err? ==> r.error == ServerError("reference"))
            && (r.Ok? ==> Reads(parts[2], r.value.user) && Reads(parts[3], r.value.cart)
                          && Reads(parts[4], r.value.donation))
  {
    var parts := Split(reference.GetOr(""), '-');
    if |parts| < 5 then Err(ServerError("reference"))
    else Ok(Target(DecodeId(parts[2]), DecodeId(parts[3]), DecodeId(parts[4])))
  }

  /** `REF-1-7` has three segments: the callback fails on it before reading any id. */
  lemma ThreeSegmentsFail()
    ensures Decode(Some("REF-1-7")).Err?
  {
    SplitJoin(["REF", "1", "7"], '-');
    assert Join(["REF", "1", "7"], '-') == "REF-1-7";
  }

  /** A missing reference reads as the empty string, a single segment. */
  lemma NullReferenceFails()
    ensures Decode(None) == Err(ServerError("reference"))
  {
    assert '-' !in "";
  }

  /**
   * A sample writing of references, against which the decoder is
   * checked: five segments, the ids in decimal and an absent id as a
   * non-numeric placeholder. The repository does not build references
   * itself; the client that starts a payment does.
   */
  const Anonymous := "ANONYMOUS"

  function EncodeId(id: Option<nat>): (s: string)
    ensures '-' !in s
  {
    if id.Some? then
      var s := NatToStr(id.value);
      assert forall i :: 0 <= i < |s| ==> s[i] != '-';
      s
    else Anonymous
  }

  function Encode(tag: string, nonce: string, t: Target): string
    requires '-' !in tag && '-' !in nonce
  {
    Join([tag, nonce, EncodeId(t.user), EncodeId(t.cart), EncodeId(t.donation)], '-')
  }

  /** Every id is one a 64-bit PHP integer holds. */
  predicate InRange(t: Target) {
    && (t.user.Some? ==> t.user.value <= PhpIntMax)
    && (t.cart.Some? ==> t.cart.value <= PhpIntMax)
    && (t.donation.Some? ==> t.donation.value <= PhpIntMax)
  }

  lemma DecodeIdRoundTrip(id: Option<nat>)
    requires id.Some? ==> id.value <= PhpIntMax
    ensures DecodeId(EncodeId(id)) == id
  {
    if id.Some? {
      NatToStrRoundTrip(id.value);
    } else {
      assert !IsDigit(Anonymous[0]);
    }
  }

  /** Decoding an encoded reference recovers exactly the ids that were encoded. */
  lemma RoundTrip(tag: string, nonce: string, t: Target)
    requires '-' !in tag && '-' !in nonce
    requires InRange(t)
    ensures Decode(Some(Encode(tag, nonce, t))) == Ok(t)
  {
    var parts := [tag, nonce, EncodeId(t.user), EncodeId(t.cart), EncodeId(t.donation)];
    SplitJoin(parts, '-');
    DecodeIdRoundTrip(t.user);
    DecodeIdRoundTrip(t.cart);
    DecodeIdRoundTrip(t.donation);
  }
}

=== FILE: schema.dfy ===
/**
 * Rows shared by several controllers. Timestamps, hashes and tokens are
 * kept as the text the database holds; `created_at`/`updated_at` are
 * left out except where a controller copies one from the request.
 */
module Schema {
  import opened Base

  /** The descriptive columns of a user, which no rule constrains. */
  datatype Profile = Profile(
    firstname: Field, lastname: Field, surname: Field, gender: Field,
    birthDate: Field, city: Field, address1: Field, address2: Field, poBox: Field)

  /** The uploaded pictures of a user: avatar and identity card. */
  datatype Documents = Documents(avatarUrl: Field, idCardType: Field, idCardRecto: Field, idCardVerso: Field)

  datatype User = User(
    profile: Profile,
    email: Field, phone: Field, username: Field,
    password: Field,                 // the stored hash
    belongsTo: Option<nat>,          // the parent of a child account
    parentalCode: Field,
    emailVerifiedAt: Field, phoneVerifiedAt: Field,
    apiToken: Field, preferedTheme: Field,
    countryId: Option<nat>, statusId: Option<nat>,
    documents: Documents)

  const NoProfile := Profile(None, None, None, None, None, None, None, None, None)

  /** A user object whose every column reads as null, which is what PHP yields for `null->column`. */
  const NoUser := User(NoProfile, None, None, None, None, None, None, None, None, None, None, None, None,
                       Documents(None, None, None, None))

  /** A cart, or a watchlist when its type is the watchlist type. */
  datatype Cart = Cart(paymentCode: Field, typeId: Option<nat>, statusId: Option<nat>, userId: Option<nat>)

  /** An order line inside a cart. */
  datatype Order = Order(bookId: Option<nat>, mediaId: Option<nat>, pricingId: Option<nat>, cartId: Option<nat>)

  /** The addresses of a media: the content, its teaser and its cover picture. */
  datatype Links = Links(mediaUrl: Field, teaserUrl: Field, coverUrl: Field)

  /** Who made a media. */
  datatype Credits = Credits(authorNames: Field, writer: Field, director: Field)

  /** A media: `belongsTo` is the media it is part of, `userId` its owner. */
  datatype Media = Media(
    title: Field, links: Links, credits: Credits, price: Field, forYouth: Field,
    belongsTo: Option<nat>, typeId: Option<nat>, userId: Option<nat>)

  /**
   * A row of the `types` table. `type_name` is a JSON object of names by
   * locale: `names` holds its entries, and `name` is what reading the
   * attribute gives, the name in the application's locale.
   */
  datatype Kind = Kind(name: string, names: map<string, string>)

  /** A row of `password_resets`: the OTP token of an e-mail address and/or phone number. */
  datatype Reset = Reset(email: Field, phone: Field, token: Field, formerPassword: Field)
}

=== FILE: sessions.dfy ===
/**
 * Sessions (SessionController): rows keyed by a text id that `store`
 * generates when none is given, an IP address required on creation,
 * an update that ends by overwriting every column, and deletion by IP
 * address.
 */
module Sessions {
  import opened Base
  import opened Tables

  /**
   * A session row. `id` is the text primary key; the table's own keys
   * only record the order in which rows were created.
   */
  datatype Session = Session(id: string, ipAddress: Field, userAgent: Field, payload: Field,
                             lastActivity: Field, userId: Option<nat>)

  datatype SessionRequest = SessionRequest(id: Field, ipAddress: Field, userAgent: Field, payload: Field,
                                           lastActivity: Field, userId: Option<nat>)

  /** No two sessions share an id. */
  predicate UniqueIds(t: Table<Session>) {
    forall i, j :: i in t.rows && j in t.rows && i != j ==> t.rows[i].id != t.rows[j].id
  }

  predicate IdTaken(t: Table<Session>, id: string) {
    exists k :: k in t.rows && t.rows[k].id == id
  }

  /** The id of a new session: the request's, or the generated one when the request's is PHP-empty. */
  function NewId(req: SessionRequest, generated: Random255): (id: string)
    ensures PhpEmpty(req.id) ==> |id| == 255
    ensures !PhpEmpty(req.id) ==> id == req.id.value
  {
    if PhpEmpty(req.id) then generated else req.id.value
  }

  function FromRequest(req: SessionRequest, id: string): Session {
    Session(id, req.ipAddress, req.userAgent, req.payload, req.lastActivity, req.userId)
  }

  /**
   * `store`: the `required` rule refuses a blank IP address; an id that
   * is already in use makes the insertion fail on the primary key.
   */
  function Store(t: Table<Session>, req: SessionRequest, generated: Random255): (r: Result<(Table<Session>, nat)>)
    ensures Blank(req.ipAddress) ==> r == Err(Required("ip_address"))
    ensures r.Err? <==> Blank(req.ipAddress) || IdTaken(t, NewId(req, generated))
    ensures r.Ok? ==> var (t', k) := r.value;
                      && k !in t.rows && t'.rows == t.rows[k := FromRequest(req, NewId(req, generated))]
  {
    if Blank(req.ipAddress) then Err(Required("ip_address"))
    else if IdTaken(t, NewId(req, generated)) then Err(ServerError("id"))
    else Ok(Insert(t, FromRequest(req, NewId(req, generated))))
  }

  lemma StoreKeepsUniqueIds(t: Table<Session>, req: SessionRequest, generated: Random255)
    requires UniqueIds(t)
    requires Store(t, req, generated).Ok?
    ensures UniqueIds(Store(t, req, generated).value.0)
  {
    var (t', k) := Store(t, req, generated).value;
    forall i, j | i in t'.rows && j in t'.rows && i != j
      ensures t'.rows[i].id != t'.rows[j].id
    {
      if i == k {
        assert t.rows[j].id != t'.rows[k].id;
      } else if j == k {
        assert t.rows[i].id != t'.rows[k].id;
      }
    }
  }

  /** The per-field updates: each non-null request value replaces its column. */
  function Patch(s: Session, req: SessionRequest): Session {
    Session(s.id, Pick(req.ipAddress, s.ipAddress), Pick(req.userAgent, s.userAgent), Pick(req.payload, s.payload),
            Pick(req.lastActivity, s.lastActivity), PickId(req.userId, s.userId))
  }

  /** The final `update($inputs)`: every column but the id takes the request value, nulls included. */
  function Overwrite(s: Session, req: SessionRequest): Session {
    s.(ipAddress := req.ipAddress, userAgent := req.userAgent, payload := req.payload,
       lastActivity := req.lastActivity, userId := req.userId)
  }

  /**
   * `update` of the route's session: the per-field updates, then the
   * blanket overwrite, which leaves the request's values, nulls included.
   */
  function Update(t: Table<Session>, self: nat, req: SessionRequest): (r: Result<Table<Session>>)
    ensures r.Err? <==> self !in t.rows
    ensures r.Ok? ==> r.value.rows.Keys == t.rows.Keys
    ensures r.Ok? ==> forall k :: k in t.rows && k != self ==> r.value.rows[k] == t.rows[k]
    ensures r.Ok? ==> r.value.rows[self] == FromRequest(req, t.rows[self].id)
  {
    if self !in t.rows then Err(NotFound("session"))
    else Ok(Put(t, self, Overwrite(Patch(t.rows[self], req), req)))
  }

  /** Of two updates, the second decides every column. */
  lemma LastUpdateWins(t: Table<Session>, self: nat, a: SessionRequest, b: SessionRequest)
    requires self in t.rows
    ensures Update(Update(t, self, a).value, self, b) == Update(t, self, b)
  {
    var t1 := Update(t, self, a).value;
    assert Update(t1, self, b).value.rows == Update(t, self, b).value.rows;
  }

  /** `destroy`: the first session with that IP address goes; none is an error. */
  function Destroy(t: Table<Session>, ip: string): (r: Result<Table<Session>>)
    ensures r.Err? <==> !exists k :: k in t.rows && t.rows[k].ipAddress == Some(ip)
    ensures r.Ok? ==> exists k :: && k in t.rows && t.rows[k].ipAddress == Some(ip)
                                  && r.value.rows == t.rows - {k}
                                  && forall j :: j in t.rows && j < k ==> t.rows[j].ipAddress != Some(ip)
  {
    match First(t, (s: Session) => s.ipAddress == Some(ip))
    case None => Err(NotFound("session"))
    case Some(k) => Ok(Remove(t, k))
  }

  /** A session stored under a new IP address is the one its IP address destroys. */
  lemma StoreThenDestroy(t: Table<Session>, req: SessionRequest, generated: Random255)
    requires Store(t, req, generated).Ok?
    requires forall k :: k in t.rows ==> t.rows[k].ipAddress != req.ipAddress
    ensures var r := Destroy(Store(t, req, generated).value.0, req.ipAddress.value);
            r.Ok? && r.value.rows == t.rows
  {
    var (t', k) := Store(t, req, generated).value;
    FirstOfSole(t', (s: Session) => s.ipAddress == req.ipAddress, k);
    assert t'.rows - {k} == t.rows;
  }
}

=== FILE: tables.dfy ===
/**
 * A database table as the ORM presents it: rows keyed by an
 * auto-increment id. `first()` is the matching row with the least id,
 * `get()` is the set of matching ids.
 */
module Tables {
  import opened Base

  datatype Store<T> = Store(rows: map<nat, T>, next: nat) {
    /** The auto-increment counter lies above every id in use. */
    predicate Valid() {
      forall k :: k in rows ==> k < next
    }
  }

  type Table<T> = s: Store<T> | s.Valid() witness Store(map[], 1)

  /** `Model::create`: the row gets the next id. */
  function Insert<T>(t: Table<T>, r: T): (res: (Table<T>, nat))
    ensures res.1 !in t.rows && res.1 == t.next
    ensures res.0.rows == t.rows[res.1 := r]
  {
    (Store(t.rows[t.next := r], t.next + 1), t.next)
  }

  /** `$row->update(...)` on an existing row. */
  function Put<T>(t: Table<T>, k: nat, r: T): (t': Table<T>)
    requires k in t.rows
    ensures t'.rows == t.rows[k := r]
    ensures t'.rows.Keys == t.rows.Keys
  {
    Store(t.rows[k := r], t.next)
  }

  /** `$row->delete()`. */
  function Remove<T>(t: Table<T>, k: nat): (t': Table<T>)
    ensures t'.rows == t.rows - {k}
  {
    Store(t.rows - {k}, t.next)
  }

  /** `where(...)->get()` followed by an update of each row found. */
  function Modify<T>(t: Table<T>, p: T -> bool, f: T -> T): (t': Table<T>)
    ensures t'.rows.Keys == t.rows.Keys
    ensures forall k :: k in t.rows ==> t'.rows[k] == if p(t.rows[k]) then f(t.rows[k]) else t.rows[k]
  {
    Store(map k | k in t.rows :: if p(t.rows[k]) then f(t.rows[k]) else t.rows[k], t.next)
  }

  /** The same, where the selection may also depend on the row's id. */
  function ModifyAt<T>(t: Table<T>, p: (nat, T) -> bool, f: T -> T): (t': Table<T>)
    ensures t'.rows.Keys == t.rows.Keys
    ensures forall k :: k in t.rows ==> t'.rows[k] == if p(k, t.rows[k]) then f(t.rows[k]) else t.rows[k]
  {
    Store(map k | k in t.rows :: if p(k, t.rows[k]) then f(t.rows[k]) else t.rows[k], t.next)
  }

  /** `where(...)->get()` followed by a delete of each row found. */
  function RemoveWhere<T>(t: Table<T>, p: T -> bool): (t': Table<T>)
    ensures forall k :: k in t'.rows <==> k in t.rows && !p(t.rows[k])
    ensures forall k :: k in t'.rows ==> t'.rows[k] == t.rows[k]
  {
    Store(map k | k in t.rows && !p(t.rows[k]) :: t.rows[k], t.next)
  }

  /**
   * `Model::find(id)` returns a row: the id is given and in use.
   * Otherwise it returns null, and reading a column of that null is a
   * PHP warning, which the framework turns into a server error.
   */
  predicate Finds<T>(t: Table<T>, id: Option<nat>) {
    id.Some? && id.value in t.rows
  }

  /** Some row satisfies p. */
  predicate Any<T>(t: Table<T>, p: T -> bool) {
    exists k :: k in t.rows && p(t.rows[k])
  }

  /** The least id at or above i whose row satisfies p. */
  function FirstFrom<T>(t: Table<T>, p: T -> bool, i: nat): (r: Option<nat>)
    ensures r.Some? ==> i <= r.value && r.value in t.rows && p(t.rows[r.value])
    ensures r.Some? ==> forall j :: i <= j < r.value && j in t.rows ==> !p(t.rows[j])
    ensures r.None? ==> forall j :: i <= j && j in t.rows ==> !p(t.rows[j])
    decreases t.next - i
  {
    if i >= t.next then None
    else if i in t.rows && p(t.rows[i]) then Some(i)
    else FirstFrom(t, p, i + 1)
  }

  /** `where(...)->first()`: the matching row with the least id, if any. */
  function First<T>(t: Table<T>, p: T -> bool): (r: Option<nat>)
    ensures r.Some? <==> Any(t, p)
    ensures r.Some? ==> r.value in t.rows && p(t.rows[r.value])
    ensures r.Some? ==> forall j :: j < r.value && j in t.rows ==> !p(t.rows[j])
  {
    FirstFrom(t, p, 0)
  }

  /** `where(...)->get()`: the ids of every matching row. */
  function Select<T>(t: Table<T>, p: T -> bool): (ids: set<nat>)
    ensures forall k :: k in ids <==> k in t.rows && p(t.rows[k])
  {
    set k | k in t.rows && p(t.rows[k])
  }

  /** A matching row with no matching row below it is what `first()` finds. */
  lemma FirstIs<T>(t: Table<T>, p: T -> bool, k: nat)
    requires k in t.rows && p(t.rows[k])
    requires forall j :: j < k && j in t.rows ==> !p(t.rows[j])
    ensures First(t, p) == Some(k)
  {
    var m := First(t, p);
    assert m.Some? by { assert Any(t, p); }
  }

  /** If exactly one row satisfies p, `first()` finds it. */
  lemma FirstOfSole<T>(t: Table<T>, p: T -> bool, k: nat)
    requires k in t.rows && p(t.rows[k])
    requires forall j :: j in t.rows && p(t.rows[j]) ==> j == k
    ensures First(t, p) == Some(k)
  {
  }
}

=== FILE: text.dfy ===
/**
 * The string functions the controllers lean on: decimal digits and
 * `(string)` of an integer, `explode`, PHP's `is_numeric`, and the
 * code-point order used to sort names.
 */
module Text {

  predicate IsDigit(c: char) {
    '0' <= c <= '9'
  }

  /** A non-empty string of decimal digits. */
  predicate IsDigits(s: string) {
    |s| > 0 && forall i :: 0 <= i < |s| ==> IsDigit(s[i])
  }

  function DigitChar(d: nat): (c: char)
    requires d < 10
    ensures IsDigit(c)
  {
    ('0' as int + d) as char
  }

  function DigitValue(c: char): (d: nat)
    requires IsDigit(c)
    ensures d < 10
  {
    c as int - '0' as int
  }

  /** The integer a digit string denotes, `(int) $s`; leading zeros are allowed. */
  function ValueOf(s: string): nat
    requires forall i :: 0 <= i < |s| ==> IsDigit(s[i])
    decreases |s|
  {
    if |s| == 0 then 0 else ValueOf(s[..|s| - 1]) * 10 + DigitValue(s[|s| - 1])
  }

  /** `(string) $n` for a natural number. */
  function NatToStr(n: nat): (s: string)
    ensures IsDigits(s)
    ensures |s| == 1 || s[0] != '0'
    decreases n
  {
    if n < 10 then [DigitChar(n)] else NatToStr(n / 10) + [DigitChar(n % 10)]
  }

  lemma {:induction false} NatToStrRoundTrip(n: nat)
    ensures ValueOf(NatToStr(n)) == n
    decreases n
  {
    if n >= 10 {
      var s := NatToStr(n);
      NatToStrRoundTrip(n / 10);
      assert s[..|s| - 1] == NatToStr(n / 10);
    }
  }

  function Pow10(k: nat): (p: nat)
    ensures p >= 1
  {
    if k == 0 then 1 else 10 * Pow10(k - 1)
  }

  /** A number in [10^k, 10^(k+1)) prints with exactly k+1 digits. */
  lemma {:induction false} NatToStrLength(n: nat, k: nat)
    requires Pow10(k) <= n < Pow10(k + 1)
    ensures |NatToStr(n)| == k + 1
    decreases k
  {
    if k > 0 {
      assert Pow10(k) == 10 * Pow10(k - 1);
      assert Pow10(k + 1) == 10 * Pow10(k);
      assert Pow10(k - 1) <= n / 10 < Pow10(k);
      NatToStrLength(n / 10, k - 1);
    }
  }

  // ---------------------------------------------------------------- explode

  function IndexOf(s: string, c: char): (i: nat)
    requires c in s
    ensures i < |s| && s[i] == c && c !in s[..i]
  {
    if s[0] == c then 0 else
      assert c in s[1..] by { var j :| 0 <= j < |s| && s[j] == c; assert s[1..][j - 1] == c; }
      var i := 1 + IndexOf(s[1..], c);
      assert s[..i] == [s[0]] + s[1..][..i - 1];
      i
  }

  /** PHP `explode($sep, $s)`: the pieces between separators, at least one. */
  function Split(s: string, sep: char): (parts: seq<string>)
    ensures |parts| >= 1
    ensures forall i :: 0 <= i < |parts| ==> sep !in parts[i]
    decreases |s|
  {
    if sep !in s then [s]
    else
      var i := IndexOf(s, sep);
      [s[..i]] + Split(s[i + 1..], sep)
  }

  /** PHP `implode($sep, $parts)`. */
  function Join(parts: seq<string>, sep: char): string
    requires |parts| >= 1
    decreases |parts|
  {
    if |parts| == 1 then parts[0] else parts[0] + [sep] + Join(parts[1..], sep)
  }

  /** Joining what was split gives back the original string. */
  lemma {:induction false} JoinSplit(s: string, sep: char)
    ensures Join(Split(s, sep), sep) == s
    decreases |s|
  {
    if sep in s {
      var i := IndexOf(s, sep);
      JoinSplit(s[i + 1..], sep);
      assert Split(s, sep)[1..] == Split(s[i + 1..], sep);
      assert s == s[..i] + [sep] + s[i + 1..];
    }
  }

  /** Splitting a join of separator-free pieces gives back the pieces. */
  lemma {:induction false} SplitJoin(parts: seq<string>, sep: char)
    requires |parts| >= 1
    requires forall i :: 0 <= i < |parts| ==> sep !in parts[i]
    ensures Split(Join(parts, sep), sep) == parts
    decreases |parts|
  {
    if |parts| > 1 {
      var p, tail := parts[0], parts[1..];
      var rest := Join(tail, sep);
      assert Join(parts, sep) == p + [sep] + rest;
      SplitAfterPiece(p, rest, sep);
      SplitJoin(tail, sep);
      assert parts == [p] + tail;
    }
  }

  /** Splitting a separator-free piece, the separator and a rest yields the piece, then the rest's pieces. */
  lemma SplitAfterPiece(p: string, rest: string, sep: char)
    requires sep !in p
    ensures Split(p + [sep] + rest, sep) == [p] + Split(rest, sep)
  {
    var s := p + [sep] + rest;
    FirstSeparator(p, rest, sep);
    assert s[..|p|] == p;
    assert s[|p| + 1..] == rest;
  }

  /** The first separator of `p + [sep] + rest` is the one after `p`, when `p` has none. */
  lemma {:induction false} FirstSeparator(p: string, rest: string, sep: char)
    requires sep !in p
    ensures sep in p + [sep] + rest
    ensures IndexOf(p + [sep] + rest, sep) == |p|
    decreases |p|
  {
    var s := p + [sep] + rest;
    assert s[|p|] == sep;
    if |p| > 0 {
      assert s[0] == p[0] && s[1..] == p[1..] + [sep] + rest;
      assert sep !in p[1..] by { assert forall j :: 0 <= j < |p| - 1 ==> p[1..][j] == p[j + 1]; }
      FirstSeparator(p[1..], rest, sep);
    }
  }

  // ------------------------------------------------------------- is_numeric

  predicate IsSpace(c: char) {
    c == ' ' || c == '\t' || c == '\n' || c == '\r' || c as int == 11 || c as int == 12
  }

  function SkipSpaces(s: string, i: nat): (j: nat)
    requires i <= |s|
    ensures i <= j <= |s|
    ensures forall k :: i <= k < j ==> IsSpace(s[k])
    ensures j == |s| || !IsSpace(s[j])
    decreases |s| - i
  {
    if i < |s| && IsSpace(s[i]) then SkipSpaces(s, i + 1) else i
  }

  function SkipDigits(s: string, i: nat): (j: nat)
    requires i <= |s|
    ensures i <= j <= |s|
    ensures forall k :: i <= k < j ==> IsDigit(s[k])
    ensures j == |s| || !IsDigit(s[j])
    decreases |s| - i
  {
    if i < |s| && IsDigit(s[i]) then SkipDigits(s, i + 1) else i
  }

  /** Index after an optional sign at i. */
  function SkipSign(s: string, i: nat): (j: nat)
    requires i <= |s|
    ensures i <= j <= i + 1 && j <= |s|
    ensures j == i + 1 ==> s[i] == '+' || s[i] == '-'
  {
    if i < |s| && (s[i] == '+' || s[i] == '-') then i + 1 else i
  }

  /** Index after the mantissa's fraction part, starting at the end c of its integer digits. */
  function SkipFraction(s: string, c: nat): (d: nat)
    requires c <= |s|
    ensures c <= d <= |s|
    ensures d > c ==> s[c] == '.' && forall k :: c < k < d ==> IsDigit(s[k])
  {
    if c < |s| && s[c] == '.' then SkipDigits(s, c + 1) else c
  }

  /** Index after an optional exponent `[eE][+-]?digits` starting at d. */
  function SkipExponent(s: string, d: nat): (e: nat)
    requires d <= |s|
    ensures d <= e <= |s|
    ensures e > d ==> (s[d] == 'e' || s[d] == 'E') && IsDigit(s[e - 1])
  {
    if d < |s| && (s[d] == 'e' || s[d] == 'E') then
      var e1 := SkipSign(s, d + 1);
      var e2 := SkipDigits(s, e1);
      if e2 > e1 then e2 else d
    else d
  }

  /**
   * PHP 8 `is_numeric` on a string: optional surrounding whitespace, an
   * optional sign, digits with an optional fraction (at least one digit
   * in all), and an optional exponent.
   */
  predicate IsNumeric(s: string) {
    var a := SkipSpaces(s, 0);
    var b := SkipSign(s, a);
    var c := SkipDigits(s, b);
    var d := SkipFraction(s, c);
    var mantissa := (c - b) + (if d > c then d - c - 1 else 0);
    mantissa > 0 && SkipSpaces(s, SkipExponent(s, d)) == |s|
  }

  /** The characters a numeric string can contain. */
  predicate IsNumericChar(c: char) {
    IsSpace(c) || IsDigit(c) || c == '+' || c == '-' || c == '.' || c == 'e' || c == 'E'
  }

  /** Every character of a numeric string is a digit, sign, point, exponent mark or space. */
  lemma NumericAlphabet(s: string)
    requires IsNumeric(s)
    ensures forall k :: 0 <= k < |s| ==> IsNumericChar(s[k])
  {
    var a := SkipSpaces(s, 0);
    var b := SkipSign(s, a);
    var c := SkipDigits(s, b);
    var d := SkipFraction(s, c);
    var e := SkipExponent(s, d);
    forall k | 0 <= k < |s|
      ensures IsNumericChar(s[k])
    {
      if k < a {
      } else if k < b {
      } else if k < c {
      } else if k < d {
        if k == c {
        } else {
        }
      } else if k < e {
        var e1 := SkipSign(s, d + 1);
        if k == d {
        } else if k < e1 {
        } else {
          assert k < SkipDigits(s, e1);
        }
      } else {
      }
    }
  }

  /** A non-empty digit string is numeric. */
  lemma DigitsAreNumeric(s: string)
    requires IsDigits(s)
    ensures IsNumeric(s)
  {
    assert !IsSpace(s[0]);
    assert SkipSpaces(s, 0) == 0;
    assert SkipSign(s, 0) == 0;
    DigitsRun(s, 0);
    assert SkipDigits(s, 0) == |s|;
  }

  lemma {:induction false} DigitsRun(s: string, i: nat)
    requires i <= |s|
    requires forall k :: i <= k < |s| ==> IsDigit(s[k])
    ensures SkipDigits(s, i) == |s|
    decreases |s| - i
  {
    if i < |s| {
      DigitsRun(s, i + 1);
    }
  }

  // ---------------------------------------------------------- string order

  /** Lexicographic order on code points. */
  predicate LexLe(a: string, b: string)
    decreases |a|
  {
    |a| == 0 || (|b| > 0 && (a[0] < b[0] || (a[0] == b[0] && LexLe(a[1..], b[1..]))))
  }

  lemma {:induction false} LexTotal(a: string, b: string)
    ensures LexLe(a, b) || LexLe(b, a)
    decreases |a|
  {
    if |a| > 0 && |b| > 0 && a[0] == b[0] {
      LexTotal(a[1..], b[1..]);
    }
  }

  lemma {:induction false} LexTransitive(a: string, b: string, c: string)
    requires LexLe(a, b) && LexLe(b, c)
    ensures LexLe(a, c)
    decreases |a|
  {
    if |a| > 0 && a[0] == b[0] && b[0] == c[0] {
      LexTransitive(a[1..], b[1..], c[1..]);
    }
  }
}

=== FILE: unique.dfy ===
/**
 * The uniqueness rule the catalogue controllers share: within a scope
 * (all rows, the parts of one media, the books of one author, the media
 * of one user) no two rows hold the same non-null key. Each controller
 * enforces it by scanning the scope for a row whose key loosely equals
 * the new one.
 */
module Unique {
  import opened Base
  import opened Tables

  /** No two rows of the same scope share a non-null key. */
  predicate Distinct<T, S(==)>(t: Table<T>, key: T -> Field, scope: T -> S) {
    forall i, j ::
      (i in t.rows && j in t.rows && i != j && !IsNull(key(t.rows[i])) && scope(t.rows[i]) == scope(t.rows[j]))
      ==> key(t.rows[i]) != key(t.rows[j])
  }

  /** The scan of the controllers: some row of scope `s` has a key loosely equal to `v`. */
  predicate Taken<T, S(==)>(t: Table<T>, key: T -> Field, scope: T -> S, s: S, v: Field) {
    Any(t, (x: T) => scope(x) == s && Same(key(x), v))
  }

  /** Some row other than `self`, in the scope of `r`, has a key loosely equal to that of `r`. */
  predicate TakenByOther<T, S(==)>(t: Table<T>, key: T -> Field, scope: T -> S, self: nat, r: T) {
    exists j :: j in t.rows && j != self && scope(t.rows[j]) == scope(r) && Same(key(t.rows[j]), key(r))
  }

  /** Creating a row whose key is free in its scope keeps keys distinct. */
  lemma InsertKeepsDistinct<T, S>(t: Table<T>, key: T -> Field, scope: T -> S, r: T)
    requires Distinct(t, key, scope)
    requires !Taken(t, key, scope, scope(r), key(r))
    ensures Distinct(Insert(t, r).0, key, scope)
  {
    var (t', id) := Insert(t, r);
    forall i, j | i in t'.rows && j in t'.rows && i != j && !IsNull(key(t'.rows[i]))
                  && scope(t'.rows[i]) == scope(t'.rows[j])
      ensures key(t'.rows[i]) != key(t'.rows[j])
    {
      if i == id {
        assert !(scope(t.rows[j]) == scope(r) && Same(key(t.rows[j]), key(r)));
      } else if j == id {
        assert !(scope(t.rows[i]) == scope(r) && Same(key(t.rows[i]), key(r)));
      }
    }
  }

  /**
   * Replacing row `k` keeps keys distinct when the new key is null or
   * no other row of the new scope holds it.
   */
  lemma PutKeepsDistinct<T, S>(t: Table<T>, key: T -> Field, scope: T -> S, k: nat, r: T)
    requires Distinct(t, key, scope)
    requires k in t.rows
    requires IsNull(key(r)) || !TakenByOther(t, key, scope, k, r)
    ensures Distinct(Put(t, k, r), key, scope)
  {
    var t' := Put(t, k, r);
    forall i, j | i in t'.rows && j in t'.rows && i != j && !IsNull(key(t'.rows[i]))
                  && scope(t'.rows[i]) == scope(t'.rows[j])
      ensures key(t'.rows[i]) != key(t'.rows[j])
    {
      if i == k {
        assert !(scope(t.rows[j]) == scope(r) && Same(key(t.rows[j]), key(r)));
      } else if j == k && !IsNull(key(r)) {
        assert !(scope(t.rows[i]) == scope(r) && Same(key(t.rows[i]), key(r)));
      }
    }
  }

  /** A row that keeps its key and scope keeps keys distinct, whatever else changes. */
  lemma PutSameKeyKeepsDistinct<T, S>(t: Table<T>, key: T -> Field, scope: T -> S, k: nat, r: T)
    requires Distinct(t, key, scope)
    requires k in t.rows && key(r) == key(t.rows[k]) && scope(r) == scope(t.rows[k])
    ensures Distinct(Put(t, k, r), key, scope)
  {
    var t' := Put(t, k, r);
    forall i, j | i in t'.rows && j in t'.rows && i != j && !IsNull(key(t'.rows[i]))
                  && scope(t'.rows[i]) == scope(t'.rows[j])
      ensures key(t'.rows[i]) != key(t'.rows[j])
    {
      assert key(t'.rows[i]) == key(t.rows[i]) && scope(t'.rows[i]) == scope(t.rows[i]);
      assert key(t'.rows[j]) == key(t.rows[j]) && scope(t'.rows[j]) == scope(t.rows[j]);
    }
  }

  /** Deleting a row keeps keys distinct. */
  lemma RemoveKeepsDistinct<T, S>(t: Table<T>, key: T -> Field, scope: T -> S, k: nat)
    requires Distinct(t, key, scope)
    ensures Distinct(Remove(t, k), key, scope)
  {
    var t' := Remove(t, k);
    forall i, j | i in t'.rows && j in t'.rows && i != j && !IsNull(key(t'.rows[i]))
                  && scope(t'.rows[i]) == scope(t'.rows[j])
      ensures key(t'.rows[i]) != key(t'.rows[j])
    {
      assert t'.rows[i] == t.rows[i] && t'.rows[j] == t.rows[j];
    }
  }

  /** Once keys are distinct, a row's non-null key finds that row alone. */
  lemma KeyFindsRow<T, S>(t: Table<T>, key: T -> Field, scope: T -> S, k: nat)
    requires Distinct(t, key, scope)
    requires k in t.rows && !IsNull(key(t.rows[k]))
    ensures Select(t, (x: T) => scope(x) == scope(t.rows[k]) && key(x) == key(t.rows[k])) == {k}
  {
  }
}

=== FILE: user_access.dfy ===
/**
 * Signing in and account administration (UserController login,
 * findByParentalCode, switchStatus and updatePassword).
 */
module UserAccess {
  import opened Base
  import opened Text
  import opened Tables
  import opened Schema
  import Users
  import PasswordResets

  /** `Hash::check`: a null or empty stored hash never matches. */
  predicate Verifies(check: (string, string) -> bool, password: string, hashed: Field) {
    !IsNull(hashed) && check(password, hashed.value)
  }

  /** The `Hash::check` that agrees with a given `Hash::make`. */
  function Matches(hash: string -> string): (string, string) -> bool {
    (password: string, hashed: string) => hashed == hash(password)
  }

  predicate ByPhone(u: User, username: string) {
    u.phone == Some(username)
  }

  predicate ByEmailOrUsername(u: User, username: string) {
    u.email == Some(username) || u.username == Some(username)
  }

  /** An e-mail login into an account whose address is not verified yet. */
  predicate UnverifiedEmail(u: User, username: string) {
    !PhpEmpty(u.email) && u.email == Some(username) && IsNull(u.emailVerifiedAt)
  }

  /** The account `login` looks at: the first holding the phone number when the username is numeric, else the first holding it as e-mail or username. */
  function Found(users: Table<User>, name: string): (r: Option<nat>)
    ensures r.Some? ==> r.value in users.rows
    ensures IsNumeric(name) ==> r == First(users, (u: User) => ByPhone(u, name))
    ensures !IsNumeric(name) ==> r == First(users, (u: User) => ByEmailOrUsername(u, name))
  {
    if IsNumeric(name) then First(users, (u: User) => ByPhone(u, name))
    else First(users, (u: User) => ByEmailOrUsername(u, name))
  }

  /**
   * When `login` lets a caller in: the account exists, the password
   * matches its hash, a phone login needs the phone verified, and an
   * unverified e-mail blocks only a login that used that e-mail.
   */
  predicate SignsIn(users: Table<User>, name: string, password: string, check: (string, string) -> bool) {
    match Found(users, name)
    case None => false
    case Some(id) =>
      && Verifies(check, password, users.rows[id].password)
      && (IsNumeric(name) ==> !IsNull(users.rows[id].phoneVerifiedAt))
      && (!IsNumeric(name) ==> !UnverifiedEmail(users.rows[id], name))
  }

  /**
   * `login`: a numeric username is a phone number, anything else an
   * e-mail address or a username. On success the account receives the
   * new API token `token`, and nothing else changes.
   */
  function Login(users: Table<User>, username: Field, password: Field, check: (string, string) -> bool, token: string)
    : (r: (Table<User>, Result<nat>))
    ensures IsNull(username) || username == Some(" ") ==> r == (users, Err(Required("username")))
    ensures !(IsNull(username) || username == Some(" ")) && IsNull(password) ==> r == (users, Err(Required("password")))
    ensures r.1.Err? ==> r.0 == users
    ensures r.1.Ok? ==> && r.1.value in users.rows
                        && r.0.rows == users.rows[r.1.value := users.rows[r.1.value].(apiToken := Some(token))]
                        && Verifies(check, password.value, users.rows[r.1.value].password)
    // the account is the first one holding the phone number, and that number is verified
    ensures r.1.Ok? && IsNumeric(username.value) ==>
              && First(users, (u: User) => ByPhone(u, username.value)) == Some(r.1.value)
              && !IsNull(users.rows[r.1.value].phoneVerifiedAt)
    // or the first one holding the address or username, with the address verified if it was used
    ensures r.1.Ok? && !IsNumeric(username.value) ==>
              && First(users, (u: User) => ByEmailOrUsername(u, username.value)) == Some(r.1.value)
              && !UnverifiedEmail(users.rows[r.1.value], username.value)
    ensures (&& !(IsNull(username) || username == Some(" ") || IsNull(password)) && IsNumeric(username.value)
             && !Any(users, (u: User) => ByPhone(u, username.value))) ==> r.1 == Err(BadCredentials("username"))
    // and conversely, every caller the rules let in is signed in
    ensures !(IsNull(username) || username == Some(" ") || IsNull(password)) ==>
              (r.1.Ok? <==> SignsIn(users, username.value, password.value, check))
  {
    if IsNull(username) || username == Some(" ") then (users, Err(Required("username")))
    else if IsNull(password) then (users, Err(Required("password")))
    else
      var name := username.value;
      match Found(users, name)
      case None => (users, Err(BadCredentials("username")))
      case Some(id) =>
        var u := users.rows[id];
        if !Verifies(check, password.value, u.password) then (users, Err(BadCredentials("password")))
        else if IsNumeric(name) && IsNull(u.phoneVerifiedAt) then (users, Err(Unverified("phone")))
        else if !IsNumeric(name) && UnverifiedEmail(u, name) then (users, Err(Unverified("email")))
        else (Put(users, id, u.(apiToken := Some(token))), Ok(id))
  }

  /** A wrong password is refused whichever way the account is named. */
  lemma WrongPasswordRefused(users: Table<User>, username: string, password: string, check: (string, string) -> bool, token: string)
    requires username != "" && username != " "
    requires forall k :: k in users.rows ==> !Verifies(check, password, users.rows[k].password)
    ensures Login(users, Some(username), Some(password), check, token).1.Err?
  {
  }

  /**
   * A login by username reaches an account whose e-mail is not verified:
   * the verification is demanded only of a login that used the e-mail.
   */
  lemma UsernameLoginIgnoresEmail(users: Table<User>, id: nat, name: string, password: string,
                                  check: (string, string) -> bool, token: string)
    requires name != "" && name != " " && !IsNumeric(name) && password != ""
    requires id in users.rows && users.rows[id].username == Some(name) && users.rows[id].email != Some(name)
    requires IsNull(users.rows[id].emailVerifiedAt)
    requires Verifies(check, password, users.rows[id].password)
    requires forall k :: k in users.rows && ByEmailOrUsername(users.rows[k], name) ==> k == id
    ensures Login(users, Some(name), Some(password), check, token).1 == Ok(id)
  {
    FirstOfSole(users, (u: User) => ByEmailOrUsername(u, name), id);
  }

  // -------------------------------------------------------- parental codes

  predicate IsParentWith(u: User, code: string) {
    u.parentalCode == Some(code) && u.belongsTo.None?
  }

  /**
   * `findByParentalCode`: a parent who gives its own code sees its
   * children; anybody else is refused.
   */
  function FindByParentalCode(users: Table<User>, id: nat, code: string): (r: Result<set<nat>>)
    ensures id !in users.rows ==> r == Err(NotFound("user"))
    ensures id in users.rows ==> (r == Err(NotFound("parent")) <==> !Any(users, (u: User) => IsParentWith(u, code)))
    ensures r.Ok? ==> First(users, (u: User) => IsParentWith(u, code)) == Some(id)
    ensures r.Ok? ==> forall k :: k in r.value <==> k in users.rows && Users.ChildOf(users.rows[k], id)
  {
    if id !in users.rows then Err(NotFound("user"))
    else
      match First(users, (u: User) => IsParentWith(u, code))
      case None => Err(NotFound("parent"))
      case Some(parent) =>
        if id != parent then Err(ChildrenNotAllowed)
        else Ok(Select(users, (u: User) => Users.ChildOf(u, parent)))
  }

  /** A parent holding a code no other parent holds finds exactly its children. */
  lemma ParentFindsChildren(users: Table<User>, id: nat, code: string)
    requires id in users.rows && IsParentWith(users.rows[id], code)
    requires forall k :: k in users.rows && IsParentWith(users.rows[k], code) ==> k == id
    ensures var r := FindByParentalCode(users, id, code);
            r.Ok? && forall k :: k in r.value <==> k in users.rows && Users.ChildOf(users.rows[k], id)
  {
    FirstOfSole(users, (u: User) => IsParentWith(u, code), id);
  }

  /** A child account never sees a list, whatever code it gives. */
  lemma ChildIsRefused(users: Table<User>, id: nat, code: string)
    requires id in users.rows && users.rows[id].belongsTo.Some?
    ensures FindByParentalCode(users, id, code).Err?
  {
  }

  // ---------------------------------------------------------------- status

  /** The ids of the "Activé", "Intermédiaire" and "Bloqué" statuses. */
  datatype Statuses = Statuses(activated: nat, intermediate: nat, blocked: nat)

  /**
   * The status `switchStatus` leaves: activation means "activated" once an
   * identity-card image is on file and "intermediate" before; blocking
   * wins over both.
   */
  function StatusAfter(u: User, statusId: nat, s: Statuses): (st: Option<nat>)
    ensures statusId == s.blocked ==> st == Some(s.blocked)
    ensures statusId != s.blocked && statusId != s.activated && statusId != s.intermediate ==> st == u.statusId
    ensures statusId != s.blocked && (statusId == s.activated || statusId == s.intermediate) ==>
              st == Some(if IsNull(u.documents.idCardRecto) && IsNull(u.documents.idCardVerso) then s.intermediate else s.activated)
  {
    var st := if statusId == s.activated || statusId == s.intermediate then
                if IsNull(u.documents.idCardRecto) && IsNull(u.documents.idCardVerso) then Some(s.intermediate) else Some(s.activated)
              else u.statusId;
    if statusId == s.blocked then Some(s.blocked) else st
  }

  function SwitchStatus(users: Table<User>, id: nat, statusId: nat, s: Statuses): (r: Result<Table<User>>)
    ensures r.Err? <==> id !in users.rows
    ensures r.Ok? ==> r.value.rows == users.rows[id := users.rows[id].(statusId := StatusAfter(users.rows[id], statusId, s))]
  {
    if id !in users.rows then Err(NotFound("user"))
    else Ok(Put(users, id, users.rows[id].(statusId := StatusAfter(users.rows[id], statusId, s))))
  }

  /** Switching to the same status twice is the same as switching once. */
  lemma SwitchStatusIdempotent(users: Table<User>, id: nat, statusId: nat, s: Statuses)
    requires SwitchStatus(users, id, statusId, s).Ok?
    ensures var once := SwitchStatus(users, id, statusId, s).value;
            SwitchStatus(once, id, statusId, s) == Ok(once)
  {
    var once := SwitchStatus(users, id, statusId, s).value;
    assert once.rows[id].statusId == StatusAfter(users.rows[id], statusId, s);
    assert StatusAfter(once.rows[id], statusId, s) == once.rows[id].statusId;
    assert once.rows[id].(statusId := StatusAfter(once.rows[id], statusId, s)) == once.rows[id];
    assert once.rows[id := once.rows[id]] == once.rows;
  }

  // -------------------------------------------------------------- password

  /**
   * The reset row the new password is recorded in: the first row holding
   * both e-mail and phone when the account has both, otherwise the first
   * holding the one it has; a `None` column is not looked at.
   */
  predicate Holds(x: Reset, email: Field, phone: Field) {
    (email.Some? ==> x.email == email) && (phone.Some? ==> x.phone == phone)
  }

  /**
   * That row receives a new code and the new password as its former
   * password; without one, a row is created.
   */
  function Refresh(resets: Table<Reset>, email: Field, phone: Field, token: string, password: string): (r: (Table<Reset>, nat))
    ensures r.1 in r.0.rows && Holds(r.0.rows[r.1], email, phone)
    ensures r.0.rows[r.1].token == Some(token) && r.0.rows[r.1].formerPassword == Some(password)
    ensures First(r.0, (x: Reset) => Holds(x, email, phone)) == Some(r.1)
    // any other row is kept
    ensures r.0.rows.Keys == resets.rows.Keys + {r.1}
    ensures forall k :: k in resets.rows && k != r.1 ==> r.0.rows[k] == resets.rows[k]
  {
    match First(resets, (x: Reset) => Holds(x, email, phone))
    case Some(k) =>
      var t := Put(resets, k, resets.rows[k].(token := Some(token), formerPassword := Some(password)));
      FirstIs(t, (x: Reset) => Holds(x, email, phone), k);
      (t, k)
    case None =>
      var (t, k) := Insert(resets, Reset(email, phone, Some(token), Some(password)));
      FirstIs(t, (x: Reset) => Holds(x, email, phone), k);
      (t, k)
  }

  /** The column a lookup uses: a PHP-empty value is not used. */
  function Key(f: Field): (k: Field)
    ensures k.None? <==> PhpEmpty(f)
    ensures k.Some? ==> k == f
  {
    if PhpEmpty(f) then None else f
  }

  /** The reset rows `updatePassword` writes for account `u`. */
  function Reissue(resets: Table<Reset>, u: User, password: string, token: Token7): (resets': Table<Reset>)
    ensures PhpEmpty(u.email) && PhpEmpty(u.phone) ==> resets' == resets
    ensures !(PhpEmpty(u.email) && PhpEmpty(u.phone)) ==>
              exists k :: && k in resets'.rows && First(resets', (x: Reset) => Holds(x, Key(u.email), Key(u.phone))) == Some(k)
                          && resets'.rows[k].token == Some(PasswordResets.TokenString(token))
                          && resets'.rows[k].formerPassword == Some(password)
  {
    if PhpEmpty(u.email) && PhpEmpty(u.phone) then resets
    else
      var (t, k) := Refresh(resets, Key(u.email), Key(u.phone), PasswordResets.TokenString(token), password);
      t
  }

  /** The refusals of `updatePassword`, in the order it checks them. */
  function PasswordRefusal(users: Table<User>, id: nat, former: Field, password: Field, confirm: Field,
                           check: (string, string) -> bool): (e: Option<Error>)
    ensures e.None? <==> && !IsNull(former) && !IsNull(password) && !IsNull(confirm)
                         && id in users.rows && Verifies(check, former.value, users.rows[id].password)
                         && Same(confirm, password)
    ensures IsNull(former) ==> e == Some(Required("former_password"))
    // the hash of a missing account is read from null, which fails
    ensures !IsNull(former) && !IsNull(password) && !IsNull(confirm) && id !in users.rows ==>
              e == Some(ServerError("user"))
    ensures !IsNull(former) && !IsNull(password) && !IsNull(confirm)
            && id in users.rows && !Verifies(check, former.value, users.rows[id].password) ==>
              e == Some(BadCredentials("password"))
  {
    if IsNull(former) then Some(Required("former_password"))
    else if IsNull(password) then Some(Required("new_password"))
    else if IsNull(confirm) then Some(Required("confirm_new_password"))
    else if id !in users.rows then Some(ServerError("user"))
    else if !Verifies(check, former.value, users.rows[id].password) then Some(BadCredentials("password"))
    else if !Same(confirm, password) then Some(ConfirmMismatch)
    else None
  }

  /**
   * `updatePassword` as evidently intended: after the checks, the reset
   * row records the new password with a new code, and the account and,
   * for a parent, its children take the new hash.
   */
  function UpdatePassword(db: Users.Accounts, id: nat, former: Field, password: Field, confirm: Field,
                          token: Token7, hash: string -> string, check: (string, string) -> bool)
    : (r: (Users.Accounts, Result<nat>))
    ensures PasswordRefusal(db.users, id, former, password, confirm, check).Some? ==>
              r == (db, Err(PasswordRefusal(db.users, id, former, password, confirm, check).value))
    ensures r.1.Ok? <==> PasswordRefusal(db.users, id, former, password, confirm, check).None?
    ensures r.1.Ok? ==> && r.1.value == id && r.0.users.rows.Keys == db.users.rows.Keys
                        && r.0.users.rows[id] == db.users.rows[id].(password := Some(hash(password.value)))
                        && r.0.resets == Reissue(db.resets, db.users.rows[id], password.value, token)
    // the children of a parent with a code follow; every other account is untouched
    ensures r.1.Ok? ==> forall k :: k in db.users.rows && k != id ==>
              r.0.users.rows[k] == if !PhpEmpty(db.users.rows[id].parentalCode) && Users.ChildOf(db.users.rows[k], id)
                                   then db.users.rows[k].(password := Some(hash(password.value))) else db.users.rows[k]
  {
    match PasswordRefusal(db.users, id, former, password, confirm, check)
    case Some(e) => (db, Err(e))
    case None =>
      var resets' := Reissue(db.resets, db.users.rows[id], password.value, token);
      (Users.Accounts(Users.NewPassword(db.users, id, Some(hash(password.value))), resets'), Ok(id))
  }

  predicate HasContact(u: User) {
    !PhpEmpty(u.email) || !PhpEmpty(u.phone)
  }

  /**
   * `updatePassword` as written: the children are updated in id order,
   * and at the first child holding an e-mail or phone the update of its
   * reset row reads an undefined request entry and fails, after that
   * child's password was written.
   */
  function UpdatePasswordAsWritten(db: Users.Accounts, id: nat, former: Field, password: Field, confirm: Field,
                                   token: Token7, hash: string -> string, check: (string, string) -> bool)
    : (r: (Users.Accounts, Result<nat>))
    ensures r.1.Ok? ==> r == UpdatePassword(db, id, former, password, confirm, token, hash, check)
    ensures (&& PasswordRefusal(db.users, id, former, password, confirm, check).None?
             && !PhpEmpty(db.users.rows[id].parentalCode)
             && Any(db.users, (c: User) => Users.ChildOf(c, id) && HasContact(c))) ==> r.1 == Err(ServerError("password"))
  {
    var intended := UpdatePassword(db, id, former, password, confirm, token, hash, check);
    if intended.1.Err? then intended
    else
      var h := Some(hash(password.value));
      var users1 := Put(db.users, id, db.users.rows[id].(password := h));
      if PhpEmpty(db.users.rows[id].parentalCode) then intended
      else
        match First(users1, (c: User) => Users.ChildOf(c, id) && HasContact(c))
        case None => intended
        case Some(c) =>
          var users2 := ModifyAt(users1, (k: nat, x: User) => Users.ChildOf(x, id) && k <= c, (x: User) => x.(password := h));
          (Users.Accounts(users2, intended.0.resets), Err(ServerError("password")))
  }

  /**
   * As written, a parent with a child holding an e-mail gets an error
   * although its password has been changed.
   */
  lemma PasswordChangedThoughRefused(db: Users.Accounts, id: nat, former: Field, password: Field, confirm: Field,
                                     token: Token7, hash: string -> string, check: (string, string) -> bool, child: nat)
    requires PasswordRefusal(db.users, id, former, password, confirm, check).None?
    requires !PhpEmpty(db.users.rows[id].parentalCode)
    requires child in db.users.rows && Users.ChildOf(db.users.rows[child], id) && !PhpEmpty(db.users.rows[child].email)
    ensures var r := UpdatePasswordAsWritten(db, id, former, password, confirm, token, hash, check);
            && r.1 == Err(ServerError("password"))
            && r.0.users.rows[id].password == Some(hash(password.value))
            && UpdatePassword(db, id, former, password, confirm, token, hash, check).1 == Ok(id)
  {
    assert Users.ChildOf(db.users.rows[child], id) && HasContact(db.users.rows[child]);
  }

  /**
   * The new password signs in: after a successful change, the owner of
   * a verified phone number held by no other account logs in with that
   * number and the new password.
   */
  lemma UpdatePasswordThenLogin(db: Users.Accounts, id: nat, former: Field, password: Field, confirm: Field,
                                token: Token7, hash: string -> string, apiToken: string)
    requires Users.UniqueIdentities(db.users)
    requires UpdatePassword(db, id, former, password, confirm, token, hash, Matches(hash)).1.Ok?
    requires db.users.rows[id].phone.Some? && IsNumeric(db.users.rows[id].phone.value)
    requires !IsNull(db.users.rows[id].phoneVerifiedAt)
    requires hash(password.value) != ""
    ensures var users' := UpdatePassword(db, id, former, password, confirm, token, hash, Matches(hash)).0.users;
            Login(users', db.users.rows[id].phone, password, Matches(hash), apiToken).1 == Ok(id)
  {
    var users' := UpdatePassword(db, id, former, password, confirm, token, hash, Matches(hash)).0.users;
    var phone := db.users.rows[id].phone.value;
    NumericNotEmpty(phone);
    forall k | k in users'.rows && ByPhone(users'.rows[k], phone) ensures k == id {
      assert Users.SameIdentity(users'.rows[k], db.users.rows[k]);
    }
    FirstOfSole(users', (u: User) => ByPhone(u, phone), id);
    assert Verifies(Matches(hash), password.value, users'.rows[id].password);
  }

  lemma NumericNotEmpty(s: string)
    requires IsNumeric(s)
    ensures s != "" && s != " "
  {
    PasswordResets.NumericNotBlank(s);
    assert Blank(Some(" ")) by { assert IsTrimmed(" "[0]); }
  }
}

=== FILE: user_resource.dfy ===
/**
 * The user resource (Resources/User::toArray): the JSON view of a user.
 * Rendering has a side effect: a user without a watchlist gets one.
 */
module UserResource {
  import opened Base
  import opened Tables
  import opened Schema
  import Carts

  /** The fixed id of the watchlist type the resource uses. */
  const WatchlistType: nat := 14

  /** The request's `HTTPS` and `HTTP_HOST` server variables. */
  datatype Server = Server(https: Field, host: string)

  function Scheme(server: Server): (s: string)
    ensures s == "https" || s == "http"
  {
    if PhpEmpty(server.https) then "http" else "https"
  }

  /** Where uploaded files are served from. */
  function StorageUrl(server: Server): string {
    Scheme(server) + "://" + server.host + "/public/storage/"
  }

  /** The picture shown for a user without an avatar. */
  function DefaultAvatar(server: Server): string {
    Scheme(server) + "://" + server.host + "/public/assets/img/user.png"
  }

  /** The computed entries of the view; the other entries are the user's columns as stored. */
  datatype View = View(user: User, age: Option<int>, avatarUrl: string,
                       idCardRecto: Option<string>, idCardVerso: Option<string>, watchlistId: nat)

  function FileUrl(server: Server, path: Field): (url: Option<string>)
    ensures url.None? <==> IsNull(path)
    ensures url.Some? ==> url.value == StorageUrl(server) + path.value
  {
    if IsNull(path) then None else Some(StorageUrl(server) + path.value)
  }

  /**
   * `toArray` of user `id`. `age` is what the model's `age()` computes
   * from the birth date and today's date; it is reported only when the
   * birth date is not PHP-empty.
   */
  function ToArray(carts: Table<Cart>, id: nat, user: User, server: Server, age: int): (r: (Table<Cart>, View))
    ensures r.1.user == user
    ensures r.1.age.None? <==> PhpEmpty(user.profile.birthDate)
    ensures r.1.age.Some? ==> r.1.age.value == age
    ensures r.1.idCardRecto == FileUrl(server, user.documents.idCardRecto)
    ensures r.1.idCardVerso == FileUrl(server, user.documents.idCardVerso)
    ensures r.1.avatarUrl == FileUrl(server, user.documents.avatarUrl).GetOr(DefaultAvatar(server))
    // the view names the user's one watchlist
    ensures r.1.watchlistId in r.0.rows && Carts.OfUserType(r.0.rows[r.1.watchlistId], id, WatchlistType)
    ensures (r.0, r.1.watchlistId) == Carts.GetOrCreate(carts, id, WatchlistType)
  {
    var (carts', watchlist) := Carts.GetOrCreate(carts, id, WatchlistType);
    var view := View(user, if PhpEmpty(user.profile.birthDate) then None else Some(age),
                     FileUrl(server, user.documents.avatarUrl).GetOr(DefaultAvatar(server)),
                     FileUrl(server, user.documents.idCardRecto), FileUrl(server, user.documents.idCardVerso), watchlist);
    (carts', view)
  }

  /** Rendering the same user twice shows the same watchlist and creates nothing more. */
  lemma ToArrayStable(carts: Table<Cart>, id: nat, user: User, server: Server, age: int)
    ensures var (carts', view) := ToArray(carts, id, user, server, age);
            ToArray(carts', id, user, server, age) == (carts', view)
  {
    Carts.GetOrCreateIdempotent(carts, id, WatchlistType);
  }

  /**
   * The resource and the watchlist lookup by type agree: with type 14
   * named "Watchlist", both designate the same cart and leave the same carts.
   */
  lemma ToArrayMatchesFindByType(users: Table<User>, kinds: Table<Kind>, carts: Table<Cart>,
                                 id: nat, server: Server, age: int)
    requires id in users.rows
    requires WatchlistType in kinds.rows && kinds.rows[WatchlistType].name == Carts.Watchlist
    ensures var (carts', view) := ToArray(carts, id, users.rows[id], server, age);
            Carts.FindByType(users, kinds, carts, id, WatchlistType) == (carts', Ok(Carts.One(view.watchlistId)))
  {
  }

  /**
   * The avatar entry tells an uploaded avatar from the default picture:
   * it lies under the storage URL exactly when an avatar is set, and
   * then the stored path is what follows that prefix.
   */
  lemma AvatarUrlDecodes(carts: Table<Cart>, id: nat, user: User, server: Server, age: int)
    ensures var url := ToArray(carts, id, user, server, age).1.avatarUrl;
            var prefix := StorageUrl(server);
            && (|prefix| <= |url| && url[..|prefix|] == prefix <==> !IsNull(user.documents.avatarUrl))
            && (!IsNull(user.documents.avatarUrl) ==> url[|prefix|..] == user.documents.avatarUrl.value)
  {
    var head := Scheme(server) + "://" + server.host + "/public/";
    if IsNull(user.documents.avatarUrl) {
      assert StorageUrl(server) == head + "storage/";
      assert DefaultAvatar(server) == head + "assets/img/user.png";
      Diverge(head, "assets/img/user.png", "storage/");
    } else {
      Under(StorageUrl(server), user.documents.avatarUrl.value);
    }
  }

  lemma Under(prefix: string, rest: string)
    ensures (prefix + rest)[..|prefix|] == prefix && (prefix + rest)[|prefix|..] == rest
  {
  }

  /** Two strings that part at their first character after a common head. */
  lemma Diverge(head: string, x: string, y: string)
    requires |x| > 0 && |y| > 0 && x[0] != y[0]
    ensures !(|head + y| <= |head + x| && (head + x)[..|head + y|] == head + y)
  {
    if |head + y| <= |head + x| {
      assert (head + x)[..|head + y|][|head|] == x[0];
      assert (head + y)[|head|] == y[0];
    }
  }
}

=== FILE: users.dfy ===
/**
 * User accounts (UserController store, update and destroy): the e-mail,
 * phone and username uniqueness rules, password confirmation, parental
 * codes for child accounts, and the one-time code a new account receives.
 * Neither action is transactional: rows written before a late refusal
 * stay written, so each returns the tables together with its outcome.
 */
module Users {
  import opened Base
  import opened Tables
  import opened Schema
  import PasswordResets

  /** The request fields `store` and `update` read; `id` is the request body's id. */
  datatype UserRequest = UserRequest(
    id: Option<nat>,
    profile: Profile,
    email: Field, phone: Field, username: Field, password: Field, confirmPassword: Field,
    belongsTo: Option<nat>, parentalCode: Field,
    emailVerifiedAt: Field, phoneVerifiedAt: Field,
    apiToken: Field, preferedTheme: Field, countryId: Option<nat>, statusId: Option<nat>)

  datatype Accounts = Accounts(users: Table<User>, resets: Table<Reset>)

  /** What the random generators, the token issuer and the SMS gateway supply to one call. */
  datatype Draws = Draws(childSuffix: Alnum10, parentalCode: Alnum7, token: Token7,
                         generated: Alpha10, apiToken: string, smsSent: bool)

  datatype Created = Created(user: nat, reset: nat)

  /** The columns that identify an account. */
  predicate SameIdentity(a: User, b: User) {
    a.email == b.email && a.phone == b.phone && a.username == b.username
  }

  /** No two accounts share a non-null e-mail, phone or username. */
  predicate UniqueIdentities(users: Table<User>) {
    forall i, j :: i in users.rows && j in users.rows && i != j ==>
      && (!IsNull(users.rows[i].email) ==> users.rows[i].email != users.rows[j].email)
      && (!IsNull(users.rows[i].phone) ==> users.rows[i].phone != users.rows[j].phone)
      && (!IsNull(users.rows[i].username) ==> users.rows[i].username != users.rows[j].username)
  }

  predicate IsUpper(c: char) {
    'A' <= c <= 'Z'
  }

  /**
   * The validator on `email`: required (not blank), lower-case, an
   * address (`isEmail` stands for the format rule), at most 255
   * characters, and held by no account.
   */
  function EmailRule(users: Table<User>, email: Field, isEmail: string -> bool): (e: Option<Error>)
    ensures e.None? <==> && !Blank(email)
                         && (forall i :: 0 <= i < |email.value| ==> !IsUpper(email.value[i]))
                         && isEmail(email.value) && |email.value| <= 255
                         && forall k :: k in users.rows ==> users.rows[k].email != email
    ensures Blank(email) ==> e == Some(Required("email"))
  {
    if Blank(email) then Some(Required("email"))
    else if (exists i :: 0 <= i < |email.value| && IsUpper(email.value[i])) || !isEmail(email.value) || |email.value| > 255 then
      Some(Invalid("email"))
    else if Any(users, (u: User) => u.email == email) then Some(Exists("email"))
    else None
  }

  /** The address a child account without e-mail or phone receives. */
  function ChildEmail(email: Field, phone: Field, suffix: Alnum10): (r: Field)
    ensures !(Blank(email) && Blank(phone)) ==> r == email
    ensures Blank(email) && Blank(phone) ==>
              && r.Some? && |r.value| == 28
              && r.value[..6] == "child-" && r.value[16..] == "@no_mail.com"
              && forall i :: 6 <= i < 16 ==> IsAlnum(r.value[i])
  {
    if Blank(email) && Blank(phone) then Some("child-" + suffix + "@no_mail.com") else email
  }

  /** Once the e-mail validator has passed, the generated child address is never used. */
  lemma ChildEmailUnreachable(users: Table<User>, email: Field, phone: Field, isEmail: string -> bool, suffix: Alnum10)
    requires EmailRule(users, email, isEmail).None?
    ensures ChildEmail(email, phone, suffix) == email
  {
  }

  /** A child's parent gets a parental code, but only when it has none. */
  function AssignParentalCode(users: Table<User>, parent: nat, code: Alnum7): (users': Table<User>)
    requires parent in users.rows
    ensures users'.rows.Keys == users.rows.Keys
    ensures !IsNull(users.rows[parent].parentalCode) ==> users' == users
    ensures IsNull(users.rows[parent].parentalCode) ==>
              users'.rows == users.rows[parent := users.rows[parent].(parentalCode := Some(code))]
  {
    if IsNull(users.rows[parent].parentalCode) then
      Put(users, parent, users.rows[parent].(parentalCode := Some(code)))
    else users
  }

  /** A parent keeps the code it first received: a second assignment changes nothing. */
  lemma ParentalCodeStable(users: Table<User>, parent: nat, first: Alnum7, second: Alnum7)
    requires parent in users.rows
    ensures var once := AssignParentalCode(users, parent, first);
            AssignParentalCode(once, parent, second) == once
  {
  }

  /** `empty($password) ? null : Hash::make($password)`. */
  function Hashed(password: Field, hash: string -> string): (h: Field)
    ensures h.Some? <==> !PhpEmpty(password)
    ensures h.Some? ==> h.value == hash(password.value)
  {
    if PhpEmpty(password) then None else Some(hash(password.value))
  }

  /** The confirmation is refused when it is null or differs from the password. */
  predicate Unconfirmed(confirm: Field, password: Field) {
    !Same(confirm, password) || IsNull(confirm)
  }

  /** The new account's row before a child inherits its parent's password. */
  function NewUser(req: UserRequest, email: Field, password: Field, status: Option<nat>, apiToken: string): User {
    User(req.profile, email, req.phone, req.username, password, req.belongsTo, req.parentalCode,
         None, None, Some(apiToken), req.preferedTheme, req.countryId, status, Documents(None, None, None, None))
  }

  /**
   * A reset row the child step of `store` takes as its parent's:
   * `where('email', ...)->orWhere('phone', ...)`, where a null column
   * matches null.
   */
  predicate ParentRow(y: Reset, parent: User) {
    y.email == parent.email || y.phone == parent.phone
  }

  /**
   * Neither a reset row already there nor the one just written for the
   * new account (`email`, `phone`) is the parent's: the child step then
   * reads the former password of null, which fails.
   */
  predicate ParentResetMissing(resets: Table<Reset>, parent: User, email: Field, phone: Field) {
    && (forall k :: k in resets.rows ==> !ParentRow(resets.rows[k], parent))
    && email != parent.email && phone != parent.phone
  }

  /** The SMS carrying the code to a given phone is not sent. */
  predicate SmsFails(req: UserRequest, d: Draws) {
    !IsNull(req.phone) && !d.smsSent
  }

  /** A child is being created whose parent has no reset row, counting the one just written. */
  predicate ParentlessChild(users: Table<User>, resets: Table<Reset>, req: UserRequest, email: Field)
    requires req.belongsTo.Some? ==> req.belongsTo.value in users.rows
  {
    req.belongsTo.Some? && ParentResetMissing(resets, users.rows[req.belongsTo.value], email, StoredPhone(req.phone))
  }

  /** With the reset row `y` added, the parent has a reset row unless it had none and `y` is not one. */
  lemma ParentlessAfterInsert(resets: Table<Reset>, y: Reset, parent: User)
    ensures var t := Insert(resets, y).0;
            (forall k :: k in t.rows ==> !ParentRow(t.rows[k], parent)) <==> ParentResetMissing(resets, parent, y.email, y.phone)
  {
    var t := Insert(resets, y).0;
    if forall k :: k in t.rows ==> !ParentRow(t.rows[k], parent) {
      assert !ParentRow(t.rows[resets.next], parent);
      forall k | k in resets.rows ensures !ParentRow(resets.rows[k], parent) {
        assert t.rows[k] == resets.rows[k];
      }
    }
  }

  /** The phone a reset row stores: a null or empty phone is not written. */
  function StoredPhone(phone: Field): Field {
    if IsNull(phone) then None else phone
  }

  /**
   * The writes of a `store` whose checks have passed: the reset row with
   * the one-time code, the SMS, the account, and a child's inheritance.
   * A child takes its parent's password; its reset row then takes the
   * former password of its parent's first reset row, and when there is
   * none the call fails with the child already written.
   */
  function Enrol(users: Table<User>, resets: Table<Reset>, req: UserRequest, email: Field, hashed: Field,
                 intermediate: Option<nat>, d: Draws, hash: string -> string): (r: (Accounts, Result<Created>))
    requires req.belongsTo.Some? ==> req.belongsTo.value in users.rows
    ensures r.1.Err? <==> SmsFails(req, d) || ParentlessChild(users, resets, req, email)
    ensures SmsFails(req, d) ==> r.1 == Err(ServerError("sms")) && r.0.users == users
    ensures !SmsFails(req, d) && r.1.Err? ==> r.1 == Err(ServerError("reset"))
    ensures r.1.Ok? ==> r.1.value == Created(users.next, resets.next)
    // no account changes; unless the SMS fails, one is added, even for a child whose parent has no reset row
    ensures forall k :: k in users.rows ==> k in r.0.users.rows && r.0.users.rows[k] == users.rows[k]
    ensures !SmsFails(req, d) ==> users.next !in users.rows && r.0.users.rows.Keys == users.rows.Keys + {users.next}
    ensures !SmsFails(req, d) ==>
              var u := r.0.users.rows[users.next];
              && u.email == email && u.phone == req.phone && u.username == req.username
              && u.statusId == intermediate && u.apiToken == Some(d.apiToken)
              && u.emailVerifiedAt.None? && u.phoneVerifiedAt.None? && u.belongsTo == req.belongsTo
              && u.password == (if req.belongsTo.Some? then users.rows[req.belongsTo.value].password
                                else if hashed.None? then Some(hash(d.generated)) else hashed)
    // the reset row is written even when the SMS then fails; no other reset row changes
    ensures resets.next !in resets.rows && r.0.resets.rows.Keys == resets.rows.Keys + {resets.next}
    ensures forall k :: k in resets.rows ==> r.0.resets.rows[k] == resets.rows[k]
    ensures var y := r.0.resets.rows[resets.next];
            && y.email == email && y.token == Some(PasswordResets.TokenString(d.token)) && y.phone == StoredPhone(req.phone)
    // a child's reset row holds the former password of one of its parent's reset rows
    ensures r.1.Ok? && req.belongsTo.Some? ==>
              exists k :: && k in r.0.resets.rows && ParentRow(r.0.resets.rows[k], users.rows[req.belongsTo.value])
                          && r.0.resets.rows[resets.next].formerPassword == r.0.resets.rows[k].formerPassword
  {
    var phone := StoredPhone(req.phone);
    var former := if hashed.Some? then req.password else Some(d.generated);
    var (resets3, x) := Insert(resets, Reset(email, phone, Some(PasswordResets.TokenString(d.token)), former));
    if SmsFails(req, d) then (Accounts(users, resets3), Err(ServerError("sms")))
    else
      var password := if hashed.Some? then hashed else Some(hash(d.generated));
      if req.belongsTo.Some? then
        ParentlessAfterInsert(resets, resets3.rows[x], users.rows[req.belongsTo.value]);
        Register(users, resets3, x, req, email, password, intermediate, d.apiToken)
      else
        Register(users, resets3, x, req, email, password, intermediate, d.apiToken)
  }

  /**
   * The account a `store` writes once its SMS is sent, with a child's
   * inheritance; `x` is the reset row already written for it.
   */
  function Register(users: Table<User>, resets: Table<Reset>, x: nat, req: UserRequest, email: Field,
                    password: Field, intermediate: Option<nat>, apiToken: string): (r: (Accounts, Result<Created>))
    requires x in resets.rows
    requires req.belongsTo.Some? ==> req.belongsTo.value in users.rows
    ensures users.next !in users.rows && r.0.users.rows.Keys == users.rows.Keys + {users.next}
    ensures forall k :: k in users.rows ==> r.0.users.rows[k] == users.rows[k]
    ensures r.0.users.rows[users.next] ==
              NewUser(req, email, if req.belongsTo.Some? then users.rows[req.belongsTo.value].password else password,
                      intermediate, apiToken)
    ensures r.1.Err? <==>
              (req.belongsTo.Some? && forall k :: k in resets.rows ==> !ParentRow(resets.rows[k], users.rows[req.belongsTo.value]))
    ensures r.1.Err? ==> r.1 == Err(ServerError("reset")) && r.0.resets == resets
    ensures r.1.Ok? ==> && r.1.value == Created(users.next, x)
                        && r.0.resets.rows.Keys == resets.rows.Keys
                        && (forall k :: k in resets.rows && k != x ==> r.0.resets.rows[k] == resets.rows[k])
                        && r.0.resets.rows[x] == resets.rows[x].(formerPassword := r.0.resets.rows[x].formerPassword)
    ensures r.1.Ok? && req.belongsTo.Some? ==>
              exists k :: && k in r.0.resets.rows && ParentRow(r.0.resets.rows[k], users.rows[req.belongsTo.value])
                          && r.0.resets.rows[x].formerPassword == r.0.resets.rows[k].formerPassword
  {
    var (users2, id) := Insert(users, NewUser(req, email, password, intermediate, apiToken));
    if req.belongsTo.None? then (Accounts(users2, resets), Ok(Created(id, x)))
    else Inherit(users2, resets, id, x, users.rows[req.belongsTo.value])
  }

  /**
   * A child's inheritance: the account `id` takes its parent's password,
   * and its reset row `x` the former password of the parent's first reset
   * row; with no such row the call fails and the new password stays.
   */
  function Inherit(users: Table<User>, resets: Table<Reset>, id: nat, x: nat, parent: User): (r: (Accounts, Result<Created>))
    requires id in users.rows && x in resets.rows
    ensures r.0.users.rows == users.rows[id := users.rows[id].(password := parent.password)]
    ensures r.1.Err? <==> forall k :: k in resets.rows ==> !ParentRow(resets.rows[k], parent)
    ensures r.1.Err? ==> r.1 == Err(ServerError("reset")) && r.0.resets == resets
    ensures r.1.Ok? ==> && r.1.value == Created(id, x)
                        && r.0.resets.rows.Keys == resets.rows.Keys
                        && (forall k :: k in resets.rows && k != x ==> r.0.resets.rows[k] == resets.rows[k])
                        && r.0.resets.rows[x] == resets.rows[x].(formerPassword := r.0.resets.rows[x].formerPassword)
                        && exists k :: && k in r.0.resets.rows && ParentRow(r.0.resets.rows[k], parent)
                                       && r.0.resets.rows[x].formerPassword == r.0.resets.rows[k].formerPassword
  {
    var users2 := Put(users, id, users.rows[id].(password := parent.password));
    match First(resets, (y: Reset) => ParentRow(y, parent))
    case None => (Accounts(users2, resets), Err(ServerError("reset")))
    case Some(k) =>
      var resets2 := Put(resets, x, resets.rows[x].(formerPassword := resets.rows[k].formerPassword));
      assert k != x ==> resets2.rows[k] == resets.rows[k];
      (Accounts(users2, resets2), Ok(Created(id, x)))
  }

  /**
   * `store`. `intermediate` is the id of the "Intermédiaire" status;
   * `hash` is `Hash::make` and `isEmail` the e-mail format rule.
   */
  function Store(db: Accounts, req: UserRequest, intermediate: Option<nat>, d: Draws,
                 hash: string -> string, isEmail: string -> bool): (r: (Accounts, Result<Created>))
    ensures EmailRule(db.users, req.email, isEmail).Some? ==>
              r == (db, Err(EmailRule(db.users, req.email, isEmail).value))
    // the refusals that come before any write
    ensures (&& EmailRule(db.users, req.email, isEmail).None? && !IsNull(req.phone)
             && Any(db.users, (u: User) => Same(u.phone, req.phone))) ==> r == (db, Err(Exists("phone")))
    ensures r.1.Ok? ==> !IsNull(req.phone) ==> forall k :: k in db.users.rows ==> !Same(db.users.rows[k].phone, req.phone)
    ensures r.1.Ok? ==> !IsNull(req.username) ==> forall k :: k in db.users.rows ==> !Same(db.users.rows[k].username, req.username)
    ensures r.1.Ok? ==> req.belongsTo.Some? ==> req.belongsTo.value in db.users.rows
    // a child is created only when some reset row is its parent's
    ensures r.1.Ok? ==> req.belongsTo.Some? ==>
              exists k :: k in r.0.resets.rows && ParentRow(r.0.resets.rows[k], db.users.rows[req.belongsTo.value])
    // every account is kept, except that a parent without a code receives one
    ensures forall k :: k in db.users.rows ==>
              && k in r.0.users.rows
              && (|| r.0.users.rows[k] == db.users.rows[k]
                  || (&& Some(k) == req.belongsTo && IsNull(db.users.rows[k].parentalCode)
                      && r.0.users.rows[k] == db.users.rows[k].(parentalCode := Some(d.parentalCode))))
    ensures r.1.Ok? ==> !PhpEmpty(req.password) ==> !Unconfirmed(req.confirmPassword, req.password)
    ensures r.1.Ok? ==> EmailRule(db.users, req.email, isEmail).None? && (!IsNull(req.phone) ==> d.smsSent)
  {
    match EmailRule(db.users, req.email, isEmail)
    case Some(e) => (db, Err(e))
    case None =>
      if !IsNull(req.phone) && Any(db.users, (u: User) => Same(u.phone, req.phone)) then (db, Err(Exists("phone")))
      else
        // reset rows already held by the phone number are dropped
        var resets1 := if IsNull(req.phone) then db.resets else RemoveWhere(db.resets, (x: Reset) => Same(x.phone, req.phone));
        Admit(Accounts(db.users, resets1), req, intermediate, d, hash)
  }

  /**
   * The steps of `store` after the e-mail and phone checks: the username
   * and parent checks, the parent's code, the confirmation, then `Enrol`.
   */
  function Admit(db: Accounts, req: UserRequest, intermediate: Option<nat>, d: Draws, hash: string -> string)
    : (r: (Accounts, Result<Created>))
    // every account is kept, except that a parent without a code receives one
    ensures forall k :: k in db.users.rows ==>
              && k in r.0.users.rows
              && (|| r.0.users.rows[k] == db.users.rows[k]
                  || (&& Some(k) == req.belongsTo && IsNull(db.users.rows[k].parentalCode)
                      && r.0.users.rows[k] == db.users.rows[k].(parentalCode := Some(d.parentalCode))))
    ensures r.1.Ok? ==> !IsNull(req.username) ==> forall k :: k in db.users.rows ==> !Same(db.users.rows[k].username, req.username)
    ensures r.1.Ok? ==> req.belongsTo.Some? ==> req.belongsTo.value in db.users.rows
    ensures r.1.Ok? ==> req.belongsTo.Some? ==>
              exists k :: k in r.0.resets.rows && ParentRow(r.0.resets.rows[k], db.users.rows[req.belongsTo.value])
    ensures r.1.Ok? ==> !PhpEmpty(req.password) ==> !Unconfirmed(req.confirmPassword, req.password)
    ensures r.1.Ok? ==> !IsNull(req.phone) ==> d.smsSent
    // on success one account is added, holding the request's identity
    ensures r.1.Ok? ==> var id := r.1.value.user;
                        && id !in db.users.rows && r.0.users.rows.Keys == db.users.rows.Keys + {id}
                        && var u := r.0.users.rows[id];
                        && u.email == ChildEmail(req.email, req.phone, d.childSuffix) && u.phone == req.phone
                        && u.username == req.username && u.statusId == intermediate && u.apiToken == Some(d.apiToken)
                        && u.emailVerifiedAt.None? && u.phoneVerifiedAt.None? && u.belongsTo == req.belongsTo
                        && u.password == if req.belongsTo.Some? then db.users.rows[req.belongsTo.value].password
                                         else if PhpEmpty(req.password) then Some(hash(d.generated))
                                         else Some(hash(req.password.value))
    // on success one reset row is added, holding the address and the code
    ensures r.1.Ok? ==> var x := r.1.value.reset;
                        && x !in db.resets.rows && x in r.0.resets.rows
                        && r.0.resets.rows[x].email == ChildEmail(req.email, req.phone, d.childSuffix)
                        && r.0.resets.rows[x].token == Some(PasswordResets.TokenString(d.token))
                        && r.0.resets.rows[x].phone == StoredPhone(req.phone)
                        && forall k :: k in r.0.resets.rows && k != x ==> k in db.resets.rows && r.0.resets.rows[k] == db.resets.rows[k]
  {
    if !IsNull(req.username) && Any(db.users, (u: User) => Same(u.username, req.username)) then
      (db, Err(Exists("username")))
    else if req.belongsTo.Some? && req.belongsTo.value !in db.users.rows then
      (db, Err(NotFound("parent")))
    else if Hashed(req.password, hash).Some? && Unconfirmed(req.confirmPassword, req.password) then
      (Accounts(ParentCoded(db.users, req.belongsTo, d.parentalCode), db.resets), Err(ConfirmMismatch))
    else
      Enter(db, req, intermediate, d, hash)
  }

  /** The accounts once the parent named by `parent`, if any, has a parental code. */
  function ParentCoded(users: Table<User>, parent: Option<nat>, code: Alnum7): (users': Table<User>)
    requires parent.Some? ==> parent.value in users.rows
    ensures users'.rows.Keys == users.rows.Keys
    ensures forall k :: k in users.rows ==>
              || users'.rows[k] == users.rows[k]
              || (Some(k) == parent && IsNull(users.rows[k].parentalCode)
                  && users'.rows[k] == users.rows[k].(parentalCode := Some(code)))
  {
    if parent.Some? then AssignParentalCode(users, parent.value, code) else users
  }

  /** The writes of `store` once every check has passed: the parent's code, then `Enrol`. */
  function Enter(db: Accounts, req: UserRequest, intermediate: Option<nat>, d: Draws, hash: string -> string)
    : (r: (Accounts, Result<Created>))
    requires req.belongsTo.Some? ==> req.belongsTo.value in db.users.rows
    // every account is kept, except that a parent without a code receives one
    ensures forall k :: k in db.users.rows ==>
              && k in r.0.users.rows
              && (|| r.0.users.rows[k] == db.users.rows[k]
                  || (&& Some(k) == req.belongsTo && IsNull(db.users.rows[k].parentalCode)
                      && r.0.users.rows[k] == db.users.rows[k].(parentalCode := Some(d.parentalCode))))
    ensures r.1.Ok? ==> req.belongsTo.Some? ==>
              exists k :: k in r.0.resets.rows && ParentRow(r.0.resets.rows[k], db.users.rows[req.belongsTo.value])
    ensures r.1.Ok? ==> !IsNull(req.phone) ==> d.smsSent
    // on success one account is added, holding the request's identity
    ensures r.1.Ok? ==> var id := r.1.value.user;
                        && id !in db.users.rows && r.0.users.rows.Keys == db.users.rows.Keys + {id}
                        && var u := r.0.users.rows[id];
                        && u.email == ChildEmail(req.email, req.phone, d.childSuffix) && u.phone == req.phone
                        && u.username == req.username && u.statusId == intermediate && u.apiToken == Some(d.apiToken)
                        && u.emailVerifiedAt.None? && u.phoneVerifiedAt.None? && u.belongsTo == req.belongsTo
                        && u.password == if req.belongsTo.Some? then db.users.rows[req.belongsTo.value].password
                                         else if PhpEmpty(req.password) then Some(hash(d.generated))
                                         else Some(hash(req.password.value))
    // on success one reset row is added, holding the address and the code
    ensures r.1.Ok? ==> var x := r.1.value.reset;
                        && x !in db.resets.rows && x in r.0.resets.rows
                        && r.0.resets.rows[x].email == ChildEmail(req.email, req.phone, d.childSuffix)
                        && r.0.resets.rows[x].token == Some(PasswordResets.TokenString(d.token))
                        && r.0.resets.rows[x].phone == StoredPhone(req.phone)
                        && forall k :: k in r.0.resets.rows && k != x ==> k in db.resets.rows && r.0.resets.rows[k] == db.resets.rows[k]
  {
    Enrol(ParentCoded(db.users, req.belongsTo, d.parentalCode), db.resets, req, ChildEmail(req.email, req.phone, d.childSuffix),
          Hashed(req.password, hash), intermediate, d, hash)
  }

  /**
   * The account a successful `store` creates: a fresh id holding the
   * request's identity, not yet verified, in the intermediate status,
   * with the issued API token, and with the request's password hashed, a
   * generated one hashed when none is given, or the parent's for a child.
   */
  lemma StoreCreatesAccount(db: Accounts, req: UserRequest, intermediate: Option<nat>, d: Draws,
                            hash: string -> string, isEmail: string -> bool)
    requires Store(db, req, intermediate, d, hash, isEmail).1.Ok?
    ensures var r := Store(db, req, intermediate, d, hash, isEmail);
            var id := r.1.value.user;
            && id !in db.users.rows && r.0.users.rows.Keys == db.users.rows.Keys + {id}
            && var u := r.0.users.rows[id];
            && u.email == req.email && u.phone == req.phone && u.username == req.username
            && u.statusId == intermediate && u.apiToken == Some(d.apiToken)
            && u.emailVerifiedAt.None? && u.phoneVerifiedAt.None? && u.belongsTo == req.belongsTo
            && u.password == if req.belongsTo.Some? then db.users.rows[req.belongsTo.value].password
                             else if PhpEmpty(req.password) then Some(hash(d.generated)) else Some(hash(req.password.value))
  {
  }

  /**
   * The one-time code is issued for the new address: one new reset row,
   * holding the e-mail, the phone and the code; the other reset rows are
   * kept, less those the phone number held.
   */
  lemma StoreIssuesCode(db: Accounts, req: UserRequest, intermediate: Option<nat>, d: Draws,
                        hash: string -> string, isEmail: string -> bool)
    requires Store(db, req, intermediate, d, hash, isEmail).1.Ok?
    ensures var r := Store(db, req, intermediate, d, hash, isEmail);
            var x := r.1.value.reset;
            && x !in db.resets.rows && x in r.0.resets.rows
            && r.0.resets.rows[x].email == req.email
            && r.0.resets.rows[x].token == Some(PasswordResets.TokenString(d.token))
            && r.0.resets.rows[x].phone == (if IsNull(req.phone) then None else req.phone)
            && (forall k :: k in r.0.resets.rows && k != x ==> k in db.resets.rows && r.0.resets.rows[k] == db.resets.rows[k])
            && (forall k :: k in db.resets.rows && !Same(db.resets.rows[k].phone, req.phone) ==> k in r.0.resets.rows)
  {
  }

  /** A successful `store` keeps e-mails, phones and usernames unique. */
  lemma StoreKeepsIdentitiesUnique(db: Accounts, req: UserRequest, intermediate: Option<nat>, d: Draws,
                                   hash: string -> string, isEmail: string -> bool)
    requires UniqueIdentities(db.users)
    requires Store(db, req, intermediate, d, hash, isEmail).1.Ok?
    ensures UniqueIdentities(Store(db, req, intermediate, d, hash, isEmail).0.users)
  {
    StoreCreatesAccount(db, req, intermediate, d, hash, isEmail);
    var r := Store(db, req, intermediate, d, hash, isEmail);
    NewKeepsIdentitiesUnique(db.users, r.0.users, r.1.value.user, d.parentalCode);
  }

  /**
   * An account added beside the others, which keep their identities up to
   * a parental code, keeps identities unique when no other account holds
   * its e-mail, phone or username.
   */
  lemma NewKeepsIdentitiesUnique(users: Table<User>, users': Table<User>, id: nat, code: string)
    requires UniqueIdentities(users)
    requires id !in users.rows && users'.rows.Keys == users.rows.Keys + {id}
    requires forall k :: k in users.rows ==>
               users'.rows[k] == users.rows[k] || users'.rows[k] == users.rows[k].(parentalCode := Some(code))
    requires forall k :: k in users.rows ==> users.rows[k].email != users'.rows[id].email
    requires !IsNull(users'.rows[id].phone) ==> forall k :: k in users.rows ==> !Same(users.rows[k].phone, users'.rows[id].phone)
    requires !IsNull(users'.rows[id].username) ==>
               forall k :: k in users.rows ==> !Same(users.rows[k].username, users'.rows[id].username)
    ensures UniqueIdentities(users')
  {
    forall k | k in users.rows
      ensures SameIdentity(users'.rows[k], users.rows[k])
    {
    }
    forall k | k in users.rows
      ensures Fresh(users.rows[k], users'.rows[id])
    {
    }
    AddKeepsIdentitiesUnique(users, users', id);
  }

  /** An account added beside the others, which keep their e-mails, is the only one with its e-mail when none of them had it. */
  lemma NewEmailIsSole(users: Table<User>, users': Table<User>, id: nat, code: string)
    requires id !in users.rows && users'.rows.Keys == users.rows.Keys + {id}
    requires forall k :: k in users.rows ==>
               users'.rows[k] == users.rows[k] || users'.rows[k] == users.rows[k].(parentalCode := Some(code))
    requires forall k :: k in users.rows ==> users.rows[k].email != users'.rows[id].email
    ensures forall k :: k in users'.rows && k != id ==> users'.rows[k].email != users'.rows[id].email
  {
    forall k | k in users'.rows && k != id ensures users'.rows[k].email != users'.rows[id].email {
      assert k in users.rows && users'.rows[k].email == users.rows[k].email;
    }
  }

  /** No identity column of `u` that is set is held by `v`. */
  predicate Fresh(v: User, u: User) {
    && (!IsNull(u.email) ==> v.email != u.email)
    && (!IsNull(u.phone) ==> v.phone != u.phone)
    && (!IsNull(u.username) ==> v.username != u.username)
  }

  /** Adding an account whose identity no other account holds keeps identities unique. */
  lemma AddKeepsIdentitiesUnique(users: Table<User>, users': Table<User>, id: nat)
    requires UniqueIdentities(users)
    requires id !in users.rows && users'.rows.Keys == users.rows.Keys + {id}
    requires forall k :: k in users.rows ==> SameIdentity(users'.rows[k], users.rows[k])
    requires forall k :: k in users.rows ==> Fresh(users.rows[k], users'.rows[id])
    ensures UniqueIdentities(users')
  {
    forall i, j | i in users'.rows && j in users'.rows && i != j
      ensures && (!IsNull(users'.rows[i].email) ==> users'.rows[i].email != users'.rows[j].email)
              && (!IsNull(users'.rows[i].phone) ==> users'.rows[i].phone != users'.rows[j].phone)
              && (!IsNull(users'.rows[i].username) ==> users'.rows[i].username != users'.rows[j].username)
    {
      if i != id && j != id {
        assert SameIdentity(users'.rows[i], users.rows[i]) && SameIdentity(users'.rows[j], users.rows[j]);
      } else {
        var other := if i == id then j else i;
        assert SameIdentity(users'.rows[other], users.rows[other]) && Fresh(users.rows[other], users'.rows[id]);
      }
    }
  }

  /**
   * The code a new account is sent checks: right after `store`, checking
   * the address with that code verifies the new account, provided no
   * reset row held the address before.
   */
  lemma StoreThenCheckToken(db: Accounts, req: UserRequest, intermediate: Option<nat>, d: Draws,
                            hash: string -> string, isEmail: string -> bool, now: string)
    requires forall k :: k in db.resets.rows ==> db.resets.rows[k].email != req.email
    requires Store(db, req, intermediate, d, hash, isEmail).1.Ok?
    ensures var r := Store(db, req, intermediate, d, hash, isEmail);
            var c := PasswordResets.CheckToken(r.0.users, r.0.resets, req.email, None,
                                               Some(PasswordResets.TokenString(d.token)), now);
            && c.1 == Ok(r.1.value.user)
            && c.0.rows[r.1.value.user].emailVerifiedAt == Some(now)
  {
    StoreCreatesAccount(db, req, intermediate, d, hash, isEmail);
    StoreIssuesCode(db, req, intermediate, d, hash, isEmail);
    var r := Store(db, req, intermediate, d, hash, isEmail);
    var id := r.1.value.user;
    NewEmailIsSole(db.users, r.0.users, id, d.parentalCode);
    PasswordResets.CheckSoleEmail(r.0.users, r.0.resets, id, r.1.value.reset, req.email.value, d.token, now);
  }

  // ------------------------------------------------------------------ update

  /**
   * Whether a new value for a unique column is refused. As written, the
   * check runs only when the current value is not PHP-empty (`lenient`);
   * a value loosely equal to the current one is never refused.
   */
  predicate Clash(lenient: bool, current: Field, next: Field, taken: bool) {
    !IsNull(next) && (!lenient || !PhpEmpty(current)) && !Same(current, next) && taken
  }

  /** Each profile column, replaced only by a non-null request value. */
  function PickProfile(req: Profile, p: Profile): Profile {
    Profile(Pick(req.firstname, p.firstname), Pick(req.lastname, p.lastname), Pick(req.surname, p.surname),
            Pick(req.gender, p.gender), Pick(req.birthDate, p.birthDate), Pick(req.city, p.city),
            Pick(req.address1, p.address1), Pick(req.address2, p.address2), Pick(req.poBox, p.poBox))
  }

  /** The first step of `update`: the profile columns, and nothing else. */
  function Describe(u: User, req: UserRequest): (u': User)
    ensures u' == u.(profile := u'.profile)
    ensures u'.profile == PickProfile(req.profile, u.profile)
  {
    u.(profile := PickProfile(req.profile, u.profile))
  }

  /** A new e-mail replaces the old one; its verification is cleared when it differs from the current one. */
  function NewEmail(u: User, current: Field, email: Field): (u': User)
    ensures IsNull(email) ==> u' == u
    ensures !IsNull(email) ==> u'.email == email
    ensures !IsNull(email) ==> u'.emailVerifiedAt == (if Same(current, email) then u.emailVerifiedAt else None)
    ensures u'.phone == u.phone && u'.username == u.username && u'.phoneVerifiedAt == u.phoneVerifiedAt
    ensures u'.password == u.password && u'.parentalCode == u.parentalCode
    ensures u' == u.(email := u'.email, emailVerifiedAt := u'.emailVerifiedAt)
  {
    if IsNull(email) then u
    else if Same(current, email) then u.(email := email)
    else u.(email := email, emailVerifiedAt := None)
  }

  /** The same for the phone number. */
  function NewPhone(u: User, current: Field, phone: Field): (u': User)
    ensures IsNull(phone) ==> u' == u
    ensures !IsNull(phone) ==> u'.phone == phone
    ensures !IsNull(phone) ==> u'.phoneVerifiedAt == (if Same(current, phone) then u.phoneVerifiedAt else None)
    ensures u'.email == u.email && u'.username == u.username && u'.emailVerifiedAt == u.emailVerifiedAt
    ensures u'.password == u.password && u'.parentalCode == u.parentalCode
    ensures u' == u.(phone := u'.phone, phoneVerifiedAt := u'.phoneVerifiedAt)
  {
    if IsNull(phone) then u
    else if Same(current, phone) then u.(phone := phone)
    else u.(phone := phone, phoneVerifiedAt := None)
  }

  /** The columns set after the parent: codes, verification times, theme, country and status. */
  function Settings(u: User, req: UserRequest): (u': User)
    ensures SameIdentity(u', u) && u'.password == u.password && u'.belongsTo == u.belongsTo
    ensures u'.parentalCode == Pick(req.parentalCode, u.parentalCode)
    ensures u'.emailVerifiedAt == Pick(req.emailVerifiedAt, u.emailVerifiedAt)
    ensures u'.phoneVerifiedAt == Pick(req.phoneVerifiedAt, u.phoneVerifiedAt)
  {
    u.(parentalCode := Pick(req.parentalCode, u.parentalCode),
       emailVerifiedAt := Pick(req.emailVerifiedAt, u.emailVerifiedAt),
       phoneVerifiedAt := Pick(req.phoneVerifiedAt, u.phoneVerifiedAt))
  }

  function Preferences(u: User, req: UserRequest): (u': User)
    ensures SameIdentity(u', u) && u'.password == u.password && u'.belongsTo == u.belongsTo
    ensures u'.parentalCode == u.parentalCode
    ensures u'.emailVerifiedAt == u.emailVerifiedAt && u'.phoneVerifiedAt == u.phoneVerifiedAt
    ensures u'.preferedTheme == Pick(req.preferedTheme, u.preferedTheme)
    ensures u'.countryId == PickId(req.countryId, u.countryId) && u'.statusId == PickId(req.statusId, u.statusId)
  {
    u.(preferedTheme := Pick(req.preferedTheme, u.preferedTheme),
       countryId := PickId(req.countryId, u.countryId), statusId := PickId(req.statusId, u.statusId))
  }

  predicate ChildOf(u: User, parent: nat) {
    u.belongsTo == Some(parent)
  }

  /** A new password for `self`, passed on to its children when it holds a parental code. */
  function NewPassword(users: Table<User>, self: nat, password: Field): (users': Table<User>)
    requires self in users.rows
    ensures users'.rows.Keys == users.rows.Keys
    ensures users'.rows[self].password == password
    ensures forall k :: k in users.rows ==>
              && SameIdentity(users'.rows[k], users.rows[k])
              && users'.rows[k] == if k == self || (!PhpEmpty(users.rows[self].parentalCode) && ChildOf(users.rows[k], self))
                                   then users.rows[k].(password := password) else users.rows[k]
  {
    var users1 := Put(users, self, users.rows[self].(password := password));
    if PhpEmpty(users.rows[self].parentalCode) then users1
    else Modify(users1, (c: User) => ChildOf(c, self), (c: User) => c.(password := password))
  }

  /**
   * A child whose reset row the password step of `update` reads but
   * does not find: the row is looked up by the child's e-mail when it has
   * one, else by its phone, and `update` is then called on null.
   */
  predicate ResetMissing(resets: Table<Reset>, c: User) {
    if !PhpEmpty(c.email) then !Any(resets, (x: Reset) => x.email == c.email)
    else !PhpEmpty(c.phone) && !Any(resets, (x: Reset) => x.phone == c.phone)
  }

  /** `self` holds a parental code and one of its children has no reset row to update. */
  predicate ChildResetMissing(users: Table<User>, resets: Table<Reset>, self: nat)
    requires self in users.rows
  {
    !PhpEmpty(users.rows[self].parentalCode) && Any(users, (c: User) => ChildOf(c, self) && ResetMissing(resets, c))
  }

  /**
   * The password step of `update` as written: the account takes the new
   * password, then each child in id order takes it and has its reset row
   * updated. At the first child whose reset row is missing the step
   * fails, the passwords up to that child written and the later children
   * untouched.
   */
  function SetPassword(users: Table<User>, resets: Table<Reset>, self: nat, password: Field): (r: (Table<User>, Option<Error>))
    requires self in users.rows
    ensures r.1.Some? <==> ChildResetMissing(users, resets, self)
    ensures r.1.None? ==> r.0 == NewPassword(users, self, password)
    ensures r.1.Some? ==>
              && r.1.value == ServerError("reset") && r.0.rows.Keys == users.rows.Keys
              && var c := First(users, (c: User) => ChildOf(c, self) && ResetMissing(resets, c)).value;
                 forall k :: k in users.rows ==>
                   r.0.rows[k] == if k == self || (ChildOf(users.rows[k], self) && k <= c)
                                  then users.rows[k].(password := password) else users.rows[k]
  {
    if !ChildResetMissing(users, resets, self) then (NewPassword(users, self, password), None)
    else
      var c := First(users, (c: User) => ChildOf(c, self) && ResetMissing(resets, c)).value;
      var users1 := Put(users, self, users.rows[self].(password := password));
      (ModifyAt(users1, (k: nat, x: User) => ChildOf(x, self) && k <= c, (x: User) => x.(password := password)),
       Some(ServerError("reset")))
  }

  /**
   * The row that `$request->id` designates, read before any write. With
   * no such row, `empty()` on its columns holds without a warning, so it
   * reads as a row whose columns are all null.
   */
  function CurrentOf(users: Table<User>, id: Option<nat>): User {
    if id.Some? && id.value in users.rows then users.rows[id.value] else NoUser
  }

  predicate EmailClash(users: Table<User>, current: User, lenient: bool, req: UserRequest) {
    Clash(lenient, current.email, req.email, Any(users, (u: User) => Same(u.email, req.email)))
  }

  predicate PhoneClash(users: Table<User>, current: User, lenient: bool, req: UserRequest) {
    Clash(lenient, current.phone, req.phone, Any(users, (u: User) => Same(u.phone, req.phone)))
  }

  predicate UsernameClash(users: Table<User>, current: User, lenient: bool, req: UserRequest) {
    Clash(lenient, current.username, req.username, Any(users, (u: User) => Same(u.username, req.username)))
  }

  /** Where a new e-mail or phone leaves its verification time before the request sets one. */
  function Verified(current: Field, next: Field, verifiedAt: Field): Field {
    if !IsNull(next) && !Same(current, next) then None else verifiedAt
  }

  /**
   * The first steps of `update` on row `u`: profile, e-mail, phone and
   * username, refused on the first clash with the accounts as read
   * before any write. On a refusal the row holds the steps already taken.
   */
  function Identify(u: User, users: Table<User>, current: User, lenient: bool, req: UserRequest): (r: (User, Option<Error>))
    ensures r.1.None? <==> !EmailClash(users, current, lenient, req) && !PhoneClash(users, current, lenient, req)
                           && !UsernameClash(users, current, lenient, req)
    ensures EmailClash(users, current, lenient, req) ==> r == (Describe(u, req), Some(Exists("email")))
    ensures r.1.Some? ==> r.1.value in {Exists("email"), Exists("phone"), Exists("username")}
    ensures r.0.password == u.password && r.0.parentalCode == u.parentalCode && r.0.belongsTo == u.belongsTo
    ensures r.1.None? ==> && r.0.email == Pick(req.email, u.email) && r.0.phone == Pick(req.phone, u.phone)
                          && r.0.username == Pick(req.username, u.username)
                          && r.0.emailVerifiedAt == Verified(current.email, req.email, u.emailVerifiedAt)
                          && r.0.phoneVerifiedAt == Verified(current.phone, req.phone, u.phoneVerifiedAt)
    ensures r.1.None? ==> r.0 == u.(profile := r.0.profile, email := r.0.email, phone := r.0.phone, username := r.0.username,
                                    emailVerifiedAt := r.0.emailVerifiedAt, phoneVerifiedAt := r.0.phoneVerifiedAt)
    ensures r.0.profile == PickProfile(req.profile, u.profile)
  {
    var u1 := Describe(u, req);
    if EmailClash(users, current, lenient, req) then (u1, Some(Exists("email")))
    else
      var u2 := NewEmail(u1, current.email, req.email);
      if PhoneClash(users, current, lenient, req) then (u2, Some(Exists("phone")))
      else
        var u3 := NewPhone(u2, current.phone, req.phone);
        if UsernameClash(users, current, lenient, req) then (u3, Some(Exists("username")))
        else (u3.(username := Pick(req.username, u3.username)), None)
  }

  /**
   * The code an account holds after naming `parent` as its parent: its
   * own, unless it is that parent and had none.
   */
  function OwnCode(held: Field, self: nat, parent: Option<nat>, code: Alnum7): Field {
    if parent == Some(self) && IsNull(held) then Some(code) else held
  }

  /** A new parent for `self`: the parent receives a code when it has none. */
  function Adopt(t: Table<User>, self: nat, parent: nat, code: Alnum7): (t': Table<User>)
    requires self in t.rows && parent in t.rows
    ensures t'.rows.Keys == t.rows.Keys
    ensures forall k :: k in t.rows ==> && SameIdentity(t'.rows[k], t.rows[k]) && t'.rows[k].password == t.rows[k].password
                                        && t'.rows[k].emailVerifiedAt == t.rows[k].emailVerifiedAt
                                        && t'.rows[k].phoneVerifiedAt == t.rows[k].phoneVerifiedAt
    ensures t'.rows[self].belongsTo == Some(parent)
    ensures !IsNull(t.rows[parent].parentalCode) ==> t'.rows[parent].parentalCode == t.rows[parent].parentalCode
    // only the parent column, and the code when the account names itself as parent, change in its own row
    ensures t'.rows[self] == t.rows[self].(belongsTo := Some(parent),
                                           parentalCode := OwnCode(t.rows[self].parentalCode, self, Some(parent), code))
  {
    var t1 := AssignParentalCode(t, parent, code);
    Put(t1, self, t1.rows[self].(belongsTo := Some(parent)))
  }

  /** The parent, code and verification-time steps of `update`, which come before the password. */
  function Prepare(t: Table<User>, self: nat, req: UserRequest, code: Alnum7): (t': Table<User>)
    requires self in t.rows && (req.belongsTo.None? || req.belongsTo.value in t.rows)
    ensures t'.rows.Keys == t.rows.Keys
    ensures forall k :: k in t.rows ==> SameIdentity(t'.rows[k], t.rows[k]) && t'.rows[k].password == t.rows[k].password
    ensures t'.rows[self].belongsTo == PickId(req.belongsTo, t.rows[self].belongsTo)
    ensures t'.rows[self].emailVerifiedAt == Pick(req.emailVerifiedAt, t.rows[self].emailVerifiedAt)
    ensures t'.rows[self].phoneVerifiedAt == Pick(req.phoneVerifiedAt, t.rows[self].phoneVerifiedAt)
    ensures t'.rows[self] == t.rows[self].(belongsTo := t'.rows[self].belongsTo,
                                           parentalCode := Pick(req.parentalCode, OwnCode(t.rows[self].parentalCode, self, req.belongsTo, code)),
                                           emailVerifiedAt := t'.rows[self].emailVerifiedAt,
                                           phoneVerifiedAt := t'.rows[self].phoneVerifiedAt)
  {
    var t5 := if req.belongsTo.None? then t else Adopt(t, self, req.belongsTo.value, code);
    Put(t5, self, Settings(t5.rows[self], req))
  }

  /** The password and preference steps of `update`, on the rows `Prepare` left. */
  function Finish(t: Table<User>, resets: Table<Reset>, self: nat, req: UserRequest, hash: string -> string)
    : (r: (Table<User>, Result<nat>))
    requires self in t.rows
    ensures r.0.rows.Keys == t.rows.Keys
    ensures forall k :: k in t.rows ==> SameIdentity(r.0.rows[k], t.rows[k])
    ensures r.1.Ok? <==> && !(!IsNull(req.password) && Unconfirmed(req.confirmPassword, req.password))
                         && !(!IsNull(req.password) && ChildResetMissing(t, resets, self))
    ensures r.1.Err? ==> r.1 in {Err(ConfirmMismatch), Err(ServerError("reset"))}
    ensures r.1.Ok? ==> && r.1.value == self
                        && r.0.rows[self].belongsTo == t.rows[self].belongsTo
                        && r.0.rows[self].password == (if IsNull(req.password) then t.rows[self].password
                                                       else Some(hash(req.password.value)))
                        && r.0.rows[self].emailVerifiedAt == t.rows[self].emailVerifiedAt
                        && r.0.rows[self].phoneVerifiedAt == t.rows[self].phoneVerifiedAt
    // the preferences are set and no other column of the account changes
    ensures r.1.Ok? ==> r.0.rows[self] == t.rows[self].(password := r.0.rows[self].password,
                                                        preferedTheme := Pick(req.preferedTheme, t.rows[self].preferedTheme),
                                                        countryId := PickId(req.countryId, t.rows[self].countryId),
                                                        statusId := PickId(req.statusId, t.rows[self].statusId))
  {
    if !IsNull(req.password) && Unconfirmed(req.confirmPassword, req.password) then (t, Err(ConfirmMismatch))
    else if IsNull(req.password) then (Put(t, self, Preferences(t.rows[self], req)), Ok(self))
    else
      var (t7, e) := SetPassword(t, resets, self, Some(hash(req.password.value)));
      if e.Some? then (t7, Err(e.value))
      else (Put(t7, self, Preferences(t7.rows[self], req)), Ok(self))
  }

  /** The remaining steps of `update`: parent, codes and verification times, password, preferences. */
  function Complete(t: Table<User>, resets: Table<Reset>, self: nat, req: UserRequest, code: Alnum7, hash: string -> string)
    : (r: (Table<User>, Result<nat>))
    requires self in t.rows
    ensures r.0.rows.Keys == t.rows.Keys
    ensures forall k :: k in t.rows ==> SameIdentity(r.0.rows[k], t.rows[k])
    ensures r.1.Ok? <==> && (req.belongsTo.None? || req.belongsTo.value in t.rows)
                         && !(!IsNull(req.password) && Unconfirmed(req.confirmPassword, req.password))
                         && !(!IsNull(req.password) && ChildResetMissing(Prepare(t, self, req, code), resets, self))
    ensures r.1.Err? ==> r.1 in {Err(NotFound("parent")), Err(ConfirmMismatch), Err(ServerError("reset"))}
    ensures r.1.Ok? ==> && r.1.value == self
                        && r.0.rows[self].belongsTo == PickId(req.belongsTo, t.rows[self].belongsTo)
                        && r.0.rows[self].password == (if IsNull(req.password) then t.rows[self].password
                                                       else Some(hash(req.password.value)))
                        && r.0.rows[self].emailVerifiedAt == Pick(req.emailVerifiedAt, t.rows[self].emailVerifiedAt)
                        && r.0.rows[self].phoneVerifiedAt == Pick(req.phoneVerifiedAt, t.rows[self].phoneVerifiedAt)
    ensures r.1.Ok? ==> r.0.rows[self] == t.rows[self].(belongsTo := r.0.rows[self].belongsTo,
                                                        parentalCode := Pick(req.parentalCode, OwnCode(t.rows[self].parentalCode, self, req.belongsTo, code)),
                                                        emailVerifiedAt := r.0.rows[self].emailVerifiedAt,
                                                        phoneVerifiedAt := r.0.rows[self].phoneVerifiedAt,
                                                        password := r.0.rows[self].password,
                                                        preferedTheme := Pick(req.preferedTheme, t.rows[self].preferedTheme),
                                                        countryId := PickId(req.countryId, t.rows[self].countryId),
                                                        statusId := PickId(req.statusId, t.rows[self].statusId))
  {
    if req.belongsTo.Some? && req.belongsTo.value !in t.rows then (t, Err(NotFound("parent")))
    else Finish(Prepare(t, self, req, code), resets, self, req, hash)
  }

  /** The rows as the password step of `update` finds them: identity, parent and verification steps done. */
  function Staged(users: Table<User>, self: nat, current: User, lenient: bool, req: UserRequest, code: Alnum7): Table<User>
    requires self in users.rows && (req.belongsTo.None? || req.belongsTo.value in users.rows)
  {
    Prepare(Put(users, self, Identify(users.rows[self], users, current, lenient, req).0), self, req, code)
  }

  /**
   * When `update` against the snapshot `current` succeeds: no new
   * e-mail, phone or username clashes, the parent exists, a new password
   * is confirmed, and no child of the account lacks the reset row the
   * password step updates.
   */
  predicate Accepted(users: Table<User>, resets: Table<Reset>, self: nat, current: User, lenient: bool,
                     req: UserRequest, code: Alnum7)
    requires self in users.rows
  {
    && !EmailClash(users, current, lenient, req) && !PhoneClash(users, current, lenient, req)
    && !UsernameClash(users, current, lenient, req)
    && (req.belongsTo.None? || req.belongsTo.value in users.rows)
    && !(!IsNull(req.password) && Unconfirmed(req.confirmPassword, req.password))
    && !(!IsNull(req.password) && ChildResetMissing(Staged(users, self, current, lenient, req, code), resets, self))
  }

  /**
   * What a successful `update` leaves in the route's row: each profile,
   * identity, code, preference and parent column replaced by a non-null
   * request value, the hashed password, verification times cleared by a
   * change of address unless the request sets them, and the API token
   * and documents untouched; no other account's identity changes.
   */
  predicate Applied(users: Table<User>, self: nat, current: User, req: UserRequest, code: Alnum7,
                    hash: string -> string, t: Table<User>)
    requires self in users.rows
  {
    var u := users.rows[self];
    && t.rows.Keys == users.rows.Keys
    && (forall k :: k in users.rows && k != self ==> SameIdentity(t.rows[k], users.rows[k]))
    && t.rows[self] == u.(profile := PickProfile(req.profile, u.profile),
                          email := Pick(req.email, u.email), phone := Pick(req.phone, u.phone),
                          username := Pick(req.username, u.username),
                          belongsTo := PickId(req.belongsTo, u.belongsTo),
                          parentalCode := Pick(req.parentalCode, OwnCode(u.parentalCode, self, req.belongsTo, code)),
                          password := if IsNull(req.password) then u.password else Some(hash(req.password.value)),
                          emailVerifiedAt := Pick(req.emailVerifiedAt, Verified(current.email, req.email, u.emailVerifiedAt)),
                          phoneVerifiedAt := Pick(req.phoneVerifiedAt, Verified(current.phone, req.phone, u.phoneVerifiedAt)),
                          preferedTheme := Pick(req.preferedTheme, u.preferedTheme),
                          countryId := PickId(req.countryId, u.countryId),
                          statusId := PickId(req.statusId, u.statusId))
  }

  /**
   * `update` of the route's user `self` against the snapshot `current`,
   * each step writing as it goes. `lenient` is the source's rule that a
   * new value is checked for clashes only when the current one is set.
   */
  function UpdateFrom(users: Table<User>, resets: Table<Reset>, self: nat, current: User, lenient: bool,
                      req: UserRequest, code: Alnum7, hash: string -> string): (r: (Table<User>, Result<nat>))
    requires self in users.rows
    ensures r.0.rows.Keys == users.rows.Keys
    // no account other than self changes its identity, even on a refusal
    ensures forall k :: k in users.rows && k != self ==> SameIdentity(r.0.rows[k], users.rows[k])
    ensures r.1.Ok? <==> Accepted(users, resets, self, current, lenient, req, code)
    ensures r.1.Ok? ==> r.1.value == self && Applied(users, self, current, req, code, hash, r.0)
  {
    var (u, e) := Identify(users.rows[self], users, current, lenient, req);
    var t := Put(users, self, u);
    if e.Some? then (t, Err(e.value)) else Complete(t, resets, self, req, code, hash)
  }

  /**
   * The body's id names no account, and the request sets an e-mail or a
   * phone: that step compares the new value with a column of null, which
   * fails.
   */
  predicate SnapshotMissing(users: Table<User>, req: UserRequest) {
    !Finds(users, req.id) && (!IsNull(req.email) || !IsNull(req.phone))
  }

  /**
   * `update` as written: the snapshot is the row the request body's id
   * names, and a new value is checked only when the current one is set.
   * When the snapshot is missing, the profile steps are written and the
   * e-mail or phone step fails.
   */
  function Update(users: Table<User>, resets: Table<Reset>, self: nat, req: UserRequest, code: Alnum7,
                  hash: string -> string): (r: (Table<User>, Result<nat>))
    ensures self !in users.rows ==> r == (users, Err(NotFound("user")))
    ensures self in users.rows && SnapshotMissing(users, req) ==>
              r == (Put(users, self, Describe(users.rows[self], req)), Err(ServerError("user")))
    ensures self in users.rows ==>
              (r.1.Ok? <==> (!SnapshotMissing(users, req) && Accepted(users, resets, self, CurrentOf(users, req.id), true, req, code)))
    ensures self in users.rows && r.1.Ok? ==> r.1.value == self && Applied(users, self, CurrentOf(users, req.id), req, code, hash, r.0)
    ensures self in users.rows ==> forall k :: k in users.rows && k != self ==> k in r.0.rows && SameIdentity(r.0.rows[k], users.rows[k])
  {
    if self !in users.rows then (users, Err(NotFound("user")))
    else if SnapshotMissing(users, req) then (Put(users, self, Describe(users.rows[self], req)), Err(ServerError("user")))
    else UpdateFrom(users, resets, self, CurrentOf(users, req.id), true, req, code, hash)
  }

  /**
   * `update` as evidently intended: the route's own row is the snapshot,
   * and a new e-mail, phone or username is checked even when the current
   * one is empty.
   */
  function UpdateIntended(users: Table<User>, resets: Table<Reset>, self: nat, req: UserRequest, code: Alnum7,
                          hash: string -> string): (r: (Table<User>, Result<nat>))
    ensures self !in users.rows ==> r == (users, Err(NotFound("user")))
    ensures self in users.rows ==> (r.1.Ok? <==> Accepted(users, resets, self, users.rows[self], false, req, code))
    ensures self in users.rows && r.1.Ok? ==> r.1.value == self && Applied(users, self, users.rows[self], req, code, hash, r.0)
    ensures self in users.rows ==> forall k :: k in users.rows && k != self ==> k in r.0.rows && SameIdentity(r.0.rows[k], users.rows[k])
  {
    if self !in users.rows then (users, Err(NotFound("user")))
    else UpdateFrom(users, resets, self, users.rows[self], false, req, code, hash)
  }

  /**
   * The two updates agree when the body's id is the route's user and
   * that user's e-mail, phone and username are all set: the lenient
   * check then runs every time.
   */
  lemma UpdateIntendedAgrees(users: Table<User>, resets: Table<Reset>, self: nat, req: UserRequest, code: Alnum7,
                             hash: string -> string)
    requires self in users.rows && req.id == Some(self)
    requires !PhpEmpty(users.rows[self].email) && !PhpEmpty(users.rows[self].phone)
    requires !PhpEmpty(users.rows[self].username)
    ensures Update(users, resets, self, req, code, hash) == UpdateIntended(users, resets, self, req, code, hash)
  {
    var u := users.rows[self];
    assert CurrentOf(users, req.id) == u;
    assert EmailClash(users, u, true, req) == EmailClash(users, u, false, req);
    assert PhoneClash(users, u, true, req) == PhoneClash(users, u, false, req);
    assert UsernameClash(users, u, true, req) == UsernameClash(users, u, false, req);
    assert Identify(u, users, u, true, req) == Identify(u, users, u, false, req);
  }

  /** The intended update keeps e-mails, phones and usernames unique. */
  lemma UpdateIntendedKeepsIdentitiesUnique(users: Table<User>, resets: Table<Reset>, self: nat, req: UserRequest,
                                             code: Alnum7, hash: string -> string)
    requires UniqueIdentities(users)
    requires UpdateIntended(users, resets, self, req, code, hash).1.Ok?
    ensures UniqueIdentities(UpdateIntended(users, resets, self, req, code, hash).0)
  {
    var t := UpdateIntended(users, resets, self, req, code, hash).0;
    var u := users.rows[self];
    forall i, j | i in t.rows && j in t.rows && i != j
      ensures && (!IsNull(t.rows[i].email) ==> t.rows[i].email != t.rows[j].email)
              && (!IsNull(t.rows[i].phone) ==> t.rows[i].phone != t.rows[j].phone)
              && (!IsNull(t.rows[i].username) ==> t.rows[i].username != t.rows[j].username)
    {
      if i != self && j != self {
        assert SameIdentity(t.rows[i], users.rows[i]) && SameIdentity(t.rows[j], users.rows[j]);
      } else {
        var other := if i == self then j else i;
        assert SameIdentity(t.rows[other], users.rows[other]);
        assert !IsNull(req.email) && !Same(u.email, req.email) ==> !Same(users.rows[other].email, req.email);
        assert !IsNull(req.phone) && !Same(u.phone, req.phone) ==> !Same(users.rows[other].phone, req.phone);
        assert !IsNull(req.username) && !Same(u.username, req.username) ==> !Same(users.rows[other].username, req.username);
      }
    }
  }

  /** The request that changes only the e-mail of user `self` to `email`. */
  function EmailOnly(self: nat, email: string): UserRequest {
    UserRequest(Some(self), NoProfile, Some(email), None, None, None, None, None, None,
                None, None, None, None, None, None)
  }

  /**
   * As written, an account without an e-mail can take another account's
   * address: the clash check is skipped because the current address is
   * empty. For instance user 2, holding only a phone number, is given the
   * address of user 1.
   */
  lemma UpdateDuplicatesEmail(users: Table<User>, resets: Table<Reset>, self: nat, other: nat, email: string,
                              code: Alnum7, hash: string -> string)
    requires self in users.rows && other in users.rows && self != other
    requires PhpEmpty(users.rows[self].email) && users.rows[other].email == Some(email) && email != ""
    ensures var r := Update(users, resets, self, EmailOnly(self, email), code, hash);
            && r.1 == Ok(self) && r.0.rows[self].email == Some(email) && r.0.rows[other].email == Some(email)
            && !UniqueIdentities(r.0)
  {
    var req := EmailOnly(self, email);
    var current := CurrentOf(users, req.id);
    assert !EmailClash(users, current, true, req) && !PhoneClash(users, current, true, req);
    assert !UsernameClash(users, current, true, req);
    var r := Update(users, resets, self, req, code, hash);
    assert SameIdentity(r.0.rows[other], users.rows[other]);
  }

  /** The request in which every field is null. */
  const NoChange: UserRequest := UserRequest(None, NoProfile, None, None, None, None, None, None, None,
                                          None, None, None, None, None, None)

  /** An update whose every field is null changes nothing. */
  lemma EmptyUpdateIsIdentity(users: Table<User>, resets: Table<Reset>, self: nat, code: Alnum7, hash: string -> string)
    requires self in users.rows
    ensures Update(users, resets, self, NoChange, code, hash) == (users, Ok(self))
  {
    var r := Update(users, resets, self, NoChange, code, hash);
    assert r.0.rows == users.rows;
  }

  // ----------------------------------------------------------------- destroy

  predicate ResetOfEmail(x: Reset, u: User) {
    x.email.Some? && x.email == u.email
  }

  predicate ResetOfPhone(x: Reset, u: User) {
    x.phone.Some? && x.phone == u.phone
  }

  /**
   * `destroy`: the children are orphaned, the account's reset row goes
   * (the e-mail one when there is one, else the phone one), and so does
   * the account.
   */
  function Destroy(db: Accounts, id: nat): (r: Result<Accounts>)
    ensures r.Err? <==> id !in db.users.rows
    ensures r.Ok? ==> r.value.users.rows.Keys == db.users.rows.Keys - {id}
    // nobody belongs to the deleted account any more
    ensures r.Ok? ==> forall k :: k in r.value.users.rows ==> !ChildOf(r.value.users.rows[k], id)
    // a former child loses only its parent
    ensures r.Ok? ==> forall k :: k in r.value.users.rows ==>
              r.value.users.rows[k] == if ChildOf(db.users.rows[k], id) then db.users.rows[k].(belongsTo := None)
                                       else db.users.rows[k]
    // at most one reset row goes, and only one of the account's
    ensures r.Ok? ==> (|| r.value.resets.rows == db.resets.rows
                       || exists x :: && x in db.resets.rows && r.value.resets.rows == db.resets.rows - {x}
                                     && (ResetOfEmail(db.resets.rows[x], db.users.rows[id]) || ResetOfPhone(db.resets.rows[x], db.users.rows[id])))
    ensures r.Ok? && Any(db.resets, (x: Reset) => ResetOfEmail(x, db.users.rows[id])) ==>
              r.value.resets.rows == db.resets.rows - {First(db.resets, (x: Reset) => ResetOfEmail(x, db.users.rows[id])).value}
  {
    if id !in db.users.rows then Err(NotFound("user"))
    else
      var u := db.users.rows[id];
      var byEmail := First(db.resets, (x: Reset) => ResetOfEmail(x, u));
      var byPhone := First(db.resets, (x: Reset) => ResetOfPhone(x, u));
      var orphaned := Modify(db.users, (c: User) => ChildOf(c, id), (c: User) => c.(belongsTo := None));
      var resets' := if byEmail.Some? then Remove(db.resets, byEmail.value)
                     else if byPhone.Some? then Remove(db.resets, byPhone.value)
                     else db.resets;
      Ok(Accounts(Remove(orphaned, id), resets'))
  }

  /** Deleting an account keeps the remaining identities unique. */
  lemma DestroyKeepsIdentitiesUnique(db: Accounts, id: nat)
    requires UniqueIdentities(db.users) && Destroy(db, id).Ok?
    ensures UniqueIdentities(Destroy(db, id).value.users)
  {
    var t := Destroy(db, id).value.users;
    forall i, j | i in t.rows && j in t.rows && i != j
      ensures && (!IsNull(t.rows[i].email) ==> t.rows[i].email != t.rows[j].email)
              && (!IsNull(t.rows[i].phone) ==> t.rows[i].phone != t.rows[j].phone)
              && (!IsNull(t.rows[i].username) ==> t.rows[i].username != t.rows[j].username)
    {
      assert SameIdentity(t.rows[i], db.users.rows[i]) && SameIdentity(t.rows[j], db.users.rows[j]);
    }
  }
}
